=== FILE: README.md ===
# MedlockDarts scoring engine in Dafny

A model of the turn-scoring and game-state engine of MedlockDarts, a darts league app, with proofs about it. The app scores four variants: X01, Cricket, Shanghai and Round the World. Sides are solo, 1 v 1, or teams of two to four.

The model covers:

- the turn-order rules: the natural interleave, a cork order, and the order derived for even-numbered games and rematches;
- the X01 engine: dart values, double-in, bust and double-out, both input modes and the numpad;
- the Cricket/Shanghai mark board: tap limits, the turn preview, the state update, the win check and the all-star tiers;
- the Round-the-World sequence;
- the server's turn and cricket-state handlers: undo, upsert, rollback, match completion and semi-finals to final;
- the cork ceremony and the match page's order rules;
- round-robin and playoff generation;
- the ad-hoc setup page, the route checks and the fast-score settings.

Each module follows one source component:

| module | file | source |
|---|---|---|
| Base | base.dfy | option/response types, sums, `find`, `map`, `ISNULL(MAX(...), 0)` |
| Records | records.dfy | the `Turns`, `CricketTurns` and `CricketState` rows, darts, board keys |
| Sorting | sorting.dfy | the stable numeric-comparator array sort |
| TurnOrder | turn_order.dfy | the scoreboards' player order, current thrower and round |
| X01 | x01.dfy | client/src/components/games/X01Scoreboard.tsx |
| MarkBoard | mark_board.dfy | CricketScoreboard.tsx and ShanghaiScoreboard.tsx |
| RoundTheWorld | round_the_world.dfy | RoundTheWorldScoreboard.tsx |
| GameService | game_service.dfy | server/src/services/gameService.ts |
| Cork | cork.dfy | client/src/components/match/Cork.tsx |
| GamePage | game_page.dfy | client/src/pages/GamePage.tsx |
| Season | season.dfy | server/src/services/seasonService.ts |
| PlaySetup | play_setup.dfy | client/src/pages/PlayGamePage.tsx |
| Routes | routes.dfy | server/src/routes/gameRoutes.ts |
| Settings | settings.dfy | SettingsPage.tsx and SettingsContext.tsx |

Persistence is modelled as values: the turn tables are sequences and the `CricketState` table is a map from team-season id to row. The `Details` JSON text of a turn is a sum type with one case per shape the program writes. A JavaScript falsy value (`undefined`, `null`, `0`, `''`) is `None` or, where the code reads it as a number, `0`.

In a few places the code does something a reader might not expect, and the model follows the code:

- Restoring a stored cork order keeps the stored ids that name a game player and reuses them when their count equals the roster size. It does not check that every player appears, or that no id repeats (`GamePage.RestoreCountsOnly`).
- The X01 base score is `remaining || target`, so a stored remaining of 0 reads as the full target.
- In turn-total mode the darts thrown are `dartsOverride || 3`, so an override of 0 records 3 darts.
- The server treats a winner id of 0 or NULL as "no winner".
- A solo ad-hoc game registers the same team on both sides (`GameService.SoloGameIsAlwaysThePlayer`).
- The Cricket undo subtracts the turn's columns from marks that were capped at 9 when stored, so one add-then-undo does not round-trip once the cap is hit (`GameService.CapBreaksCricketUndo`).

## Model

| member | source | states |
|---|---|---|
| TurnOrder.OnSide | client/src/components/games/X01Scoreboard.tsx:115-116 | the side list holds only players of that side |
| TurnOrder.OnSideCounts | client/src/components/games/X01Scoreboard.tsx:115-116 | the side list holds every player of that side exactly as often as the roster does, and nobody else |
| TurnOrder.SidesSplitRoster | client/src/components/games/X01Scoreboard.tsx:115-116 | when every player is on one of two distinct sides, the home and away lists together are the roster, as a multiset |
| TurnOrder.Interleave | client/src/components/games/X01Scoreboard.tsx:124-129 | the natural order has one entry per player of the two sides |
| TurnOrder.InterleaveAt | client/src/components/games/X01Scoreboard.tsx:126-129 | home[i] sits at position 2i and away[i] at 2i+1 while both sides have an i-th player |
| TurnOrder.InterleavePermutes | client/src/components/games/X01Scoreboard.tsx:124-129 | interleaving loses and invents nobody: the result is the two sides as a multiset |
| TurnOrder.ResolveOrder | client/src/components/games/X01Scoreboard.tsx:130-134 | the passed list is used exactly when it counts as custom (its first player differs from the natural first), the natural order otherwise |
| TurnOrder.ResolvedOrderIsRoster | client/src/components/games/X01Scoreboard.tsx:120-135 | whichever list is chosen, it is a rearrangement of the roster when every player is on one of the two sides |
| TurnOrder.OrderDrawsFromRoster | client/src/components/games/X01Scoreboard.tsx:120-135 | everybody the order names is on the roster |
| TurnOrder.ThrowerIndex | client/src/components/games/X01Scoreboard.tsx:136-138 | the thrower's index is below the order length and, with the round, recovers the turn count: (round - 1) * length + index = turns |
| TurnOrder.CurrentThrower | client/src/components/games/X01Scoreboard.tsx:136-137 | there is a thrower iff the order is non-empty, and it is a member of the order |
| TurnOrder.FullPassRepeats | client/src/components/games/X01Scoreboard.tsx:136-138 | one full pass of the order later the same player throws, one round further on |
| TurnOrder.FourPlayerRotation | client/src/components/games/X01Scoreboard.tsx:120-138 | with two players a side in roster order, the throw order is home 1, away 1, home 2, away 2; the second turn is away 1's and the fifth is home 1's again, in round 2 |
| X01.TargetOf | client/src/components/games/X01Scoreboard.tsx:110 | a missing or zero X01Target falls back to 501; any other target is used as given |
| X01.DartScore | client/src/components/games/X01Scoreboard.tsx:42-50 | every legal dart is worth 0..60, it is 0 exactly for a miss, and a double is worth an even amount of at least 2 |
| X01.FirstDouble | client/src/components/games/X01Scoreboard.tsx:56 | `findIndex(isDouble)`: None iff no dart is a double; otherwise the index of a double with no double before it |
| X01.EffectiveTurnScore | client/src/components/games/X01Scoreboard.tsx:52-59 | without a double-in requirement, or once the side is in, the whole raw total; otherwise 0 with no double, else the total from the first double on; with legal darts it lies between 0 and the raw total |
| X01.RawSuffixBounded | client/src/components/games/X01Scoreboard.tsx:58 | the darts from any index on score between 0 and the whole turn |
| X01.X01AllStarLevel | client/src/components/games/X01Scoreboard.tsx:65-73 | the score, doubled for a double-in or game-out turn, earns at least AllStar iff it is 95 or more, at least DoubleAllStar iff 126 or more, TripleAllStar iff 171 or more; a score of 0 or less never earns a star |
| X01.AllStarMonotone | client/src/components/games/X01Scoreboard.tsx:65-73 | a higher score never earns a lower all-star tier |
| X01.AllStarDoubledTurn | client/src/components/games/X01Scoreboard.tsx:67-68 | a double-in or game-out turn earns the tier of a plain turn worth twice as much |
| X01.Tally | client/src/components/games/X01Scoreboard.tsx:141-154 | the folded side state always has remaining = target - total |
| X01.TallyAppend | client/src/components/games/X01Scoreboard.tsx:141-154 | appending a side's own turn lowers its remaining by the turn's score, and the side is in afterwards iff it was before or the turn doubled in |
| X01.TallyClosedForm | client/src/components/games/X01Scoreboard.tsx:141-154 | the fold in closed form: total is the sum of that side's turn scores, remaining is target minus that sum, and the side is in iff one of its turns was a double-in |
| X01.DoubledInStays | client/src/components/games/X01Scoreboard.tsx:149 | once a side has doubled in, appending turns never takes it out |
| X01.CurrentSide | client/src/components/games/X01Scoreboard.tsx:143-145 | only the match's two sides have a tally, and it is the fold of the log for that side |
| X01.BaseRemaining | client/src/components/games/X01Scoreboard.tsx:196 | the remaining falls back to the target: a stored remaining of 0, or no side, reads as the target |
| X01.ContextFor | client/src/components/games/X01Scoreboard.tsx:136-138 | the scoreboard context counts the stored turns and takes the current thrower's side tally |
| X01.FinishTurn | client/src/components/games/X01Scoreboard.tsx:192-222 | the stored row: thrower, turn number turns+1, round, dart count; IsDoubleIn iff double-in is required, the side is not in, the turn is no bust and some dart is a double; a non-bust turn stores the effective score, the base remaining minus it, and is a game-out iff it scores the whole base remaining; a bust stores score 0, the unchanged remaining and neither flag |
| X01.Throw | client/src/components/games/X01Scoreboard.tsx:319-360 | a dart either leaves the turn open, with the dart appended and at most 2 darts and a remaining of at least 2, or finishes it with one more dart than before |
| X01.ThrowOutcome | client/src/components/games/X01Scoreboard.tsx:321-356 | the dart-mode bust rule: below 0, exactly 1, or 0 off a non-double ends the turn with score 0, the remaining kept and IsGameOut and IsDoubleIn false; 0 on a double is a game-out leaving 0; otherwise the turn ends iff it is the third dart, and such a turn is no game-out and stores the new remaining |
| X01.ConfirmDart | client/src/components/games/X01Scoreboard.tsx:308-316 | nothing happens without a selected segment or a thrower; a selected miss is thrown with multiplier 0 |
| X01.SegmentTap | client/src/components/games/X01Scoreboard.tsx:364-416 | without a pre-selected multiplier a tap only selects the segment; with one and a thrower the dart is thrown at once |
| X01.HandleMiss | client/src/components/games/X01Scoreboard.tsx:419-431 | a miss appends a zero dart, does nothing without a thrower, and can end the turn as a game-out only when the remaining is already 0 |
| X01.EffectiveIgnoresMiss | client/src/components/games/X01Scoreboard.tsx:52-59 | a trailing miss changes no effective score, whatever the double-in state |
| X01.MissShortcutAgrees | client/src/components/games/X01Scoreboard.tsx:419-431 | on every turn the pad can be in, the miss shortcut has the same result as confirming a selected miss |
| X01.DartTurnLeavesLegalRemaining | client/src/components/games/X01Scoreboard.tsx:321-356 | from a remaining of at least 2, every stored dart-mode turn leaves 0 or at least 2 |
| X01.DartCheckoutIsDoubleOut | client/src/components/games/X01Scoreboard.tsx:345-349 | a dart-mode game-out ends on a double, scores the whole remaining and stores remaining 0 |
| X01.DartTurnAtMost180 | client/src/components/games/X01Scoreboard.tsx:42-59 | a stored dart-mode turn of legal darts scores between 0 and 180 |
| X01.RawTotalAtMost60Each | client/src/components/games/X01Scoreboard.tsx:42-46 | legal darts total at most 60 each |
| X01.HandleUndo | client/src/components/games/X01Scoreboard.tsx:434-442 | with darts pending the last dart is dropped; otherwise the last stored turn is undone iff there is one |
| X01.UndoDartRestores | client/src/components/games/X01Scoreboard.tsx:434-438 | undoing a dart that left the turn open gives back the darts from before it |
| X01.RecordedRemainingMatchesTally | client/src/components/games/X01Scoreboard.tsx:196-199 | the remaining a stored turn records equals the folded remaining after appending it, and the side is in afterwards iff it was before or this turn doubled in |
| X01.TurnTotalMatchesTally | client/src/components/games/X01Scoreboard.tsx:260-264 | the remaining a stored turn total records equals the folded remaining after appending it, and the side is in afterwards iff it was before or double-in is required and the total is positive |
| X01.SubmitTurnScore | client/src/components/games/X01Scoreboard.tsx:233-291 | a stored turn-total turn scores exactly the entered total, 0..180, records the base remaining minus the score, is a game-out iff it scores the whole remaining, a game-out needs the dart count from the prompt, and the turn is flagged as a double-in iff double-in is required, the side is not yet in and the total is positive |
| X01.ConfirmDartsAndSubmit | client/src/components/games/X01Scoreboard.tsx:300-305 | with no prompt open the button does nothing |
| X01.TurnModeBustIsRefused | client/src/components/games/X01Scoreboard.tsx:239-256 | in turn-total mode a total leaving below 0 or exactly 1 is refused and nothing is stored, every stored turn leaves 0 or at least 2, and the dart prompt opens iff the total finishes and no dart count was given |
| X01.PromptThenConfirm | client/src/components/games/X01Scoreboard.tsx:253-305 | answering the finish prompt stores a game-out with the prompted score and the chosen darts, 3 when the answer is 0 |
| X01.TurnModeHasNoDoubleOut | client/src/components/games/X01Scoreboard.tsx:239-261 | with 41 left a total of 41 is a game-out in turn-total mode, while treble 7 then single 20 busts in dart mode |
| X01.DecimalValue | client/src/components/games/X01Scoreboard.tsx:455 | the value of a digit string is never negative |
| X01.HandleNumpad | client/src/components/games/X01Scoreboard.tsx:445-458 | a key keeps the display a digit string and keeps its value at most 180; a digit is appended whenever the result stays at most 180 |
| X01.NumpadTotalsInRange | client/src/components/games/X01Scoreboard.tsx:445-458 | any key sequence from a display of at most 180 submits a total in 0..180, so the range check never refuses it |
| MarkBoard.BoardSegs | client/src/components/games/ShanghaiScoreboard.tsx:18-24 | the board's keys are listed without repetition: Cricket's seven segments, Shanghai's ten |
| MarkBoard.BoardSegsAreOnBoard | client/src/components/games/CricketScoreboard.tsx:28-32 | a key is in the board list exactly when the variant's board has it |
| MarkBoard.TotalTapsUpdate | client/src/components/games/CricketScoreboard.tsx:117-119 | changing or deleting one key of the pending taps moves the tap total by exactly the difference |
| MarkBoard.OverflowScoresMarksBeyondThree | client/src/components/games/CricketScoreboard.tsx:131-150 | a numbered or bull segment scores its taps beyond the marks still needed to close, times its value (25 for the bull), and nothing once the opponent has closed it |
| MarkBoard.OverflowExample | client/src/components/games/CricketScoreboard.tsx:131-150 | one mark on 20 plus three taps scores exactly 20 |
| MarkBoard.TurnMarksCountsAllTaps | client/src/components/games/CricketScoreboard.tsx:117-119 | with every tapped key on the board, the turn's marks are all of its taps |
| MarkBoard.ColumnsOver | client/src/components/games/CricketScoreboard.tsx:217-228 | the turn's per-segment columns hold exactly the touched board segments, each with its tap count |
| MarkBoard.WritesOver | client/src/components/games/CricketScoreboard.tsx:252-260 | the state write touches exactly the tapped board segments, each set to min(base + taps, 9) |
| MarkBoard.CompleteTurnTotals | client/src/components/games/CricketScoreboard.tsx:209-242 | the single loop of `completeTurn` computes the preview's marks and points, the bull taps, the columns and the capped writes, so the recorded points equal the previewed points |
| MarkBoard.MaxTapsAgreeOnCricketSegments | client/src/components/games/ShanghaiScoreboard.tsx:120-132 | Shanghai's extra both-closed test gives the same tap limit as Cricket's on the seven shared segments |
| MarkBoard.BothClosedTakesNoTaps | client/src/components/games/CricketScoreboard.tsx:155-169 | a segment both sides have closed takes no further taps, on either board |
| MarkBoard.HandleTap | client/src/components/games/ShanghaiScoreboard.tsx:142-162 | a tap leaves the entered extra scores alone, and asks for a score only for a Shanghai T/D/3B segment, naming that segment |
| MarkBoard.HandleUntap | client/src/components/games/CricketScoreboard.tsx:178-187 | untap lowers only the named segment by one, deletes the key at 1, does nothing at 0, and on Shanghai drops an extra segment's entered score |
| MarkBoard.TapKeepsLimits | client/src/components/games/CricketScoreboard.tsx:155-176 | an accepted tap keeps the pending turn within the limits: board keys only, at most 9 taps, and at most 3 marks on a segment the opponent has closed |
| MarkBoard.UntapKeepsLimits | client/src/components/games/CricketScoreboard.tsx:178-187 | removing a tap keeps the pending turn within the same limits |
| MarkBoard.UntapUndoesTap | client/src/components/games/CricketScoreboard.tsx:171-187 | untapping right after an accepted tap gives back exactly the taps from before it |
| MarkBoard.ConfirmExtraScore | client/src/components/games/ShanghaiScoreboard.tsx:178-183 | confirming stores the entered number, or 0, for the prompted segment, keeps every other segment's extra score and leaves the taps alone; without a prompt nothing changes |
| MarkBoard.HandleUndo | client/src/components/games/ShanghaiScoreboard.tsx:258-265 | with any pending tap the undo clears the taps (and Shanghai's extra scores) and keeps saved turns; with none it undoes the last saved turn iff there is one |
| MarkBoard.TapThenUndo | client/src/components/games/ShanghaiScoreboard.tsx:258-265 | an accepted tap followed by undo clears the pending turn (and Shanghai's extra scores) and keeps the saved turns; after a refused tap on an empty pending turn the undo reaches the last saved turn iff there is one |
| MarkBoard.UpdatedOwn | client/src/components/games/CricketScoreboard.tsx:285-292 | the row the win check rebuilds: touched board segments at min(base + taps, 9), everything else as stored, and points raised by the turn's points |
| MarkBoard.CompleteTurn | client/src/components/games/CricketScoreboard.tsx:203-304 | the sent update holds the capped writes and carries Points iff the turn scored, with the new total; no update is sent iff nothing was tapped and nothing scored; the Cricket row has the thrower's side, number turns+1, the turn's points, all taps as MarksScored and the tap columns; the Shanghai row has the points, the marks and the tap log |
| MarkBoard.ShanghaiBonus | client/src/components/games/ShanghaiScoreboard.tsx:267-283 | the bonus sends a Points-only update of the side's points plus 200 and records a bonus turn scoring 200 for the thrower's side |
| MarkBoard.CricketAllStarLevel | client/src/components/games/CricketScoreboard.tsx:51-57 | three or more bull marks give AllStar whatever the total; otherwise the turn earns at least AllStar iff it has 5 or more marks, at least DoubleAllStar iff 7 or more, TripleAllStar iff 9 or more |
| MarkBoard.BullTakesPrecedence | client/src/components/games/CricketScoreboard.tsx:51-57 | three or more bull marks are a plain all-star whatever the total, so nine bulls earn less than nine marks elsewhere |
| MarkBoard.CricketAllStarMonotone | client/src/components/games/CricketScoreboard.tsx:51-57 | below three bull marks, more marks never earn a lower tier |
| GameService.StoredRowMatchesWinCheck | client/src/components/games/CricketScoreboard.tsx:252-292 | the row the server holds after the update equals the row the win check rebuilt, key by key and in points, whenever the turn did not lose points |
| GameService.WinMatchesStoredRow | client/src/components/games/CricketScoreboard.tsx:285-303 | the scoreboard declares a win exactly when the stored row has every board segment closed and at least the opponent's points |
| GameService.BonusAddsExactly200 | client/src/components/games/ShanghaiScoreboard.tsx:267-283 | after the bonus is stored, the side's points are exactly 200 higher and no mark has changed |
| Records.FindOwn | server/src/services/gameService.ts:582 | a side's state row is found iff some row carries that side's id, and the state returned is that of the first such row |
| Records.FindOther | client/src/components/games/CricketScoreboard.tsx:124 | the opponent's row is found iff some row carries another side's id, and the state returned is that of the first such row |
| RoundTheWorld.BoardTargets | server/src/services/gameService.ts:93-94 | the targets are 1..20 and the bull: 21 of them |
| RoundTheWorld.Sequence | client/src/components/games/RoundTheWorldScoreboard.tsx:23-32 | a stored sequence is used as it is; otherwise the sequence has 21 entries ending on the bull (25) |
| RoundTheWorld.DownwardMirrorsUpward | client/src/components/games/RoundTheWorldScoreboard.tsx:27-31 | the '20to1' sequence is the default one read backwards over the twenty numbers: entry i is entry 19 - i of the other |
| RoundTheWorld.FixedSequencesCoverBoard | client/src/components/games/RoundTheWorldScoreboard.tsx:27-31 | both built-in sequences are rearrangements of 1..20 and 25 |
| RoundTheWorld.ReverseAt | client/src/components/games/RoundTheWorldScoreboard.tsx:28 | the reversed list holds entry i at position length - 1 - i |
| RoundTheWorld.ReversePermutes | client/src/components/games/RoundTheWorldScoreboard.tsx:28 | reversing keeps every entry, as a multiset |
| RoundTheWorld.HitsAtMostTurns | client/src/components/games/RoundTheWorldScoreboard.tsx:50-65 | a player's progress never exceeds the number of turns the player took |
| RoundTheWorld.HitsAfterTurn | client/src/components/games/RoundTheWorldScoreboard.tsx:56-62 | appending a turn raises a player's progress by one iff it is that player's hit; other players' turns never change it |
| RoundTheWorld.Progress | client/src/components/games/RoundTheWorldScoreboard.tsx:50-65 | only roster players have a progress entry, and it counts that player's hits |
| RoundTheWorld.Target | client/src/components/games/RoundTheWorldScoreboard.tsx:78-82 | a player has a target iff on the roster with progress below the sequence length, and then it is the sequence entry at that progress |
| RoundTheWorld.PlayerTotalAfterTurn | client/src/components/games/RoundTheWorldScoreboard.tsx:68-76 | appending a turn adds its score to its own player's total only; there is no bust and no side total |
| RoundTheWorld.SubmitScore | client/src/components/games/RoundTheWorldScoreboard.tsx:84-107 | nothing is stored iff there is no thrower or the thrower has no target; otherwise the row is the thrower's, numbered turns+1, scoring 0 on a miss, the given score when non-zero, else the target, and any winner is the thrower's side |
| RoundTheWorld.SubmitAdvancesThrower | client/src/components/games/RoundTheWorldScoreboard.tsx:101-107 | the stored turn advances only the thrower and only on a hit, and the game ends exactly when that leaves the thrower without a target |
| RoundTheWorld.FinishedPlayerCannotSubmit | client/src/components/games/RoundTheWorldScoreboard.tsx:84-87 | a thrower who has already hit every target cannot store a turn |
| GameService.BoardTargetsDistinct | server/src/services/gameService.ts:93-94 | the 21 shuffle inputs are pairwise distinct |
| GameService.ShuffleTargets | server/src/services/gameService.ts:92-101 | the Fisher-Yates loop, with each swap index chosen by the caller within 0..i, returns a rearrangement of 1..20 and 25: 21 distinct values |
| GameService.LatestIndex | server/src/services/gameService.ts:437-440 | `ORDER BY TurnNumber DESC` with `TOP 1`: an index of a turn whose number is the highest, with every earlier turn numbered strictly lower |
| GameService.RemoveAt | server/src/services/gameService.ts:507-511 | deleting one row leaves every other row, in order, and exactly one fewer as a multiset |
| GameService.AppendedTurnIsLatest | server/src/services/gameService.ts:437-442 | a turn numbered above every stored turn is the one undo picks, and deleting it gives back the earlier list |
| GameService.LessPoints | server/src/services/gameService.ts:484-497 | taking points off keeps the marks, never goes below 0, and is exact when the points suffice |
| GameService.RollbackTurn | server/src/services/gameService.ts:454-504 | the rollback creates no row and touches only the turn's side; an X01 or Round-the-World turn, or one without parseable details, rolls nothing back |
| GameService.RollbackSegment | server/src/services/gameService.ts:457-488 | the `{segment, marks}` rollback creates no row and touches only the turn's side |
| GameService.UndoLastTurn | server/src/services/gameService.ts:434-511 | with no turns nothing changes and the answer is false; otherwise the answer is true, exactly the highest-numbered turn is deleted and the state is rolled back for it |
| GameService.UndoShanghaiTapTurnKeepsState | server/src/services/gameService.ts:454-457 | an ordinary Shanghai turn stores its taps rather than a segment entry, so undoing it deletes the row and leaves all marks and points as they were |
| GameService.BonusUndoRestores | server/src/services/gameService.ts:491-501 | storing the Shanghai bonus then undoing it gives back the earlier turns and the side's marks and points (non-negative points), also on the side's first turn when the upsert creates its row; other rows are untouched, and a table that already had the side's row comes back exactly |
| GameService.UpsertRow | server/src/services/gameService.ts:533-578 | the stored row takes every supplied field and keeps every other field of an existing row; a new row starts every absent field at 0 |
| GameService.Upsert | server/src/services/gameService.ts:524-580 | upsert adds at most the side's own key and leaves every other side's row alone |
| GameService.UpsertIdempotent | server/src/services/gameService.ts:533-578 | sending the same update twice stores the same table as sending it once |
| GameService.RollbackCricket | server/src/services/gameService.ts:645-678 | the Cricket rollback lowers each of Seg20..Seg15 and SegBull by the turn's column, clamped at 0, only where the column is positive, keeps every other key, and lowers positive points the same way |
| GameService.UndoLastCricketTurn | server/src/services/gameService.ts:630-692 | with no turns nothing changes and the answer is false; otherwise the highest-numbered turn is deleted, its side's existing row is rolled back, and every other row and key is unchanged |
| GameService.CricketAddThenUndoRestores | server/src/services/gameService.ts:630-692 | when no segment hits the 9 cap, storing a Cricket turn and undoing it gives back the earlier turns and the side's marks and points, also on the side's first turn when its row did not exist yet; every other side's row is unchanged |
| GameService.CapBreaksCricketUndo | server/src/services/gameService.ts:663-667 | the cap breaks the round trip: 8 marks on 20 plus 3 taps stores 9, and the undo takes the 3 taps off, leaving 6 |
| GameService.CompletedCount | server/src/services/gameService.ts:268 | the completed games are at most all games |
| GameService.WinsAtMostCompleted | server/src/services/gameService.ts:285-293 | the two sides' win counts together never exceed the completed games |
| GameService.WinsAddUp | server/src/services/gameService.ts:285-293 | when every game is completed with one of the two sides as winner, the win counts add up to the number of games |
| GameService.CheckMatchCompletion | server/src/services/gameService.ts:266-296 | a match completes iff every game is completed and there are at least 5 (league) or at least 1 (ad-hoc); the scores are the win counts, the winner is home iff home won more, and league game wins are added to the standings only outside ad-hoc play |
| GameService.TieGoesToAway | server/src/services/gameService.ts:296 | equal win counts give the match to the away side; a single ad-hoc game with no winner completes with away as winner 0-0 |
| GameService.LeagueMatchHasMajorityWinner | server/src/services/gameService.ts:275-296 | five completed league games, each won by one side, complete the match 5 games in total with a winner of at least 3 |
| GameService.LoserIsTheOtherSide | server/src/services/gameService.ts:383-386 | a semi's loser is one of its two sides and not the winner, so loser and winner are its two sides |
| GameService.CheckSemiFinals | server/src/services/gameService.ts:339-391 | a final is created iff exactly two semis exist, both completed with a winner, and no final exists; it seats the first semi's winner at home and the second's away, in a round above every existing round, and eliminates both losers |
| GameService.FinalistsAreNotEliminated | server/src/services/gameService.ts:370-391 | with two disjoint semis, the two finalists differ and neither is among the eliminated |
| GameService.Seat | server/src/services/gameService.ts:880-887 | each listed id is seated on the side with PlayerOrder equal to its position plus 1 |
| GameService.AdHocPlayers | server/src/services/gameService.ts:880-887 | the ad-hoc roster is team A's seats, then team B's seats unless team B is empty (solo) |
| GameService.AdHocNaturalOrder | server/src/services/gameService.ts:880-887 | with two distinct sides the scoreboards' natural order of an ad-hoc roster interleaves team A's and team B's seats |
| GameService.SoloGameIsAlwaysThePlayer | server/src/services/gameService.ts:812-815 | in a solo game both sides are the same team, the natural order lists the one player twice, and that player throws every turn |
| GameService.StoreCompletion | client/src/components/games/CricketScoreboard.tsx:252-267 | a turn that sends no state update leaves the table alone; one that does upserts it into its own side's row |
| GameService.UndoAppendedCricketTurn | server/src/services/gameService.ts:630-692 | undoing a Cricket turn just appended above every earlier number deletes exactly it and rolls back only its side's row, if that row exists |
| Cork.OnSideKeepsDistinctIds | client/src/components/match/Cork.tsx:23-24 | filtering a roster with distinct ids by side keeps the ids distinct |
| Cork.FirstOtherThan | client/src/components/match/Cork.tsx:46-47 | `find(p => p.PlayerID !== id)`: a found partner is on the side with another id, and none is found iff every player of the side has that id |
| Cork.Finalize | client/src/components/match/Cork.tsx:42-55 | the cork order starts with the winner, then the second thrower when there is one, and has 1 to 4 entries |
| Cork.HandleCorkWinner | client/src/components/match/Cork.tsx:26-35 | picking the winner finalizes at once iff the opposing side has at most one player, with that player (or nobody) second; otherwise the opposing side is offered for the second pick |
| Cork.HandleSecondThrower | client/src/components/match/Cork.tsx:37-40 | the order starts with the winner and then the picked second thrower, who is on the other side unless both sides are one team |
| Cork.SecondThrowerIsOpponent | client/src/components/match/Cork.tsx:57-59 | with two distinct sides the second thrower, picked or automatic, always comes from the side opposite the cork winner |
| Cork.CorkOrderHasNoRepeats | client/src/components/match/Cork.tsx:42-55 | the cork order names nobody twice |
| Cork.CorkOrderCoversRoster | client/src/components/match/Cork.tsx:42-55 | for 1v1 and 2v2 with distinct ids the cork order is a rearrangement of the whole roster |
| Cork.SidesOfTheCork | client/src/components/match/Cork.tsx:44-45 | the winner's side holds the winner, and the winner's side and the opposing side together are the roster, each with distinct ids |
| Cork.FinalizeContents | client/src/components/match/Cork.tsx:46-52 | the order holds exactly the winner, the second thrower, and each side's first other player when one exists |
| Cork.PairPartner | client/src/components/match/Cork.tsx:46-47 | on a side of two players with different ids each player's partner is found, and the two of them are the side |
| Cork.SinglePartner | client/src/components/match/Cork.tsx:46-47 | a lone player on a side has no partner |
| GamePage.KnownPlayers | client/src/pages/GamePage.tsx:81 | the restored list keeps only ids that name a game player, in stored order, so it is never longer than the stored ids |
| GamePage.RestoreOrder | client/src/pages/GamePage.tsx:76-84 | a stored order is reused iff the number of ids that name a game player equals the roster size, and then it is those players in stored order |
| GamePage.FindByIdFinds | client/src/pages/GamePage.tsx:81 | with distinct ids, looking up a roster player's id finds that player |
| GamePage.KnownPlayersOfOrder | client/src/pages/GamePage.tsx:178 | the ids of an order drawn from a roster with distinct ids map back to that order |
| GamePage.StoredOrderRoundTrip | client/src/pages/GamePage.tsx:76-84 | saving a cork order as ids and restoring it gives back exactly that order whenever it is a rearrangement of the roster |
| GamePage.RestoreCountsOnly | client/src/pages/GamePage.tsx:81-82 | the restore only counts: two stored copies of one player's id restore that player twice for a two-player roster |
| GamePage.EvenGameOrder | client/src/pages/GamePage.tsx:222-264 | the even-game order is set iff the game number is even, no order is set, there are no turns, the game is open, there are at least 2 players, the previous games are loaded and game N-1's stored order starts with a game player; it is then the loser-first order |
| GamePage.CorkAndEvenOrderExclusive | client/src/pages/GamePage.tsx:270-272 | a game never both asks for a cork and derives the even-game order |
| GamePage.NeedsCork | client/src/pages/GamePage.tsx:270-272 | a cork is asked for only on a positive, odd-numbered game that has at least 2 players, no turns yet and is not completed |
| GamePage.EvenOrderIsRoster | client/src/pages/GamePage.tsx:245-257 | the even-game order is a rearrangement of the roster when every player is on one of the two sides |
| GamePage.EvenOrderLoserFirst | client/src/pages/GamePage.tsx:241-257 | the side opposite the previous first thrower throws first, the sides alternate, and each side goes by PlayerOrder descending |
| GamePage.EvenOrder | client/src/pages/GamePage.tsx:241-257 | the even-game order has one entry per player of the losing side and of the cork winner's side |
| GamePage.SortedSideMember | client/src/pages/GamePage.tsx:245-250 | sorting a side by PlayerOrder keeps every player on that side |
| GamePage.Rematch | client/src/pages/GamePage.tsx:193-214 | the rematch puts the losing side first as team A (home's winner sends away first), each side's ids by PlayerOrder ascending, and is team play iff either side has more than one player |
| GamePage.RematchLoserStarts | client/src/pages/GamePage.tsx:201-213 | after a home win the rematch's throw order opens with away's first player, then home's first |
| GamePage.NextGame | client/src/pages/GamePage.tsx:155-171 | a next game is created iff its number (games + 1) is at most 5 and has a format; it takes the format's type and double-in flag, a target only for X01 (0 reads as 501) and the mode 1to20 only for Round the World |
| GamePage.FiveGamesEndTheMatch | client/src/pages/GamePage.tsx:157-158 | after five completed league games the match completes and the page goes back to the match instead of creating a game |
| GamePage.AllCompletedCount | server/src/services/gameService.ts:268 | a list of completed games counts every game as completed |
| Season.Padded | server/src/services/seasonService.ts:141-142 | the circle list is the team ids in order, plus one bye entry exactly when their number is odd, so its length is always even |
| Season.Rotate | server/src/services/seasonService.ts:164-166 | one rotation keeps the list's length: the first entry stays, the last moves to index 1 |
| Season.Rotated | server/src/services/seasonService.ts:163-166 | the list after r rotations has the same length; with RotatedIsRepeatedRotation it is Rotate applied r times |
| Season.RotatedIsRepeatedRotation | server/src/services/seasonService.ts:146-167 | zero rotations leave the list alone, and r + 1 rotations are one more Rotate after r |
| Season.RotatedAt | server/src/services/seasonService.ts:164-166 | after r rotations every original entry sits at the closed-form position Pos, which is inside the list |
| Season.RotatedMembers | server/src/services/seasonService.ts:164-166 | rotation invents no team and keeps the bye exactly when the list had one |
| Season.RotatedDistinct | server/src/services/seasonService.ts:164-166 | rotating a list without repeats gives a list without repeats |
| Season.TurnedAt | server/src/services/seasonService.ts:164-166 | each entry of the rotated prefix is the closed-form entry after r rotations |
| Season.RotatedIndex | server/src/services/seasonService.ts:164-166 | every index of the rotated list holds the closed-form entry after r rotations |
| Season.Slot | server/src/services/seasonService.ts:147-150 | one slot yields at most one fixture: list[i] at home to list[len-1-i], and none when either is the bye |
| Season.SlotsAt | server/src/services/seasonService.ts:147-162 | the i-th slot list of a round is exactly Slot i |
| Season.RoundsAt | server/src/services/seasonService.ts:146-167 | the j-th round of the schedule is the slots of the list after j rotations, numbered j + 1 |
| Season.GenerateSchedule | server/src/services/seasonService.ts:120-175 | the schedule fails with status 400 exactly when there are fewer than 2 teams |
| Season.MeetRound | server/src/services/seasonService.ts:146-167 | for two distinct indices of a list of n + 1 entries (n odd), the rotation after which they face each other is below n |
| Season.PairedIff | server/src/services/seasonService.ts:147-149 | two distinct indices face each other after r rotations iff r is their MeetRound, so they face each other in exactly one round |
| Season.MeetRoundPairs | server/src/services/seasonService.ts:147-149 | two distinct non-pivot indices do face each other at their MeetRound |
| Season.PairedOnce | server/src/services/seasonService.ts:147-149 | two distinct non-pivot indices never face each other in two different rounds |
| Season.PairedWithFirst | server/src/services/seasonService.ts:147-149 | the fixed first entry faces index y exactly in round MeetRound(0, y) |
| Season.SlotPair | server/src/services/seasonService.ts:147-150 | slot i holds the fixture of two entries iff their positions sum to len - 1 and the smaller one is i |
| Season.FacingCount | server/src/services/seasonService.ts:146-167 | in round j two teams meet once iff their rotated positions face each other in the first half of the list, and not at all otherwise |
| Season.FacingIff | server/src/services/seasonService.ts:146-167 | two rotated positions face each other after r rotations iff r is the pair's MeetRound |
| Season.OneRoundPairCount | server/src/services/seasonService.ts:146-167 | two distinct teams meet once in round j iff j is their MeetRound, and not at all otherwise |
| Season.EveryPairMeetsOnce | server/src/services/seasonService.ts:133-167 | for at least two distinct teams the schedule succeeds and every pair of teams meets exactly once, in either home/away direction |
| Season.ScheduleHasOnlyTeams | server/src/services/seasonService.ts:146-162 | every scheduled fixture pairs two different given teams (never the bye) in a round between 1 and the round count |
| Season.OneFixturePerRound | server/src/services/seasonService.ts:146-167 | no team plays more than one fixture in any round |
| Season.RoundPlaysOnce | server/src/services/seasonService.ts:146-162 | within one round a team plays at most once, and only in that round's number |
| Season.RoundLength | server/src/services/seasonService.ts:144-150 | each round has len/2 fixtures, one fewer when the list carries the bye |
| Season.ScheduleSize | server/src/services/seasonService.ts:136-174 | the returned fixture count is n(n-1)/2 for n teams |
| Season.RegularMembers | server/src/services/seasonService.ts:187-190 | a match survives the playoff deletion iff it was there and is not a playoff match |
| Season.RegularOfRegular | server/src/services/seasonService.ts:187-190 | deleting playoff matches twice is the same as once |
| Season.RoundsOf | server/src/services/seasonService.ts:202-205 | the rounds read for the maximum are exactly the rounds of the remaining matches, one per match |
| Season.GeneratePlayoffs | server/src/services/seasonService.ts:179-199 | playoffs fail with status 400 exactly when there are fewer than 4 standings; otherwise the four seeds are the first four team-season ids in standings order |
| Season.SeedsAreTheTopFour | server/src/services/seasonService.ts:91 | in standings ranked by game wins (ties by lower id) every seeded team has at least the wins of every unseeded one |
| Season.DrawMatches | server/src/services/seasonService.ts:187-229 | the draw keeps exactly the non-playoff matches in order and appends two playoff semi-finals, 1 v 4 then 2 v 3, in one round later than every kept match |
| Season.SeedAndDraw | server/src/services/seasonService.ts:193-229 | the seeds are the first four standings' team-season ids, and the draw keeps the given matches as its prefix and adds exactly two |
| Season.RegeneratingPlayoffs | server/src/services/seasonService.ts:179-235 | generating the playoffs a second time yields the same draw, because the previous semi-finals are deleted first |
| Season.SemisSeatEachSeedOnce | server/src/services/seasonService.ts:209-229 | with four distinct seeds nobody plays themself and a team plays exactly one semi-final iff it is seeded |
| Season.RoundSize | server/src/services/seasonService.ts:144-150 | a round built from a list without repeats has a fixture per slot, one fewer when the list carries the bye |
| Base.MaxOrZero | server/src/services/seasonService.ts:202-205 | the maximum round is at least every round and is one of them, or 0 when there are no matches |
| Base.Find | client/src/pages/GamePage.tsx:159 | an entry is found iff one has the key; it is then an entry with that key, and no earlier entry has the key |
| PlaySetup.AvailableMembers | client/src/pages/PlayGamePage.tsx:39-43 | the picker offers a roster player iff they are active and on neither panel |
| PlaySetup.AddToTeam | client/src/pages/PlayGamePage.tsx:45-53 | a full panel (four players) is left alone; otherwise the player is appended to that panel and the other panel is untouched |
| PlaySetup.RemoveFromTeam | client/src/pages/PlayGamePage.tsx:55-61 | removing touches only the named panel |
| PlaySetup.WithoutMembers | client/src/pages/PlayGamePage.tsx:57 | after removal a player is on the panel iff they were before and have a different id |
| PlaySetup.RemoveUndoesAdd | client/src/pages/PlayGamePage.tsx:45-61 | removing a player just added to a panel that had room and did not hold them restores the setup |
| PlaySetup.MovePlayer | client/src/pages/PlayGamePage.tsx:63-72 | a move keeps the panel's length |
| PlaySetup.MoveSwaps | client/src/pages/PlayGamePage.tsx:66-69 | a move exchanges exactly the player and its neighbour in that direction, leaving every other place alone, and changes nothing past either end |
| PlaySetup.MoveKeepsPlayers | client/src/pages/PlayGamePage.tsx:63-72 | a move keeps the same players on the panel |
| PlaySetup.MoveBack | client/src/pages/PlayGamePage.tsx:63-72 | moving the player back the way it came restores the panel |
| PlaySetup.TeamSplit | client/src/pages/PlayGamePage.tsx:92-108 | the split sends the team-play flag unchanged |
| PlaySetup.SplitOfStartable | client/src/pages/PlayGamePage.tsx:74-108 | a startable setup sends side A led by panel A's first player; in team play both panels' ids in order, else one player against panel A's second player or, alone, against nobody |
| Routes.CreateGame | server/src/routes/gameRoutes.ts:25-30 | a league game reaches the service only with a truthy MatchID and a GameType; a missing or zero MatchID or a missing type is a 400 |
| Routes.CreateGameAcceptsEveryGame | server/src/routes/gameRoutes.ts:27-28 | every body with a non-zero MatchID is passed on unchanged, and MatchID 0 is refused however the type is set |
| Routes.CreateAdHoc | server/src/routes/gameRoutes.ts:33-58 | every refusal of the ad-hoc route is a 400 |
| Routes.AdHocAcceptsExactlyValid | server/src/routes/gameRoutes.ts:35-56 | the ad-hoc route accepts exactly a game type with a non-empty side A and, in team play, a non-empty side B of equal size with at most four each; it passes both lists on, a non-list side B as empty, and team play without a side B list is refused |
| Routes.StartCheckMirrorsRoute | client/src/pages/PlayGamePage.tsx:74-84 | the route accepts the two panels' id lists iff the setup page's canStart holds for them |
| PlaySetup.CanStart | client/src/pages/PlayGamePage.tsx:74-84 | a game can start only with a game type and a player on panel A; in team play both panels hold the same number of players, 1 to 4; outside team play one player on panel A is enough |
| Routes.StartedGamesAreAccepted | client/src/pages/PlayGamePage.tsx:86-116 | what a startable setup sends after its team split is always accepted and reaches the service unchanged |
| Routes.UndoTurnRoute | server/src/routes/gameRoutes.ts:99-103 | undoing with no turn left is a 404; otherwise the turn is undone and one row fewer remains |
| Routes.UndoCricketTurnRoute | server/src/routes/gameRoutes.ts:116-120 | undoing with no Cricket turn left is a 404; otherwise the turn is undone and one row fewer remains |
| Settings.DefaultIsIncreasing | client/src/contexts/SettingsContext.tsx:12 | the default quick-pick list is ascending without repeats |
| Settings.AddFastScoreSpec | client/src/pages/SettingsPage.tsx:10-15 | a value that is not a number, 0, negative, above 180 or already listed leaves the list alone; an accepted value is added exactly once and the list comes back sorted ascending |
| Settings.AddFastScore | client/src/pages/SettingsPage.tsx:10-15 | without a number the list is unchanged; otherwise either the list is unchanged or an unlisted value in 1..180 makes it exactly one longer |
| Settings.AddKeepsIncreasing | client/src/pages/SettingsPage.tsx:12-13 | adding to an ascending list without repeats keeps it so, holding exactly the old values plus the accepted one |
| Settings.RemoveFastScore | client/src/pages/SettingsPage.tsx:17-19 | removing never lengthens the list |
| Settings.RemoveMembers | client/src/pages/SettingsPage.tsx:18 | after removal a value is listed iff it was listed and is not the removed score |
| Settings.RemoveKeepsIncreasing | client/src/pages/SettingsPage.tsx:18 | removing keeps an ascending list without repeats ascending without repeats |
| Settings.IncreasingUnique | client/src/pages/SettingsPage.tsx:13 | two ascending lists without repeats holding the same values are the same list |
| Settings.RemoveUndoesAdd | client/src/pages/SettingsPage.tsx:10-19 | removing a score just accepted into an ascending list gives the list back |
| Sorting.InsertPermutes | client/src/pages/GamePage.tsx:196-199 | inserting one element loses and invents nothing |
| Sorting.InsertKeepsOrder | client/src/pages/GamePage.tsx:196-199 | inserting into a sorted list keeps it sorted |
| Sorting.SortByOrders | client/src/pages/GamePage.tsx:196-199 | the numeric-comparator sort returns the same elements, ordered by ascending key |
| Sorting.InsertIsStable | client/src/pages/SettingsPage.tsx:13 | an inserted element lands after every element with its key |
| Sorting.SortByIsStable | client/src/pages/GamePage.tsx:245-250 | elements with equal keys keep their relative order, as the stable array sort does |

## Left out

- Persistence, SQL and HTTP plumbing: queries, transactions, Express handlers and the JSON wire format are left out. Tables are sequences and maps, and each route is modelled only by its checks and its result.
- GameService.LatestIndex: when several turns share the highest TurnNumber, the model picks the first of them. SQL `TOP 1 ... ORDER BY TurnNumber DESC` leaves the pick among equal numbers unspecified.
- Turn numbering under concurrency: two clients may read the same turn count and write the same TurnNumber. Requests are modelled one at a time.
- Records.Details: the free-form `Details` JSON text is a sum type. Text that does not parse is the `Malformed` case, so parse failures and unknown shapes are not modelled below that level.
- GamePage.RestoreOrder: the `try`/`catch` around `JSON.parse` of the stored cork order is not modelled. The stored order arrives already parsed as a list of ids.
- GamePage.Rematch: the rematch result holds the two sides, their order and the team-play flag. It leaves out the game settings `handleRematch` copies: the game type, the X01 target, double-in and the Round-the-World mode.
- Season.GeneratePlayoffs: old PlayoffSeed values of teams that drop out of the top four are never cleared in the source. The model returns only the new seeds and the draw, not the seed column of every team.
- Season.GenerateSchedule: deleting the old regular-season matches and setting the season status are database writes. The model returns the new fixtures only.
- Season standings: the `ORDER BY GameWins DESC, TeamSeasonID ASC` query is not recomputed. Standings arrive as a list, and `Ranked` states that order where a lemma needs it.
- Settings.AddFastScore: `Number(newScore)` is not modelled. The input is the parsed integer, or `None` when it is NaN or empty. A fractional text such as `"40.5"` passes the source's checks and would be stored, but the model cannot represent it.
- MarkBoard.ConfirmExtraScore: `Number(extraInput) || 0` is not modelled for fractions. The input is the parsed integer, or `None` when the field is empty or not a number (both store 0). A fractional entry such as `"12.5"` from the number field would be stored and later added to the side's points, but the model cannot represent it.
- Floating-point statistics are left out: points per dart, marks per round and averages are display-only arithmetic.
- The X01 checkout suggestion chart is a lookup table with no invariant, so it is left out.
- Randomness: the Round-the-World shuffle takes its index picks as a parameter instead of calling `Math.random`.
- Browser state: `localStorage` holding the cork order is a map from game id to stored ids. React state and rendering are left out, apart from the `disabled` and `canTap` conditions the handlers read.

=== FILE: base.dfy ===
/** Small shared vocabulary: optional values, server responses and integer sums over sequences. */
module Base {

  /** A value that may be absent (a JavaScript `undefined`/`null`, a missing row). */
  datatype Option<+T> = None | Some(value: T)

  /** A server answer: a value, or an HTTP error status with its message. */
  datatype Response<+T> = Ok(value: T) | Fail(status: int, message: string)

  function Max(a: int, b: int): int { if a >= b then a else b }

  function Min(a: int, b: int): int { if a <= b then a else b }

  /** Sum of a sequence of integers, folded from the left as `reduce((s, v) => s + v, 0)`. */
  function Sum(s: seq<int>): int
    decreases |s|
  {
    if |s| == 0 then 0 else Sum(s[..|s| - 1]) + s[|s| - 1]
  }

  lemma {:induction false} SumAppend(a: seq<int>, b: seq<int>)
    ensures Sum(a + b) == Sum(a) + Sum(b)
    decreases |b|
  {
    if |b| == 0 {
      assert a + b == a;
    } else {
      assert (a + b)[..|a + b| - 1] == a + b[..|b| - 1];
      SumAppend(a, b[..|b| - 1]);
    }
  }

  lemma {:induction false} SumNonNegative(s: seq<int>)
    requires forall i :: 0 <= i < |s| ==> s[i] >= 0
    ensures Sum(s) >= 0
    decreases |s|
  {
    if |s| > 0 {
      SumNonNegative(s[..|s| - 1]);
    }
  }

  /** Sum of a suffix of non-negative values never exceeds the sum of the whole. */
  lemma SumSuffixBounded(s: seq<int>, i: nat)
    requires i <= |s|
    requires forall k :: 0 <= k < |s| ==> s[k] >= 0
    ensures Sum(s[i..]) <= Sum(s)
  {
    assert s == s[..i] + s[i..];
    SumAppend(s[..i], s[i..]);
    SumNonNegative(s[..i]);
  }

  /** Number of occurrences of `x` in `s`. */
  function Count<T(==)>(s: seq<T>, x: T): nat
    decreases |s|
  {
    if |s| == 0 then 0 else Count(s[..|s| - 1], x) + (if s[|s| - 1] == x then 1 else 0)
  }

  /** No value occurs twice. */
  predicate Distinct<T(==)>(s: seq<T>)
  {
    forall i, j :: 0 <= i < j < |s| ==> s[i] != s[j]
  }

  lemma MulAtLeast(d: int, n: int)
    requires d >= 1 && n > 0
    ensures d * n >= n
  {
    var e := d - 1;
    assert d * n == e * n + n;
    assert e * n >= 0;
  }

  /** Quotient and remainder are determined by `x == q * n + k` with `0 <= k < n`. */
  lemma DivModUnique(x: int, n: int, q: int, k: int)
    requires n > 0 && 0 <= k < n && x == q * n + k
    ensures x / n == q && x % n == k
  {
    var q', k' := x / n, x % n;
    assert x == q' * n + k';
    if q' > q {
      var d := q' - q;
      assert q' * n == d * n + q * n;
      MulAtLeast(d, n);
    } else if q' < q {
      var d := q - q';
      assert q * n == d * n + q' * n;
      MulAtLeast(d, n);
    }
  }

  /** `ISNULL(MAX(x), 0)`: the largest value, or 0 for none. */
  function MaxOrZero(s: seq<int>): (r: int)
    ensures forall i :: 0 <= i < |s| ==> s[i] <= r
    ensures |s| == 0 ==> r == 0
    ensures |s| > 0 ==> exists i :: 0 <= i < |s| && s[i] == r
    decreases |s|
  {
    if |s| == 0 then 0
    else if |s| == 1 then s[0]
    else Max(MaxOrZero(s[..|s| - 1]), s[|s| - 1])
  }

  /** The key of every entry, in order: `list.map(x => x.Id)`. */
  function Keys<T>(s: seq<T>, key: T -> int): (r: seq<int>)
    ensures |r| == |s| && forall i :: 0 <= i < |s| ==> r[i] == key(s[i])
    decreases |s|
  {
    if |s| == 0 then [] else Keys(s[..|s| - 1], key) + [key(s[|s| - 1])]
  }

  /** `list.find(x => x.Id === k)`: the first entry with key `k`, if any. */
  function Find<T>(s: seq<T>, key: T -> int, k: int): (r: Option<T>)
    ensures r.Some? ==> r.value in s && key(r.value) == k
    ensures r.None? <==> forall i :: 0 <= i < |s| ==> key(s[i]) != k
    ensures r.Some? ==> exists i :: 0 <= i < |s| && s[i] == r.value && forall j :: 0 <= j < i ==> key(s[j]) != k
    decreases |s|
  {
    if |s| == 0 then None
    else if key(s[0]) == k then Some(s[0])
    else Find(s[1..], key, k)
  }

  /** In a list without repeats every value occurs at most once. */
  lemma {:induction false} DistinctCountsAtMostOne<T>(s: seq<T>, x: T)
    requires Distinct(s)
    ensures multiset(s)[x] <= 1
    decreases |s|
  {
    if |s| > 0 {
      var init := s[..|s| - 1];
      DistinctCountsAtMostOne(init, x);
      assert s == init + [s[|s| - 1]];
      if s[|s| - 1] == x {
        assert forall k :: 0 <= k < |init| ==> init[k] != x;
      }
    }
  }

  /** A rearrangement of a list without repeats has no repeats. */
  lemma DistinctPermutation<T>(a: seq<T>, b: seq<T>)
    requires Distinct(a) && multiset(a) == multiset(b)
    ensures Distinct(b)
  {
    forall i, j | 0 <= i < j < |b|
      ensures b[i] != b[j]
    {
      DistinctCountsAtMostOne(a, b[i]);
      assert b == b[..i] + [b[i]] + b[i + 1..j] + [b[j]] + b[j + 1..];
    }
  }
}

=== FILE: cork.dfy ===
/**
 * The cork of an odd-numbered game: the player who wins the cork throws
 * first, a player of the other side chosen next throws second, then the cork
 * winner's partner and the second thrower's partner.
 */
module Cork {
  import opened Base
  import opened Records
  import opened TurnOrder

  /** No two players share a player id. */
  predicate DistinctIds(players: seq<GamePlayer>)
  {
    forall i, j :: 0 <= i < j < |players| ==> players[i].playerId != players[j].playerId
  }

  /** A side list keeps the roster's distinct ids. */
  lemma {:induction false} OnSideKeepsDistinctIds(players: seq<GamePlayer>, team: int)
    requires DistinctIds(players)
    ensures DistinctIds(OnSide(players, team))
    decreases |players|
  {
    if |players| > 0 {
      var rest := players[1..];
      assert DistinctIds(rest) by {
        forall i, j | 0 <= i < j < |rest| ensures rest[i].playerId != rest[j].playerId {
          assert rest[i] == players[i + 1] && rest[j] == players[j + 1];
        }
      }
      OnSideKeepsDistinctIds(rest, team);
      var tail := OnSide(rest, team);
      if players[0].teamSeasonId == team {
        forall k | 0 <= k < |tail| ensures tail[k].playerId != players[0].playerId {
          OnSideCounts(rest, team, tail[k]);
          assert multiset(tail)[tail[k]] > 0;
          var m :| 0 <= m < |rest| && rest[m] == tail[k];
          assert players[m + 1] == tail[k];
        }
        var r := [players[0]] + tail;
        forall i, j | 0 <= i < j < |r| ensures r[i].playerId != r[j].playerId {
          assert r[j] == tail[j - 1];
          if i > 0 {
            assert r[i] == tail[i - 1];
          }
        }
      }
    }
  }

  /** `side.find(p => p.PlayerID !== id)`. */
  function FirstOtherThan(side: seq<GamePlayer>, id: int): (r: Option<GamePlayer>)
    ensures r.Some? ==> r.value in side && r.value.playerId != id
    ensures r.None? <==> forall i :: 0 <= i < |side| ==> side[i].playerId == id
    decreases |side|
  {
    if |side| == 0 then None
    else if side[0].playerId != id then Some(side[0])
    else FirstOtherThan(side[1..], id)
  }

  /** The side a player is on, as the cork reads it: home if the player is home, away otherwise. */
  function SideOf(players: seq<GamePlayer>, home: int, away: int, p: GamePlayer): seq<GamePlayer>
  {
    if p.teamSeasonId == home then OnSide(players, home) else OnSide(players, away)
  }

  /** The side opposite a player. */
  function Opponents(players: seq<GamePlayer>, home: int, away: int, p: GamePlayer): seq<GamePlayer>
  {
    if p.teamSeasonId == home then OnSide(players, away) else OnSide(players, home)
  }

  /** `finalize`: winner, second thrower, winner's partner, second thrower's partner, each when present. */
  function Finalize(players: seq<GamePlayer>, home: int, away: int, winner: GamePlayer, second: Option<GamePlayer>)
    : (order: seq<GamePlayer>)
    ensures 1 <= |order| <= 4 && order[0] == winner
    ensures second.Some? ==> |order| >= 2 && order[1] == second.value
  {
    var partner := FirstOtherThan(SideOf(players, home, away, winner), winner.playerId);
    var oppPartner := if second.Some? then FirstOtherThan(Opponents(players, home, away, winner), second.value.playerId) else None;
    [winner]
      + (if second.Some? then [second.value] else [])
      + (if partner.Some? then [partner.value] else [])
      + (if oppPartner.Some? then [oppPartner.value] else [])
  }

  datatype CorkStep = PickSecond(candidates: seq<GamePlayer>) | Ordered(order: seq<GamePlayer>)

  /**
   * `handleCorkWinner`: against a side of at most one player the order is
   * final at once (with that player second, or nobody); otherwise the
   * second thrower is picked from the opposing side.
   */
  function HandleCorkWinner(players: seq<GamePlayer>, home: int, away: int, winner: GamePlayer): (r: CorkStep)
    ensures var opp := Opponents(players, home, away, winner);
            && (r.Ordered? <==> |opp| <= 1)
            && (r.PickSecond? ==> r.candidates == opp)
            && (r.Ordered? ==> r.order == Finalize(players, home, away, winner, if |opp| == 1 then Some(opp[0]) else None))
  {
    var opp := Opponents(players, home, away, winner);
    if |opp| <= 1 then Ordered(Finalize(players, home, away, winner, if |opp| == 1 then Some(opp[0]) else None))
    else PickSecond(opp)
  }

  /** `handleSecondThrower`: the buttons offer only the opposing side's players. */
  function HandleSecondThrower(players: seq<GamePlayer>, home: int, away: int, winner: GamePlayer, second: GamePlayer)
    : (order: seq<GamePlayer>)
    requires second in Opponents(players, home, away, winner)
    ensures |order| >= 2 && order[0] == winner && order[1] == second
    ensures second.teamSeasonId != winner.teamSeasonId || home == away
  {
    OnSideMember(players, if winner.teamSeasonId == home then away else home, second);
    Finalize(players, home, away, winner, Some(second))
  }

  /** The second thrower of a cork is always on the other side from the cork winner. */
  lemma SecondThrowerIsOpponent(players: seq<GamePlayer>, home: int, away: int, winner: GamePlayer)
    requires home != away && winner.teamSeasonId in {home, away}
    ensures var step := HandleCorkWinner(players, home, away, winner);
            var opp := Opponents(players, home, away, winner);
            && (step.Ordered? && |opp| == 1 ==> step.order[1] == opp[0] && step.order[1].teamSeasonId != winner.teamSeasonId)
            && (step.PickSecond? ==> forall i :: 0 <= i < |step.candidates| ==> step.candidates[i].teamSeasonId != winner.teamSeasonId)
  {
    var opp := Opponents(players, home, away, winner);
    if |opp| == 1 {
      OnSideMember(players, if winner.teamSeasonId == home then away else home, opp[0]);
    }
  }

  /** With distinct ids and the winner on one of two sides, nobody appears twice in the order. */
  lemma CorkOrderHasNoRepeats(players: seq<GamePlayer>, home: int, away: int, winner: GamePlayer, second: Option<GamePlayer>)
    requires home != away && winner.teamSeasonId in {home, away}
    requires second.Some? ==> second.value in Opponents(players, home, away, winner)
    ensures Distinct(Finalize(players, home, away, winner, second))
  {
    var mine := SideOf(players, home, away, winner);
    var theirs := Opponents(players, home, away, winner);
    var partner := FirstOtherThan(mine, winner.playerId);
    var oppPartner := if second.Some? then FirstOtherThan(theirs, second.value.playerId) else None;
    var ownTeam := winner.teamSeasonId;
    assert partner.Some? ==> partner.value.teamSeasonId == ownTeam;
    assert second.Some? ==> second.value.teamSeasonId != ownTeam;
    assert oppPartner.Some? ==> oppPartner.value.teamSeasonId != ownTeam;
  }

  /** A side of two players with different ids: the partner of one is the other. */
  lemma PairPartner(side: seq<GamePlayer>, p: GamePlayer)
    requires |side| == 2 && side[0].playerId != side[1].playerId && p in side
    ensures FirstOtherThan(side, p.playerId).Some?
    ensures multiset(side) == multiset{p, FirstOtherThan(side, p.playerId).value}
  {
    assert side == [side[0], side[1]];
    assert side[1..] == [side[1]];
  }

  /** A side of one player: that player has no partner. */
  lemma SinglePartner(side: seq<GamePlayer>, p: GamePlayer)
    requires |side| == 1 && p in side
    ensures FirstOtherThan(side, p.playerId).None?
    ensures multiset(side) == multiset{p}
  {
    assert side == [p];
  }

  /**
   * In a singles or doubles game (both sides one player, or both two with
   * different ids), the cork order is a rearrangement of the whole roster.
   */
  lemma CorkOrderCoversRoster(players: seq<GamePlayer>, home: int, away: int, winner: GamePlayer, second: GamePlayer)
    requires home != away && winner in players
    requires forall i :: 0 <= i < |players| ==> players[i].teamSeasonId in {home, away}
    requires DistinctIds(players)
    requires |OnSide(players, home)| == |OnSide(players, away)| <= 2
    requires second in Opponents(players, home, away, winner)
    ensures multiset(Finalize(players, home, away, winner, Some(second))) == multiset(players)
  {
    var mine := SideOf(players, home, away, winner);
    var theirs := Opponents(players, home, away, winner);
    SidesOfTheCork(players, home, away, winner);
    FinalizeContents(players, home, away, winner, second);
    assert |mine| == 2 ==> mine[0].playerId != mine[1].playerId;
    assert |theirs| == 2 ==> theirs[0].playerId != theirs[1].playerId;
    OrderOfTwoSides(multiset(players), mine, theirs, winner, second, Finalize(players, home, away, winner, Some(second)));
  }

  /** The covering argument on the two sides alone: each is its thrower plus that thrower's partner, if any. */
  lemma OrderOfTwoSides(all: multiset<GamePlayer>, mine: seq<GamePlayer>, theirs: seq<GamePlayer>,
                        winner: GamePlayer, second: GamePlayer, order: seq<GamePlayer>)
    requires multiset(mine) + multiset(theirs) == all
    requires |mine| == |theirs| <= 2 && winner in mine && second in theirs
    requires |mine| == 2 ==> mine[0].playerId != mine[1].playerId
    requires |theirs| == 2 ==> theirs[0].playerId != theirs[1].playerId
    requires var partner := FirstOtherThan(mine, winner.playerId);
             var oppPartner := FirstOtherThan(theirs, second.playerId);
             multiset(order)
               == multiset{winner, second}
                  + (if partner.Some? then multiset{partner.value} else multiset{})
                  + (if oppPartner.Some? then multiset{oppPartner.value} else multiset{})
    ensures multiset(order) == all
  {
    if |mine| == 2 {
      PairPartner(mine, winner);
      PairPartner(theirs, second);
      var partner := FirstOtherThan(mine, winner.playerId).value;
      var oppPartner := FirstOtherThan(theirs, second.playerId).value;
      Regroup(all, multiset(mine), multiset(theirs), multiset(order), winner, second, multiset{partner}, multiset{oppPartner});
    } else {
      SinglePartner(mine, winner);
      SinglePartner(theirs, second);
      Regroup(all, multiset(mine), multiset(theirs), multiset(order), winner, second, multiset{}, multiset{});
    }
  }

  /** The order's thrower-and-partner pairs, side by side, are the two sides together. */
  lemma Regroup(all: multiset<GamePlayer>, m: multiset<GamePlayer>, t: multiset<GamePlayer>, f: multiset<GamePlayer>,
                w: GamePlayer, s: GamePlayer, pw: multiset<GamePlayer>, ps: multiset<GamePlayer>)
    requires m + t == all
    requires m == multiset{w} + pw && t == multiset{s} + ps
    requires f == multiset{w, s} + pw + ps
    ensures f == all
  {
  }

  /** The cork winner's side and the other side split the roster, each without repeated ids. */
  lemma SidesOfTheCork(players: seq<GamePlayer>, home: int, away: int, winner: GamePlayer)
    requires home != away && winner in players
    requires forall i :: 0 <= i < |players| ==> players[i].teamSeasonId in {home, away}
    requires DistinctIds(players)
    ensures winner in SideOf(players, home, away, winner)
    ensures multiset(SideOf(players, home, away, winner)) + multiset(Opponents(players, home, away, winner)) == multiset(players)
    ensures DistinctIds(SideOf(players, home, away, winner)) && DistinctIds(Opponents(players, home, away, winner))
  {
    var mine := SideOf(players, home, away, winner);
    SidesSplitRoster(players, home, away);
    OnSideKeepsDistinctIds(players, home);
    OnSideKeepsDistinctIds(players, away);
    OnSideCounts(players, winner.teamSeasonId, winner);
    assert multiset(players)[winner] > 0;
    assert multiset(mine)[winner] > 0;
  }

  /** What the order holds once a second thrower is chosen. */
  lemma FinalizeContents(players: seq<GamePlayer>, home: int, away: int, winner: GamePlayer, second: GamePlayer)
    ensures var partner := FirstOtherThan(SideOf(players, home, away, winner), winner.playerId);
            var oppPartner := FirstOtherThan(Opponents(players, home, away, winner), second.playerId);
            multiset(Finalize(players, home, away, winner, Some(second)))
              == multiset{winner, second}
                 + (if partner.Some? then multiset{partner.value} else multiset{})
                 + (if oppPartner.Some? then multiset{oppPartner.value} else multiset{})
  {
  }
}

=== FILE: game_page.dfy ===
/**
 * The game page's ordering rules.  Odd games (1, 3, 5) start with a cork;
 * even games take their order from the previous game's cork: the side that
 * lost that cork throws first, each side in reverse seat order.  The chosen
 * order is kept per game as a list of player ids (an abstract store here)
 * and read back when the page reloads.  A rematch starts a new ad-hoc game
 * with the losing side first, and "next game" follows the season's format
 * up to game 5.
 */
module GamePage {
  import opened Base
  import opened Records
  import opened Sorting
  import opened TurnOrder
  import opened GameService
  import opened RoundTheWorld
  import Cork

  const MatchGameCount := 5

  /** `needsCork`: an odd game (JavaScript's `%`, so only positive numbers) with no order and no turns yet. */
  predicate NeedsCork(gameNumber: int, corkDone: bool, hasTurns: bool, completed: bool, playerCount: nat)
    ensures NeedsCork(gameNumber, corkDone, hasTurns, completed, playerCount)
            ==> playerCount >= 2 && gameNumber >= 1 && gameNumber % 2 == 1 && !hasTurns && !completed
  {
    gameNumber > 0 && gameNumber % 2 == 1 && !corkDone && !hasTurns && !completed && playerCount > 1
  }

  // ------------------------------------------------------------------
  // Reading a stored order back
  // ------------------------------------------------------------------

  /** The stored ids mapped to game players, unknown ids dropped. */
  function KnownPlayers(players: seq<GamePlayer>, ids: seq<int>): (r: seq<GamePlayer>)
    ensures |r| <= |ids|
    ensures forall i :: 0 <= i < |r| ==> r[i] in players
    decreases |ids|
  {
    if |ids| == 0 then []
    else
      var found := Find(players, PlayerIdOf, ids[|ids| - 1]);
      KnownPlayers(players, ids[..|ids| - 1]) + (if found.Some? then [found.value] else [])
  }

  /** The page's restore: the stored order is used only when as many players were found as are in the game. */
  function RestoreOrder(players: seq<GamePlayer>, ids: seq<int>): (r: Option<seq<GamePlayer>>)
    ensures r.Some? <==> |KnownPlayers(players, ids)| == |players|
    ensures r.Some? ==> r.value == KnownPlayers(players, ids)
  {
    var ordered := KnownPlayers(players, ids);
    if |ordered| == |players| then Some(ordered) else None
  }

  /** With distinct ids, looking a roster player up by id finds that player. */
  lemma {:induction false} FindByIdFinds(players: seq<GamePlayer>, p: GamePlayer)
    requires Cork.DistinctIds(players) && p in players
    ensures Find(players, PlayerIdOf, p.playerId) == Some(p)
    decreases |players|
  {
    if players[0] != p {
      var k :| 0 <= k < |players| && players[k] == p;
      assert players[1..][k - 1] == p;
      assert Cork.DistinctIds(players[1..]) by {
        forall i, j | 0 <= i < j < |players| - 1 ensures players[1..][i].playerId != players[1..][j].playerId {
          assert players[1..][i] == players[i + 1] && players[1..][j] == players[j + 1];
        }
      }
      assert players[0].playerId != p.playerId;
      FindByIdFinds(players[1..], p);
    }
  }

  /** Every player of an order drawn from the roster is found again by id. */
  lemma {:induction false} KnownPlayersOfOrder(players: seq<GamePlayer>, order: seq<GamePlayer>)
    requires Cork.DistinctIds(players)
    requires forall i :: 0 <= i < |order| ==> order[i] in players
    ensures KnownPlayers(players, Keys(order, PlayerIdOf)) == order
    decreases |order|
  {
    if |order| > 0 {
      var init := order[..|order| - 1];
      KnownPlayersOfOrder(players, init);
      assert Keys(order, PlayerIdOf)[..|order| - 1] == Keys(init, PlayerIdOf);
      FindByIdFinds(players, order[|order| - 1]);
      assert order == init + [order[|order| - 1]];
    }
  }

  /** Storing a cork order as ids and reading it back gives the same order. */
  lemma StoredOrderRoundTrip(players: seq<GamePlayer>, order: seq<GamePlayer>)
    requires Cork.DistinctIds(players)
    requires multiset(order) == multiset(players)
    ensures RestoreOrder(players, Keys(order, PlayerIdOf)) == Some(order)
  {
    forall i | 0 <= i < |order| ensures order[i] in players {
      assert order[i] in multiset(order);
    }
    KnownPlayersOfOrder(players, order);
    assert |order| == |multiset(order)| == |multiset(players)| == |players|;
  }

  /**
   * The restore only counts: a stored list that names one player twice and
   * another not at all still fills a two-player game.
   */
  lemma RestoreCountsOnly(a: GamePlayer, b: GamePlayer)
    requires a.playerId != b.playerId
    ensures RestoreOrder([a, b], [a.playerId, a.playerId]) == Some([a, a])
  {
    assert Find([a, b], PlayerIdOf, a.playerId) == Some(a);
    assert [a.playerId, a.playerId][..1] == [a.playerId];
    assert [a.playerId][..0] == [];
    assert KnownPlayers([a, b], []) == [];
    assert KnownPlayers([a, b], [a.playerId]) == [] + [a];
    assert KnownPlayers([a, b], [a.playerId, a.playerId]) == [a] + [a];
    assert |[a, b]| == 2 == |[a] + [a]|;
    assert RestoreOrder([a, b], [a.playerId, a.playerId]) == Some([a] + [a]);
    assert [a] + [a] == [a, a];
  }

  // ------------------------------------------------------------------
  // The even-game order
  // ------------------------------------------------------------------

  /** Descending by seat: `sort((a, b) => b.PlayerOrder - a.PlayerOrder)`. */
  function SeatDescending(side: seq<GamePlayer>): seq<GamePlayer>
  {
    SortBy(side, (p: GamePlayer) => -p.playerOrder)
  }

  /** The side that did not win the previous cork. */
  function LosingSide(home: int, away: int, corkWinnerTeam: int): int
  {
    if corkWinnerTeam == home then away else home
  }

  /** The even-game order: losing side first, alternating, each side in descending seat order. */
  function EvenOrder(players: seq<GamePlayer>, home: int, away: int, corkWinnerTeam: int): (r: seq<GamePlayer>)
    ensures |r| == |OnSide(players, LosingSide(home, away, corkWinnerTeam))| + |OnSide(players, corkWinnerTeam)|
  {
    Interleave(SeatDescending(OnSide(players, LosingSide(home, away, corkWinnerTeam))),
               SeatDescending(OnSide(players, corkWinnerTeam)))
  }

  /** A game of a match and the id its stored cork order is kept under. */
  datatype GameEntry = GameEntry(gameId: int, gameNumber: int)

  function GameNumberOf(g: GameEntry): int { g.gameNumber }

  /** The state the even-game rule looks at. */
  datatype PageState = PageState(gameNumber: int, corkDone: bool, hasTurns: bool, completed: bool,
                                 players: seq<GamePlayer>, home: int, away: int,
                                 allGames: seq<GameEntry>, stored: map<int, seq<int>>)

  /** The first thrower of the previous game's stored order, when the rule can use it. */
  function PreviousCorkWinner(st: PageState): Option<GamePlayer>
  {
    var prev := Find(st.allGames, GameNumberOf, st.gameNumber - 1);
    if prev.None? || prev.value.gameId !in st.stored || |st.stored[prev.value.gameId]| == 0 then None
    else Find(st.players, PlayerIdOf, st.stored[prev.value.gameId][0])
  }

  /** The even-game effect: the order it sets, or None when it does not apply. */
  function EvenGameOrder(st: PageState): (r: Option<seq<GamePlayer>>)
    ensures r.Some? <==> && st.gameNumber % 2 == 0 && !st.corkDone && !st.hasTurns && !st.completed
                         && |st.players| >= 2 && |st.allGames| >= st.gameNumber
                         && PreviousCorkWinner(st).Some?
    ensures r.Some? ==> r.value == EvenOrder(st.players, st.home, st.away, PreviousCorkWinner(st).value.teamSeasonId)
  {
    if st.gameNumber % 2 != 0 || st.corkDone || st.hasTurns || st.completed || |st.players| < 2 then None
    else if |st.allGames| < st.gameNumber then None
    else
      var first := PreviousCorkWinner(st);
      if first.None? then None
      else Some(EvenOrder(st.players, st.home, st.away, first.value.teamSeasonId))
  }

  /** A game never both asks for a cork and takes the even-game order. */
  lemma CorkAndEvenOrderExclusive(st: PageState)
    ensures !(NeedsCork(st.gameNumber, st.corkDone, st.hasTurns, st.completed, |st.players|) && EvenGameOrder(st).Some?)
  {
  }

  /** The even-game order seats everybody exactly once. */
  lemma EvenOrderIsRoster(players: seq<GamePlayer>, home: int, away: int, corkWinnerTeam: int)
    requires home != away && corkWinnerTeam in {home, away}
    requires forall i :: 0 <= i < |players| ==> players[i].teamSeasonId in {home, away}
    ensures multiset(EvenOrder(players, home, away, corkWinnerTeam)) == multiset(players)
  {
    var losing := LosingSide(home, away, corkWinnerTeam);
    SortByOrders(OnSide(players, losing), (p: GamePlayer) => -p.playerOrder);
    SortByOrders(OnSide(players, corkWinnerTeam), (p: GamePlayer) => -p.playerOrder);
    InterleavePermutes(SeatDescending(OnSide(players, losing)), SeatDescending(OnSide(players, corkWinnerTeam)));
    SidesSplitRoster(players, home, away);
  }

  /**
   * The side that lost the previous cork throws first, the cork winners
   * second, and among the first `k` pairs each side runs from its highest
   * seat down.
   */
  lemma EvenOrderLoserFirst(players: seq<GamePlayer>, home: int, away: int, corkWinnerTeam: int, i: nat, j: nat)
    requires home != away && corkWinnerTeam in {home, away}
    requires i < j < |OnSide(players, LosingSide(home, away, corkWinnerTeam))|
    requires j < |OnSide(players, corkWinnerTeam)|
    ensures var order := EvenOrder(players, home, away, corkWinnerTeam);
            && order[2 * i].teamSeasonId != corkWinnerTeam
            && order[2 * i + 1].teamSeasonId == corkWinnerTeam
            && order[2 * i].playerOrder >= order[2 * j].playerOrder
            && order[2 * i + 1].playerOrder >= order[2 * j + 1].playerOrder
  {
    var losing := LosingSide(home, away, corkWinnerTeam);
    var key := (p: GamePlayer) => -p.playerOrder;
    var l, w := SeatDescending(OnSide(players, losing)), SeatDescending(OnSide(players, corkWinnerTeam));
    SortByOrders(OnSide(players, losing), key);
    SortByOrders(OnSide(players, corkWinnerTeam), key);
    InterleaveAt(l, w, i);
    InterleaveAt(l, w, j);
    SortedSideMember(OnSide(players, losing), losing, i);
    SortedSideMember(OnSide(players, corkWinnerTeam), corkWinnerTeam, i);
    assert key(l[i]) <= key(l[j]) && key(w[i]) <= key(w[j]);
  }

  /** Sorting a side list keeps every entry on that side. */
  lemma SortedSideMember(side: seq<GamePlayer>, team: int, i: nat)
    requires forall k :: 0 <= k < |side| ==> side[k].teamSeasonId == team
    requires i < |side|
    ensures SeatDescending(side)[i].teamSeasonId == team
  {
    var s := SeatDescending(side);
    SortByOrders(side, (p: GamePlayer) => -p.playerOrder);
    assert s[i] in multiset(side);
  }

  // ------------------------------------------------------------------
  // Rematch and next game
  // ------------------------------------------------------------------

  /** Ascending by seat: `sort((a, b) => a.PlayerOrder - b.PlayerOrder)`. */
  function SeatAscending(side: seq<GamePlayer>): seq<GamePlayer>
  {
    SortBy(side, (p: GamePlayer) => p.playerOrder)
  }

  datatype AdHocRequest = AdHocRequest(teamA: seq<int>, teamB: seq<int>, teamPlay: bool)

  /** `handleRematch`: the loser (home when there is no home win) becomes side A and throws first. */
  function Rematch(players: seq<GamePlayer>, home: int, away: int, winner: int): (r: AdHocRequest)
    ensures var homeIds := Keys(SeatAscending(OnSide(players, home)), PlayerIdOf);
            var awayIds := Keys(SeatAscending(OnSide(players, away)), PlayerIdOf);
            && (winner == home ==> r.teamA == awayIds && r.teamB == homeIds)
            && (winner != home ==> r.teamA == homeIds && r.teamB == awayIds)
            && (r.teamPlay <==> |homeIds| > 1 || |awayIds| > 1)
  {
    var homeIds := Keys(SeatAscending(OnSide(players, home)), PlayerIdOf);
    var awayIds := Keys(SeatAscending(OnSide(players, away)), PlayerIdOf);
    if winner == home then AdHocRequest(awayIds, homeIds, |homeIds| > 1 || |awayIds| > 1)
    else AdHocRequest(homeIds, awayIds, |homeIds| > 1 || |awayIds| > 1)
  }

  /**
   * Seated by the ad-hoc game service, a rematch after a home win opens
   * with the away side's lowest seat, and the home side throws second.
   */
  lemma RematchLoserStarts(players: seq<GamePlayer>, home: int, away: int, sideA: int, sideB: int)
    requires sideA != sideB
    requires |OnSide(players, home)| > 0 && |OnSide(players, away)| > 0
    ensures var r := Rematch(players, home, away, home);
            var order := NaturalOrder(AdHocPlayers(r.teamA, r.teamB, sideA, sideB), sideA, sideB);
            && |order| >= 2
            && order[0].playerId == SeatAscending(OnSide(players, away))[0].playerId
            && order[1].playerId == SeatAscending(OnSide(players, home))[0].playerId
  {
    var r := Rematch(players, home, away, home);
    assert |r.teamA| > 0 && |r.teamB| > 0;
    AdHocNaturalOrder(r.teamA, r.teamB, sideA, sideB);
    InterleaveAt(Seat(r.teamA, sideA), Seat(r.teamB, sideB), 0);
  }

  /** A season game format: game number, type, X01 target (0: unset) and double-in. */
  datatype Format = Format(gameNumber: int, gameType: GameType, x01Target: int, doubleIn: bool)

  function FormatNumberOf(f: Format): int { f.gameNumber }

  /** The `create` request of the next game. */
  datatype NewGame = NewGame(gameType: GameType, x01Target: Option<int>, doubleIn: bool, rtwMode: Option<Mode>)

  datatype NextGameAction = BackToMatch | Create(request: NewGame)

  /**
   * `goToNextGame`: game `games + 1` from its format, unless that is past
   * game 5 or has no format.  An X01 game defaults to 501, a
   * Round-the-World game is played 1 to 20.
   */
  function NextGame(gamesCount: nat, formats: seq<Format>): (r: NextGameAction)
    ensures r.Create? <==> gamesCount + 1 <= MatchGameCount && Find(formats, FormatNumberOf, gamesCount + 1).Some?
    ensures r.Create? ==>
              var fmt := Find(formats, FormatNumberOf, gamesCount + 1).value;
              && r.request.gameType == fmt.gameType
              && r.request.doubleIn == fmt.doubleIn
              && (r.request.x01Target.Some? <==> fmt.gameType == X01Game)
              && (r.request.x01Target.Some? ==> r.request.x01Target.value == if fmt.x01Target != 0 then fmt.x01Target else 501)
              && (r.request.rtwMode.Some? <==> fmt.gameType == RoundTheWorldGame)
              && (r.request.rtwMode.Some? ==> r.request.rtwMode.value == OneToTwenty)
  {
    var n := gamesCount + 1;
    if n > MatchGameCount then BackToMatch
    else
      var fmt := Find(formats, FormatNumberOf, n);
      if fmt.None? then BackToMatch
      else
        var f := fmt.value;
        Create(NewGame(f.gameType,
                       if f.gameType == X01Game then Some(if f.x01Target != 0 then f.x01Target else 501) else None,
                       f.doubleIn,
                       if f.gameType == RoundTheWorldGame then Some(OneToTwenty) else None))
  }

  /**
   * Once five league games are all completed the server completes the
   * match, and the page creates no sixth game whatever the formats say.
   */
  lemma FiveGamesEndTheMatch(home: int, away: int, games: seq<GameSummary>, formats: seq<Format>)
    requires |games| == MatchGameCount && forall i :: 0 <= i < |games| ==> games[i].completed
    ensures CheckMatchCompletion(false, home, away, games).Some?
    ensures NextGame(|games|, formats) == BackToMatch
  {
    AllCompletedCount(games);
  }

  lemma {:induction false} AllCompletedCount(games: seq<GameSummary>)
    requires forall i :: 0 <= i < |games| ==> games[i].completed
    ensures CompletedCount(games) == |games|
    decreases |games|
  {
    if |games| > 0 {
      AllCompletedCount(games[..|games| - 1]);
    }
  }
}

=== FILE: game_service.dfy ===
/**
 * The server side of a game: the two turn tables and the per-side
 * `CricketState` cache, with undo of the latest turn, the partial upsert the
 * scoreboards send, match completion after a game, the semifinal -> final
 * step, the random Round-the-World order and the seating of an ad-hoc game.
 * A table is a value here: `Turns` and `CricketTurns` of one game as lists,
 * `CricketState` of one game as a map from side (TeamSeasonID) to its row.
 */
module GameService {
  import opened Base
  import opened Records
  import opened TurnOrder
  import opened MarkBoard
  import opened RoundTheWorld

  datatype GameType = X01Game | CricketGame | ShanghaiGame | RoundTheWorldGame

  /** The `CricketState` rows of one game, by side. */
  type StateTable = map<int, CricketState>

  // ------------------------------------------------------------------
  // The latest turn
  // ------------------------------------------------------------------

  /**
   * `ORDER BY TurnNumber DESC` with `TOP 1`: the position of a turn with the
   * highest turn number (the first such, where the database leaves ties open).
   */
  function LatestIndex<T>(s: seq<T>, number: T -> int): (k: nat)
    requires |s| > 0
    ensures k < |s|
    ensures forall i :: 0 <= i < |s| ==> number(s[i]) <= number(s[k])
    ensures forall i :: 0 <= i < k ==> number(s[i]) < number(s[k])
    decreases |s|
  {
    if |s| == 1 then 0
    else
      var k := LatestIndex(s[..|s| - 1], number);
      if number(s[|s| - 1]) > number(s[k]) then |s| - 1 else k
  }

  /** The list without the entry at `k`, the others in their order. */
  function RemoveAt<T>(s: seq<T>, k: nat): (r: seq<T>)
    requires k < |s|
    ensures |r| == |s| - 1
    ensures multiset(r) + multiset{s[k]} == multiset(s)
    ensures forall i :: 0 <= i < |r| ==> r[i] == (if i < k then s[i] else s[i + 1])
  {
    assert s == s[..k] + [s[k]] + s[k + 1..];
    s[..k] + s[k + 1..]
  }

  /** A turn appended with a number above every earlier one is the one the undo takes. */
  lemma AppendedTurnIsLatest<T>(s: seq<T>, t: T, number: T -> int)
    requires forall i :: 0 <= i < |s| ==> number(s[i]) < number(t)
    ensures LatestIndex(s + [t], number) == |s|
    ensures RemoveAt(s + [t], |s|) == s
  {
    assert (s + [t])[|s|] == t;
    assert forall i :: 0 <= i < |s| ==> (s + [t])[i] == s[i];
    assert (s + [t])[..|s|] == s;
  }

  // ------------------------------------------------------------------
  // Undo in the Turns table
  // ------------------------------------------------------------------

  /** Removes `amount` from a side's points, never going below 0. */
  function LessPoints(st: CricketState, amount: int): (r: CricketState)
    ensures r.marks == st.marks
    ensures r.points >= 0 && (st.points - amount >= 0 ==> r.points == st.points - amount)
  {
    CricketState(st.marks, Max(0, st.points - amount))
  }

  /**
   * The `CricketState` rollback of `undoLastTurn`.  Only a Cricket or
   * Shanghai turn whose details parse is rolled back: a `{segment, marks}`
   * entry naming a known segment with non-zero marks takes the marks off
   * that segment and the turn's score off the points (both clamped at 0),
   * and a bonus turn with a non-zero score takes the score off the points.
   * Rows that do not exist are not created.
   */
  function RollbackTurn(gameType: GameType, t: Turn, states: StateTable): (r: StateTable)
    ensures r.Keys == states.Keys
    ensures forall k :: k in states && k != t.teamSeasonId ==> r[k] == states[k]
    ensures (gameType == X01Game || gameType == RoundTheWorldGame || t.details.None?
             || t.details == Some(Malformed)) ==> r == states
  {
    if !(gameType == CricketGame || gameType == ShanghaiGame) || t.details.None? || t.details.value.Malformed? then states
    else
      var afterMarks := RollbackSegment(t.details.value, t, states);
      if t.isShanghaiBonus && t.score != 0 && t.teamSeasonId in afterMarks then
        afterMarks[t.teamSeasonId := LessPoints(afterMarks[t.teamSeasonId], t.score)]
      else afterMarks
  }

  /** The `{segment, marks}` part of the rollback. */
  function RollbackSegment(d: Details, t: Turn, states: StateTable): (r: StateTable)
    ensures r.Keys == states.Keys
    ensures forall k :: k in states && k != t.teamSeasonId ==> r[k] == states[k]
  {
    match d
    case SegmentMarks(seg, marks) =>
      if seg.Some? && marks != 0 && t.teamSeasonId in states then
        var st := states[t.teamSeasonId];
        var s := seg.value;
        states[t.teamSeasonId := LessPoints(CricketState(st.marks[s := Max(0, Get(st.marks, s) - marks)], st.points), t.score)]
      else states
    case _ => states
  }

  datatype UndoOutcome = UndoOutcome(undone: bool, turns: seq<Turn>, states: StateTable)

  /** `undoLastTurn`: false with nothing to undo, else the latest turn is deleted after the rollback. */
  function UndoLastTurn(gameType: GameType, turns: seq<Turn>, states: StateTable): (r: UndoOutcome)
    ensures |turns| == 0 ==> r == UndoOutcome(false, turns, states)
    ensures |turns| > 0 ==>
              var k := LatestIndex(turns, (t: Turn) => t.turnNumber);
              && r.undone
              && r.turns == RemoveAt(turns, k)
              && r.states == RollbackTurn(gameType, turns[k], states)
  {
    if |turns| == 0 then UndoOutcome(false, turns, states)
    else
      var k := LatestIndex(turns, (t: Turn) => t.turnNumber);
      UndoOutcome(true, RemoveAt(turns, k), RollbackTurn(gameType, turns[k], states))
  }

  /**
   * An ordinary Shanghai turn is stored with its taps, not a `{segment,
   * marks}` entry, so undoing it deletes the row and leaves every side's
   * marks and points as they were.
   */
  lemma UndoShanghaiTapTurnKeepsState(turns: seq<Turn>, states: StateTable)
    requires |turns| > 0
    requires var t := turns[LatestIndex(turns, (t: Turn) => t.turnNumber)];
             t.details.Some? && t.details.value.TapLog? && !t.isShanghaiBonus
    ensures UndoLastTurn(ShanghaiGame, turns, states).states == states
    ensures |UndoLastTurn(ShanghaiGame, turns, states).turns| == |turns| - 1
  {
  }

  /**
   * Storing the +200 bonus and undoing it gives back the side's marks and
   * points whenever its points were non-negative, including a bonus on the
   * side's first turn (the upsert then creates a row, which the undo leaves
   * at 0); every other row is untouched, and an existing table comes back
   * exactly.
   */
  lemma BonusUndoRestores(thrower: GamePlayer, states: StateTable, turns: seq<Turn>, turnsTaken: nat, round: int)
    requires PointsOf(RowOf(states, thrower.teamSeasonId)) >= 0
    requires forall i :: 0 <= i < |turns| ==> turns[i].turnNumber <= turnsTaken
    ensures var team := thrower.teamSeasonId;
            var before := RowOf(states, team);
            var (update, turn) := ShanghaiBonus(thrower, View(before, None), turnsTaken, round);
            var r := UndoLastTurn(ShanghaiGame, turns + [turn], Upsert(states, team, update));
            && r.undone && r.turns == turns
            && (forall s :: MarksOf(RowOf(r.states, team), s) == MarksOf(before, s))
            && PointsOf(RowOf(r.states, team)) == PointsOf(before)
            && (forall k :: k != team ==> RowOf(r.states, k) == RowOf(states, k))
            && (team in states ==> r.states == states)
  {
    var team := thrower.teamSeasonId;
    var before := RowOf(states, team);
    var (update, turn) := ShanghaiBonus(thrower, View(before, None), turnsTaken, round);
    var stored := Upsert(states, team, update);
    AppendedTurnIsLatest(turns, turn, (t: Turn) => t.turnNumber);
    var back := RollbackTurn(ShanghaiGame, turn, stored);
    assert back[team] == CricketState(stored[team].marks, PointsOf(before));
    if team in states {
      assert stored[team].marks == states[team].marks + map[] == states[team].marks;
      assert back[team] == states[team];
      assert back.Keys == states.Keys;
      assert back == states;
    } else {
      assert stored[team].marks == map[];
    }
  }

  // ------------------------------------------------------------------
  // Upsert of a CricketState row
  // ------------------------------------------------------------------

  /**
   * `upsertCricketState` on one row: an existing row takes the supplied
   * fields and keeps the rest; a missing row is created with every absent
   * field 0.
   */
  function UpsertRow(row: Option<CricketState>, u: StateUpdate): (r: CricketState)
    ensures forall s :: Get(r.marks, s) == if s in u.marks then u.marks[s] else MarksOf(row, s)
    ensures r.points == if u.points.Some? then u.points.value else PointsOf(row)
  {
    match row
    case Some(st) => CricketState(st.marks + u.marks, if u.points.Some? then u.points.value else st.points)
    case None => CricketState(u.marks, if u.points.Some? then u.points.value else 0)
  }

  function Upsert(states: StateTable, team: int, u: StateUpdate): (r: StateTable)
    ensures r.Keys == states.Keys + {team}
    ensures forall k :: k in states && k != team ==> r[k] == states[k]
  {
    states[team := UpsertRow(if team in states then Some(states[team]) else None, u)]
  }

  /** Sending the same partial update twice stores the same row as sending it once. */
  lemma UpsertIdempotent(states: StateTable, team: int, u: StateUpdate)
    ensures Upsert(Upsert(states, team, u), team, u) == Upsert(states, team, u)
  {
    var once := Upsert(states, team, u);
    assert once[team].marks + u.marks == once[team].marks;
  }

  /** The side's row a table gives the scoreboard. */
  function RowOf(states: StateTable, team: int): Option<CricketState>
  {
    if team in states then Some(states[team]) else None
  }

  /** The table after the scoreboard's `PUT` of a completed turn's update, if it sent one. */
  function StoreCompletion(states: StateTable, team: int, c: Completion): (r: StateTable)
    ensures c.update.None? ==> r == states
    ensures c.update.Some? ==> r == Upsert(states, team, c.update.value)
  {
    if c.update.Some? then Upsert(states, team, c.update.value) else states
  }

  /** Storing a completion touches no other side's row. */
  lemma StoreKeepsOtherRows(states: StateTable, team: int, c: Completion)
    ensures forall k :: k != team ==> RowOf(StoreCompletion(states, team, c), k) == RowOf(states, k)
  {
  }

  /**
   * The row the server stores after a completed turn is the row the
   * scoreboard's win check assumed: same marks on every key, and the same
   * points whenever the turn did not lose points.
   */
  lemma StoredRowMatchesWinCheck(v: Variant, thrower: GamePlayer, states: StateTable, opp: Option<CricketState>,
                                 p: Pending, turnsTaken: nat, round: int)
    requires TurnPoints(v, View(RowOf(states, thrower.teamSeasonId), opp), p) >= 0
    ensures var team := thrower.teamSeasonId;
            var view := View(RowOf(states, team), opp);
            var c := CompleteTurn(v, thrower, view, p, turnsTaken, round);
            var stored := StoreCompletion(states, team, c);
            var expected := UpdatedOwn(v, view, p);
            && (forall s :: MarksOf(RowOf(stored, team), s) == Get(expected.marks, s))
            && PointsOf(RowOf(stored, team)) == expected.points
  {
    var team := thrower.teamSeasonId;
    var view := View(RowOf(states, team), opp);
    var c := CompleteTurn(v, thrower, view, p, turnsTaken, round);
    var stored := StoreCompletion(states, team, c);
    if c.update.Some? {
      assert RowOf(stored, team) == Some(UpsertRow(view.own, c.update.value));
      UpdateMatchesOwn(v, view, p, c.update.value);
    } else {
      assert stored == states;
      NoUpdateMatchesOwn(v, view, p);
    }
  }

  /** An update carrying the turn's writes, and its points when positive, stores the row the win check rebuilds. */
  lemma UpdateMatchesOwn(v: Variant, view: View, p: Pending, u: StateUpdate)
    requires TurnPoints(v, view, p) >= 0
    requires u.marks == WritesOver(view, BoardSegs(v), p.taps)
    requires u.points.Some? <==> TurnPoints(v, view, p) > 0
    requires u.points.Some? ==> u.points.value == PointsOf(view.own) + TurnPoints(v, view, p)
    ensures forall s :: MarksOf(Some(UpsertRow(view.own, u)), s) == Get(UpdatedOwn(v, view, p).marks, s)
    ensures PointsOf(Some(UpsertRow(view.own, u))) == UpdatedOwn(v, view, p).points
  {
    var expected := UpdatedOwn(v, view, p);
    forall s ensures MarksOf(Some(UpsertRow(view.own, u)), s) == Get(expected.marks, s) {
      assert MarksOf(Some(UpsertRow(view.own, u)), s) == Get(UpsertRow(view.own, u).marks, s);
    }
  }

  /** A turn with no taps on the board and no points leaves the row the win check rebuilds as it was. */
  lemma NoUpdateMatchesOwn(v: Variant, view: View, p: Pending)
    requires forall s :: s in BoardSegs(v) ==> Get(p.taps, s) == 0
    requires TurnPoints(v, view, p) == 0
    ensures forall s :: MarksOf(view.own, s) == Get(UpdatedOwn(v, view, p).marks, s)
    ensures PointsOf(view.own) == UpdatedOwn(v, view, p).points
  {
  }

  /**
   * The scoreboard declares a win exactly when the stored row has every board
   * segment closed and at least the opponent's points.
   */
  lemma WinMatchesStoredRow(v: Variant, thrower: GamePlayer, states: StateTable, opp: Option<CricketState>,
                            p: Pending, turnsTaken: nat, round: int)
    requires TurnPoints(v, View(RowOf(states, thrower.teamSeasonId), opp), p) >= 0
    ensures var team := thrower.teamSeasonId;
            var c := CompleteTurn(v, thrower, View(RowOf(states, team), opp), p, turnsTaken, round);
            var row := RowOf(StoreCompletion(states, team, c), team);
            c.wins <==> (forall s :: s in BoardSegs(v) ==> MarksOf(row, s) >= 3) && PointsOf(row) >= PointsOf(opp)
  {
    StoredRowMatchesWinCheck(v, thrower, states, opp, p, turnsTaken, round);
  }

  /** The Shanghai bonus adds exactly 200 points and changes no marks. */
  lemma BonusAddsExactly200(thrower: GamePlayer, states: StateTable, opp: Option<CricketState>, turnsTaken: nat, round: int)
    ensures var team := thrower.teamSeasonId;
            var update := ShanghaiBonus(thrower, View(RowOf(states, team), opp), turnsTaken, round).0;
            var stored := Upsert(states, team, update);
            && PointsOf(RowOf(stored, team)) == PointsOf(RowOf(states, team)) + ShanghaiBonusPoints
            && (forall s :: MarksOf(RowOf(stored, team), s) == MarksOf(RowOf(states, team), s))
  {
  }

  // ------------------------------------------------------------------
  // Undo in the CricketTurns table
  // ------------------------------------------------------------------

  /** Keys with a `CricketState` column that the cricket undo rolls back: 20..15 and the bull. */
  predicate RollsBack(s: Seg)
  {
    !IsExtra(s)
  }

  /**
   * The rollback of `undoLastCricketTurn`: each of the seven keys whose
   * column in the turn is positive loses that many marks, clamped at 0, and
   * positive turn points come off the side's points, clamped at 0.
   */
  function RollbackCricket(st: CricketState, ct: CricketTurn): (r: CricketState)
    ensures forall s :: RollsBack(s) && Get(ct.segs, s) > 0 ==> Get(r.marks, s) == Max(0, Get(st.marks, s) - Get(ct.segs, s))
    ensures forall s :: !(RollsBack(s) && Get(ct.segs, s) > 0) ==> Get(r.marks, s) == Get(st.marks, s)
    ensures r.points == if ct.points > 0 then Max(0, st.points - ct.points) else st.points
  {
    var marks := st.marks + map s | s in ct.segs && RollsBack(s) && ct.segs[s] > 0 :: Max(0, Get(st.marks, s) - ct.segs[s]);
    CricketState(marks, if ct.points > 0 then Max(0, st.points - ct.points) else st.points)
  }

  datatype CricketUndoOutcome = CricketUndoOutcome(undone: bool, turns: seq<CricketTurn>, states: StateTable)

  /** `undoLastCricketTurn`; only the thrower's side's row changes, and only if it exists. */
  function UndoLastCricketTurn(turns: seq<CricketTurn>, states: StateTable): (r: CricketUndoOutcome)
    ensures |turns| == 0 ==> r == CricketUndoOutcome(false, turns, states)
    ensures |turns| > 0 ==>
              var k := LatestIndex(turns, (t: CricketTurn) => t.turnNumber);
              var team := turns[k].teamSeasonId;
              && r.undone
              && r.turns == RemoveAt(turns, k)
              && r.states.Keys == states.Keys
              && (forall t :: t in states && t != team ==> r.states[t] == states[t])
              && (team in states ==> r.states[team] == RollbackCricket(states[team], turns[k]))
  {
    if |turns| == 0 then CricketUndoOutcome(false, turns, states)
    else
      var k := LatestIndex(turns, (t: CricketTurn) => t.turnNumber);
      var team := turns[k].teamSeasonId;
      CricketUndoOutcome(true, RemoveAt(turns, k),
                         if team in states then states[team := RollbackCricket(states[team], turns[k])] else states)
  }

  /**
   * Adding a Cricket turn and undoing it restores the side's marks and
   * points exactly, provided no tapped segment reached the 9-mark cap (and
   * the stored values were not negative).  A side without a row before the
   * turn reads as all zeros, before and after.  Every other side is untouched.
   */
  lemma CricketAddThenUndoRestores(thrower: GamePlayer, states: StateTable, opp: Option<CricketState>,
                                   p: Pending, turns: seq<CricketTurn>, turnsTaken: nat, round: int)
    requires var before := RowOf(states, thrower.teamSeasonId);
             && PointsOf(before) >= 0
             && (forall s :: MarksOf(before, s) >= 0)
             && (forall s :: s in BoardSegs(Cricket) && Get(p.taps, s) != 0 ==> MarksOf(before, s) + Get(p.taps, s) <= MarkCap)
    requires forall s :: s in p.taps ==> p.taps[s] >= 1
    requires forall i :: 0 <= i < |turns| ==> turns[i].turnNumber <= turnsTaken
    ensures var team := thrower.teamSeasonId;
            var before := RowOf(states, team);
            var c := CompleteTurn(Cricket, thrower, View(before, opp), p, turnsTaken, round);
            var stored := StoreCompletion(states, team, c);
            var r := UndoLastCricketTurn(turns + [c.record.ct], stored);
            && r.turns == turns
            && (forall s :: MarksOf(RowOf(r.states, team), s) == MarksOf(before, s))
            && PointsOf(RowOf(r.states, team)) == PointsOf(before)
            && (forall k :: k != team ==> RowOf(r.states, k) == RowOf(states, k))
  {
    var team := thrower.teamSeasonId;
    var before := RowOf(states, team);
    var c := CompleteTurn(Cricket, thrower, View(before, opp), p, turnsTaken, round);
    CricketTurnPointsNonNegative(View(before, opp), p);
    StoredUncappedTurn(thrower, states, opp, p, turnsTaken, round);
    StoreKeepsOtherRows(states, team, c);
    UndoRestoresRow(before, states, StoreCompletion(states, team, c), c.record.ct, p, turns);
  }

  /**
   * The table after an uncapped Cricket turn: the side's row is the old row
   * plus the turn's columns, and the turn's points when positive.
   */
  lemma StoredUncappedTurn(thrower: GamePlayer, states: StateTable, opp: Option<CricketState>,
                           p: Pending, turnsTaken: nat, round: int)
    requires forall s :: s in BoardSegs(Cricket) && Get(p.taps, s) != 0
               ==> MarksOf(RowOf(states, thrower.teamSeasonId), s) + Get(p.taps, s) <= MarkCap
    requires forall s :: s in p.taps ==> p.taps[s] >= 1
    ensures var team := thrower.teamSeasonId;
            var before := RowOf(states, team);
            var c := CompleteTurn(Cricket, thrower, View(before, opp), p, turnsTaken, round);
            var stored := StoreCompletion(states, team, c);
            var ct := c.record.ct;
            && (forall s :: MarksOf(RowOf(stored, team), s)
                           == if s in ct.segs then MarksOf(before, s) + Get(p.taps, s) else MarksOf(before, s))
            && PointsOf(RowOf(stored, team)) == (if ct.points > 0 then PointsOf(before) + ct.points else PointsOf(before))
  {
    var team := thrower.teamSeasonId;
    var view := View(RowOf(states, team), opp);
    var c := CompleteTurn(Cricket, thrower, view, p, turnsTaken, round);
    CricketTurnPointsNonNegative(view, p);
    StoredRowMatchesWinCheck(Cricket, thrower, states, opp, p, turnsTaken, round);
    UncappedStoredRow(RowOf(StoreCompletion(states, team, c), team), view, p, c.record.ct.segs, c.record.ct.points);
  }

  /**
   * Undoing a Cricket turn whose columns were added to its side's row, and
   * that is numbered above every earlier turn, gives back that row and the
   * earlier turns; the other sides' rows were never touched.
   */
  lemma UndoRestoresRow(before: Option<CricketState>, states: StateTable, stored: StateTable,
                        ct: CricketTurn, p: Pending, turns: seq<CricketTurn>)
    requires PointsOf(before) >= 0 && ct.points >= 0
    requires forall s :: MarksOf(before, s) >= 0
    requires forall s :: s in p.taps ==> p.taps[s] >= 1
    requires ct.segs == ColumnsOver(BoardSegs(Cricket), p.taps)
    requires forall s :: MarksOf(RowOf(stored, ct.teamSeasonId), s)
                         == if s in ct.segs then MarksOf(before, s) + Get(p.taps, s) else MarksOf(before, s)
    requires PointsOf(RowOf(stored, ct.teamSeasonId)) == (if ct.points > 0 then PointsOf(before) + ct.points else PointsOf(before))
    requires forall k :: k != ct.teamSeasonId ==> RowOf(stored, k) == RowOf(states, k)
    requires forall i :: 0 <= i < |turns| ==> turns[i].turnNumber < ct.turnNumber
    ensures var team := ct.teamSeasonId;
            var r := UndoLastCricketTurn(turns + [ct], stored);
            && r.turns == turns
            && (forall s :: MarksOf(RowOf(r.states, team), s) == MarksOf(before, s))
            && PointsOf(RowOf(r.states, team)) == PointsOf(before)
            && (forall k :: k != team ==> RowOf(r.states, k) == RowOf(states, k))
  {
    var team := ct.teamSeasonId;
    UndoAppendedCricketTurn(turns, ct, stored);
    if team in stored {
      RowRoundTrip(before, RowOf(stored, team), ct, p);
      assert RowOf(UndoLastCricketTurn(turns + [ct], stored).states, team)
             == Some(RollbackCricket(RowOf(stored, team).value, ct));
    }
  }

  /** Undoing a Cricket turn just appended with the highest number removes it and rolls back its side's row. */
  lemma UndoAppendedCricketTurn(turns: seq<CricketTurn>, ct: CricketTurn, states: StateTable)
    requires forall i :: 0 <= i < |turns| ==> turns[i].turnNumber < ct.turnNumber
    ensures var r := UndoLastCricketTurn(turns + [ct], states);
            var team := ct.teamSeasonId;
            && r.turns == turns
            && r.states == if team in states then states[team := RollbackCricket(states[team], ct)] else states
  {
    AppendedTurnIsLatest(turns, ct, (t: CricketTurn) => t.turnNumber);
    assert (turns + [ct])[|turns|] == ct;
  }

  /** Below the cap, the row the win check rebuilds is the old row plus the turn's columns. */
  lemma UncappedRow(view: View, p: Pending, segs: map<Seg, int>, points: int)
    requires forall s :: s in BoardSegs(Cricket) && Get(p.taps, s) != 0 ==> MarksOf(view.own, s) + Get(p.taps, s) <= MarkCap
    requires segs == ColumnsOver(BoardSegs(Cricket), p.taps)
    requires points == TurnPoints(Cricket, view, p) >= 0
    ensures var c := UpdatedOwn(Cricket, view, p);
            && (forall s :: Get(c.marks, s) == if s in segs then MarksOf(view.own, s) + Get(p.taps, s) else MarksOf(view.own, s))
            && c.points == (if points > 0 then PointsOf(view.own) + points else PointsOf(view.own))
  {
  }

  /** A stored row that matches the uncapped update adds the turn's columns to the old row. */
  lemma UncappedStoredRow(stored: Option<CricketState>, view: View, p: Pending, segs: map<Seg, int>, points: int)
    requires forall s :: s in BoardSegs(Cricket) && Get(p.taps, s) != 0 ==> MarksOf(view.own, s) + Get(p.taps, s) <= MarkCap
    requires segs == ColumnsOver(BoardSegs(Cricket), p.taps)
    requires points == TurnPoints(Cricket, view, p) >= 0
    requires forall s :: MarksOf(stored, s) == Get(UpdatedOwn(Cricket, view, p).marks, s)
    requires PointsOf(stored) == UpdatedOwn(Cricket, view, p).points
    ensures forall s :: MarksOf(stored, s) == if s in segs then MarksOf(view.own, s) + Get(p.taps, s) else MarksOf(view.own, s)
    ensures PointsOf(stored) == if points > 0 then PointsOf(view.own) + points else PointsOf(view.own)
  {
    UncappedRow(view, p, segs, points);
    ChainRow(stored, UpdatedOwn(Cricket, view, p), view.own, segs, points, p);
  }

  /** Two row descriptions agreeing key by key with a third agree with each other. */
  lemma ChainRow(stored: Option<CricketState>, mid: CricketState, before: Option<CricketState>,
                 segs: map<Seg, int>, points: int, p: Pending)
    requires forall s :: MarksOf(stored, s) == Get(mid.marks, s)
    requires PointsOf(stored) == mid.points
    requires forall s :: Get(mid.marks, s) == if s in segs then MarksOf(before, s) + Get(p.taps, s) else MarksOf(before, s)
    requires mid.points == (if points > 0 then PointsOf(before) + points else PointsOf(before))
    ensures forall s :: MarksOf(stored, s) == if s in segs then MarksOf(before, s) + Get(p.taps, s) else MarksOf(before, s)
    ensures PointsOf(stored) == if points > 0 then PointsOf(before) + points else PointsOf(before)
  {
  }

  /** The row-level half of the round trip: the stored row minus the turn's columns is the old row. */
  lemma RowRoundTrip(before: Option<CricketState>, stored: Option<CricketState>, ct: CricketTurn, p: Pending)
    requires stored.Some?
    requires PointsOf(before) >= 0 && ct.points >= 0
    requires forall s :: MarksOf(before, s) >= 0
    requires forall s :: s in p.taps ==> p.taps[s] >= 1
    requires ct.segs == ColumnsOver(BoardSegs(Cricket), p.taps)
    requires forall s :: MarksOf(stored, s) == if s in ct.segs then MarksOf(before, s) + Get(p.taps, s) else MarksOf(before, s)
    requires PointsOf(stored) == if ct.points > 0 then PointsOf(before) + ct.points else PointsOf(before)
    ensures forall s :: MarksOf(Some(RollbackCricket(stored.value, ct)), s) == MarksOf(before, s)
    ensures PointsOf(Some(RollbackCricket(stored.value, ct))) == PointsOf(before)
  {
    forall s
      ensures MarksOf(Some(RollbackCricket(stored.value, ct)), s) == MarksOf(before, s)
    {
      var rolled := RollbackCricket(stored.value, ct);
      assert MarksOf(stored, s) == Get(stored.value.marks, s);
      if s in ct.segs {
        BoardSegsAreOnBoard(Cricket, s);
        assert RollsBack(s) && Get(ct.segs, s) == Get(p.taps, s) > 0;
        assert Get(rolled.marks, s) == Max(0, MarksOf(before, s) + Get(p.taps, s) - Get(p.taps, s));
      } else {
        assert Get(ct.segs, s) == 0;
        assert Get(rolled.marks, s) == MarksOf(stored, s);
      }
    }
  }

  /** Cricket turns never lose points: only overflow on numbered segments and the bull scores. */
  lemma CricketTurnPointsNonNegative(view: View, p: Pending)
    requires forall s :: s in p.taps ==> p.taps[s] >= 1
    ensures TurnPoints(Cricket, view, p) >= 0
  {
    PointsOverNonNegative(view, p, BoardSegs(Cricket));
  }

  lemma {:induction false} PointsOverNonNegative(view: View, p: Pending, segs: seq<Seg>)
    requires forall i :: 0 <= i < |segs| ==> !IsExtra(segs[i])
    requires forall s :: s in p.taps ==> p.taps[s] >= 1
    ensures PointsOver(view, p, segs) >= 0
    decreases |segs|
  {
    if |segs| > 0 {
      PointsOverNonNegative(view, p, segs[..|segs| - 1]);
    }
  }

  /**
   * The 9-mark cap breaks the round trip: with 8 marks on 20 and three more
   * taps the row stores 9, and the undo subtracts the 3 taps, leaving 6.
   */
  lemma CapBreaksCricketUndo(thrower: GamePlayer, st: CricketState, turnsTaken: nat, round: int)
    requires Get(st.marks, Seg20) == 8
    ensures var team := thrower.teamSeasonId;
            var c := CompleteTurn(Cricket, thrower, View(Some(st), None), Pending(map[Seg20 := 3], map[]), turnsTaken, round);
            && c.update.Some?
            && Get(Upsert(map[team := st], team, c.update.value)[team].marks, Seg20) == 9
            && Get(UndoLastCricketTurn([c.record.ct], Upsert(map[team := st], team, c.update.value)).states[team].marks, Seg20) == 6
  {
    var team := thrower.teamSeasonId;
    var view := View(Some(st), None);
    var p := Pending(map[Seg20 := 3], map[]);
    CapExampleColumns(view, p);
    var c := CompleteTurn(Cricket, thrower, view, p, turnsTaken, round);
    var stored := Upsert(map[team := st], team, c.update.value);
    assert Get(stored[team].marks, Seg20) == 9;
    var r := UndoLastCricketTurn([c.record.ct], stored);
    assert r.states[team] == RollbackCricket(stored[team], c.record.ct);
    RollbackOverCap(stored[team], c.record.ct);
  }

  /** Nine stored marks on 20, less a turn's column of 3, leave 6. */
  lemma RollbackOverCap(st: CricketState, ct: CricketTurn)
    requires Get(st.marks, Seg20) == 9 && Get(ct.segs, Seg20) == 3
    ensures Get(RollbackCricket(st, ct).marks, Seg20) == 6
  {
    assert RollsBack(Seg20);
  }

  /** The writes and columns of three taps on 20 over 8 marks. */
  lemma CapExampleColumns(view: View, p: Pending)
    requires MarksOf(view.own, Seg20) == 8 && p.taps == map[Seg20 := 3]
    ensures Get(WritesOver(view, BoardSegs(Cricket), p.taps), Seg20) == 9
    ensures Get(ColumnsOver(BoardSegs(Cricket), p.taps), Seg20) == 3
  {
    BoardSegsAreOnBoard(Cricket, Seg20);
  }

  // ------------------------------------------------------------------
  // Match completion and the playoff final
  // ------------------------------------------------------------------

  /** What the completion check reads from a game: its status and winner (0: none). */
  datatype GameSummary = GameSummary(completed: bool, winner: int)

  function CompletedCount(games: seq<GameSummary>): (n: nat)
    ensures n <= |games|
    decreases |games|
  {
    if |games| == 0 then 0
    else CompletedCount(games[..|games| - 1]) + (if games[|games| - 1].completed then 1 else 0)
  }

  /** The tally of `winCounts[team]`: completed games whose (non-zero) winner is `team`. */
  function WinsOf(games: seq<GameSummary>, team: int): nat
    decreases |games|
  {
    if |games| == 0 then 0
    else
      var g := games[|games| - 1];
      WinsOf(games[..|games| - 1], team) + (if g.completed && g.winner != 0 && g.winner == team then 1 else 0)
  }

  /** Two different sides together win at most the completed games. */
  lemma {:induction false} WinsAtMostCompleted(games: seq<GameSummary>, home: int, away: int)
    requires home != away
    ensures WinsOf(games, home) + WinsOf(games, away) <= CompletedCount(games)
    decreases |games|
  {
    if |games| > 0 {
      WinsAtMostCompleted(games[..|games| - 1], home, away);
    }
  }

  /** With every game completed and won by one of the two sides, the wins add up to the games. */
  lemma {:induction false} WinsAddUp(games: seq<GameSummary>, home: int, away: int)
    requires home != away && home != 0 && away != 0
    requires forall i :: 0 <= i < |games| ==> games[i].completed && games[i].winner in {home, away}
    ensures WinsOf(games, home) + WinsOf(games, away) == |games| == CompletedCount(games)
    decreases |games|
  {
    if |games| > 0 {
      WinsAddUp(games[..|games| - 1], home, away);
    }
  }

  datatype MatchResult = MatchResult(winner: int, homeScore: int, awayScore: int, addsGameWins: bool)

  /**
   * `checkMatchCompletion`: a league match completes once at least 5 games
   * exist and all are completed, an ad-hoc match once at least one game
   * exists and all are completed.  The scores are win counts and the home
   * side wins only with strictly more wins.  League results also add the
   * game wins to both sides' season totals.
   */
  function CheckMatchCompletion(isAdHoc: bool, home: int, away: int, games: seq<GameSummary>): (r: Option<MatchResult>)
    ensures r.Some? <==> CompletedCount(games) == |games| && |games| >= (if isAdHoc then 1 else 5)
    ensures r.Some? ==> r.value.homeScore == WinsOf(games, home) && r.value.awayScore == WinsOf(games, away)
    ensures r.Some? ==> r.value.winner in {home, away}
    ensures r.Some? && home != away ==> (r.value.winner == home <==> r.value.homeScore > r.value.awayScore)
    ensures r.Some? ==> r.value.addsGameWins == !isAdHoc
  {
    var completed := CompletedCount(games);
    if |games| == 0 then None
    else if !isAdHoc && (completed < 5 || completed != |games|) then None
    else if isAdHoc && (completed != |games| || completed == 0) then None
    else
      var homeWins := WinsOf(games, home);
      var awayWins := WinsOf(games, away);
      Some(MatchResult(if homeWins > awayWins then home else away, homeWins, awayWins, !isAdHoc))
  }

  /** A level tally goes to the away side: an ad-hoc game finished without a winner makes away the winner 0-0. */
  lemma TieGoesToAway(isAdHoc: bool, home: int, away: int, games: seq<GameSummary>)
    requires CheckMatchCompletion(isAdHoc, home, away, games).Some?
    requires WinsOf(games, home) == WinsOf(games, away)
    ensures CheckMatchCompletion(isAdHoc, home, away, games).value.winner == away
    ensures CheckMatchCompletion(true, 1, 2, [GameSummary(true, 0)]) == Some(MatchResult(2, 0, 0, false))
  {
    var g := [GameSummary(true, 0)];
    assert g[..0] == [];
  }

  /** Five league games each won by one side: the match is decided 3 or more games to the rest. */
  lemma LeagueMatchHasMajorityWinner(home: int, away: int, games: seq<GameSummary>)
    requires home != away && home != 0 && away != 0 && |games| == 5
    requires forall i :: 0 <= i < |games| ==> games[i].completed && games[i].winner in {home, away}
    ensures var r := CheckMatchCompletion(false, home, away, games);
            && r.Some?
            && r.value.homeScore + r.value.awayScore == 5
            && WinsOf(games, r.value.winner) >= 3
  {
    WinsAddUp(games, home, away);
  }

  /** What the final check reads from a semifinal. */
  datatype MatchSummary = MatchSummary(home: int, away: int, completed: bool, winner: int)

  /** The side of a match that did not win it. */
  function Loser(m: MatchSummary): int
  {
    if m.winner == m.home then m.away else m.home
  }

  /** When the winner is one of two different sides, the loser is the other one. */
  lemma LoserIsTheOtherSide(m: MatchSummary)
    requires m.home != m.away && m.winner in {m.home, m.away}
    ensures Loser(m) in {m.home, m.away} && Loser(m) != m.winner
    ensures {Loser(m), m.winner} == {m.home, m.away}
  {
  }

  datatype Final = Final(home: int, away: int, round: int, eliminated: set<int>)

  /**
   * `checkSemiFinalsCompletion`: with exactly two semifinals, both completed
   * with a winner, and no final yet, the winners meet in round max + 1 and
   * both losers are eliminated.
   */
  function CheckSemiFinals(semis: seq<MatchSummary>, finalExists: bool, rounds: seq<int>): (r: Option<Final>)
    ensures r.Some? <==> |semis| == 2 && !finalExists
                         && (forall i :: 0 <= i < 2 ==> semis[i].completed && semis[i].winner != 0)
    ensures r.Some? ==> && r.value.home == semis[0].winner && r.value.away == semis[1].winner
                        && (forall i :: 0 <= i < |rounds| ==> rounds[i] < r.value.round)
                        && r.value.eliminated == {Loser(semis[0]), Loser(semis[1])}
  {
    if |semis| != 2 then None
    else if !(semis[0].completed && semis[0].winner != 0 && semis[1].completed && semis[1].winner != 0) then None
    else if finalExists then None
    else Some(Final(semis[0].winner, semis[1].winner, MaxOrZero(rounds) + 1, {Loser(semis[0]), Loser(semis[1])}))
  }

  /** With four different teams in the two semis, neither finalist is eliminated. */
  lemma FinalistsAreNotEliminated(semis: seq<MatchSummary>, finalExists: bool, rounds: seq<int>)
    requires CheckSemiFinals(semis, finalExists, rounds).Some?
    requires forall i :: 0 <= i < 2 ==> semis[i].home != semis[i].away && semis[i].winner in {semis[i].home, semis[i].away}
    requires {semis[0].home, semis[0].away} !! {semis[1].home, semis[1].away}
    ensures var f := CheckSemiFinals(semis, finalExists, rounds).value;
            f.home !in f.eliminated && f.away !in f.eliminated && f.home != f.away
  {
    LoserIsTheOtherSide(semis[0]);
    LoserIsTheOtherSide(semis[1]);
  }

  // ------------------------------------------------------------------
  // Random Round-the-World order
  // ------------------------------------------------------------------

  lemma BoardTargetsDistinct()
    ensures Distinct(BoardTargets())
  {
  }

  /**
   * The Fisher-Yates shuffle of 1..20 and the bull.  `picks[k]` is the index
   * the random draw chose at step k (for position `i = 20 - k`, a value in
   * 0..i, as `Math.floor(Math.random() * (i + 1))` is).
   */
  method ShuffleTargets(picks: seq<int>) returns (nums: seq<int>)
    requires |picks| == 20
    requires forall k :: 0 <= k < 20 ==> 0 <= picks[k] <= 20 - k
    ensures multiset(nums) == multiset(BoardTargets())
    ensures |nums| == 21 && Distinct(nums)
  {
    nums := BoardTargets();
    var i := 20;
    while i > 0
      invariant 0 <= i <= 20
      invariant |nums| == 21
      invariant multiset(nums) == multiset(BoardTargets())
    {
      var j := picks[20 - i];
      nums := nums[i := nums[j]][j := nums[i]];
      i := i - 1;
    }
    BoardTargetsDistinct();
    DistinctPermutation(BoardTargets(), nums);
  }

  // ------------------------------------------------------------------
  // Seating an ad-hoc game
  // ------------------------------------------------------------------

  /** One side's players with `PlayerOrder` 1, 2, ... in list order. */
  function Seat(ids: seq<int>, team: int): (r: seq<GamePlayer>)
    ensures |r| == |ids|
    ensures forall i :: 0 <= i < |r| ==> r[i] == GamePlayer(ids[i], team, i + 1)
    decreases |ids|
  {
    if |ids| == 0 then [] else Seat(ids[..|ids| - 1], team) + [GamePlayer(ids[|ids| - 1], team, |ids|)]
  }

  /**
   * The game players of `createAdHoc`: side A, then side B unless B is empty
   * (a solo game, played by side A against its own team).
   */
  function AdHocPlayers(a: seq<int>, b: seq<int>, sideA: int, sideB: int): (r: seq<GamePlayer>)
    ensures |r| == |a| + |b|
    ensures |b| == 0 ==> r == Seat(a, sideA)
    ensures |b| > 0 ==> r[..|a|] == Seat(a, sideA) && r[|a|..] == Seat(b, sideB)
  {
    if |b| == 0 then Seat(a, sideA) else Seat(a, sideA) + Seat(b, sideB)
  }

  /** Two sides of an ad-hoc game throw alternately, A first, each in its entry order. */
  lemma AdHocNaturalOrder(a: seq<int>, b: seq<int>, sideA: int, sideB: int)
    requires |b| > 0 && sideA != sideB
    ensures NaturalOrder(AdHocPlayers(a, b, sideA, sideB), sideA, sideB) == Interleave(Seat(a, sideA), Seat(b, sideB))
  {
    var x, y := Seat(a, sideA), Seat(b, sideB);
    assert AdHocPlayers(a, b, sideA, sideB) == x + y;
    assert forall i :: 0 <= i < |x| ==> x[i].teamSeasonId == sideA;
    assert forall i :: 0 <= i < |y| ==> y[i].teamSeasonId == sideB;
    SidesOfTwoBlocks(x, y, sideA, sideB);
  }

  /**
   * A solo game is one player whose side plays itself, so the natural order
   * names the player twice and every turn is theirs.
   */
  lemma SoloGameIsAlwaysThePlayer(id: int, side: int, turnsTaken: nat)
    ensures var players := AdHocPlayers([id], [], side, side);
            && ResolveOrder(players, side, side) == [GamePlayer(id, side, 1), GamePlayer(id, side, 1)]
            && CurrentThrower(ResolveOrder(players, side, side), turnsTaken) == Some(GamePlayer(id, side, 1))
  {
    var p := GamePlayer(id, side, 1);
    assert Seat([id], side) == [p];
    assert OnSide([p], side) == [p] by {
      assert [p][1..] == [];
    }
    assert Interleave([p], [p]) == [p, p] by {
      assert [p][1..] == [];
    }
    assert NaturalOrder([p], side, side) == [p, p];
  }
}

=== FILE: mark_board.dfy ===
/**
 * The Cricket / Shanghai mark board.  A turn is entered as taps per board
 * segment (at most 9 per turn).  Three marks close a segment; marks beyond
 * the third score the segment's value while the opponent has not closed it.
 * Shanghai adds three "extra" segments (Triples, Doubles, Three-in-the-Bed)
 * whose overflow is worth a manually entered amount, and a +200 bonus.
 * Marks stored per side are capped at 9.
 */
module MarkBoard {
  import opened Base
  import opened Records

  datatype Variant = Cricket | Shanghai

  const MaxTapsPerTurn := 9
  const MarkCap := 9
  const ShanghaiBonusPoints := 200

  /** Every board key, in the order of the `CricketState` columns. */
  function AllSegs(): seq<Seg>
  {
    [Seg20, Seg19, Seg18, Seg17, Seg16, Seg15, SegBull, SegTriples, SegDoubles, SegThreeInBed]
  }

  /** The segments a variant's board shows (its `SEGMENT_KEYS`). */
  function BoardSegs(v: Variant): (r: seq<Seg>)
    ensures Distinct(r)
  {
    match v
    case Cricket => AllSegs()[..7]
    case Shanghai => AllSegs()
  }

  /** Whether the variant's board has the key at all. */
  predicate OnBoard(v: Variant, s: Seg)
  {
    v == Shanghai || !IsExtra(s)
  }

  /** The board list holds exactly the keys on the board. */
  lemma BoardSegsAreOnBoard(v: Variant, s: Seg)
    ensures s in BoardSegs(v) <==> OnBoard(v, s)
  {
    var all := AllSegs();
    assert all[..7] == [Seg20, Seg19, Seg18, Seg17, Seg16, Seg15, SegBull];
    match s
    case Seg20 => assert all[0] == s;
    case Seg19 => assert all[1] == s;
    case Seg18 => assert all[2] == s;
    case Seg17 => assert all[3] == s;
    case Seg16 => assert all[4] == s;
    case Seg15 => assert all[5] == s;
    case SegBull => assert all[6] == s;
    case SegTriples => assert all[7] == s;
    case SegDoubles => assert all[8] == s;
    case SegThreeInBed => assert all[9] == s;
  }

  predicate IsExtra(s: Seg)
  {
    s == SegTriples || s == SegDoubles || s == SegThreeInBed
  }

  /** Face value of a numbered segment, 25 for the bull; extras have no face value. */
  function SegValue(s: Seg): int
  {
    match s
    case Seg20 => 20
    case Seg19 => 19
    case Seg18 => 18
    case Seg17 => 17
    case Seg16 => 16
    case Seg15 => 15
    case SegBull => 25
    case _ => 0
  }

  /** Sum of `m`'s entries over the keys `segs` (missing keys count 0). */
  function SumOver(segs: seq<Seg>, m: map<Seg, int>): int
    decreases |segs|
  {
    if |segs| == 0 then 0 else SumOver(segs[..|segs| - 1], m) + Get(m, segs[|segs| - 1])
  }

  /** `Object.values(turnMarks).reduce(...)`: every tap of the turn, on any key. */
  function TotalTaps(taps: map<Seg, int>): int
  {
    Get(taps, Seg20) + Get(taps, Seg19) + Get(taps, Seg18) + Get(taps, Seg17) + Get(taps, Seg16)
    + Get(taps, Seg15) + Get(taps, SegBull) + Get(taps, SegTriples) + Get(taps, SegDoubles)
    + Get(taps, SegThreeInBed)
  }

  lemma TotalTapsUpdate(m: map<Seg, int>, s: Seg, x: int)
    ensures TotalTaps(m[s := x]) == TotalTaps(m) - Get(m, s) + x
    ensures TotalTaps(m - {s}) == TotalTaps(m) - Get(m, s)
  {
    match s
    case Seg20 => case Seg19 => case Seg18 => case Seg17 => case Seg16 =>
    case Seg15 => case SegBull => case SegTriples => case SegDoubles => case SegThreeInBed =>
  }

  /** Both sides' stored rows as the thrower sees them: own (`teamState`) and opponent's. */
  datatype View = View(own: Option<CricketState>, opp: Option<CricketState>)

  /** `cricketState.find(=== team)` and `cricketState.find(!== team)`. */
  function ViewFor(rows: seq<StateRow>, team: int): View
  {
    View(FindOwn(rows, team), FindOther(rows, team))
  }

  /** The taps and entered extra scores of the turn in progress. */
  datatype Pending = Pending(taps: map<Seg, int>, extras: map<Seg, int>)

  // ------------------------------------------------------------------
  // Scoring
  // ------------------------------------------------------------------

  /** Marks of a turn that land beyond the third mark of the segment. */
  function MarksBeyondThree(base: int, added: int): int
  {
    Max(0, base + added - Max(base, 3))
  }

  /**
   * Points `added` taps on `s` are worth (the body of the `turnPreview` and
   * `completeTurn` loops): overflow past closing times the value, or for a
   * Shanghai extra the entered amount once, and nothing if the opponent has closed.
   */
  function SegmentPoints(view: View, extras: map<Seg, int>, s: Seg, added: int): int
  {
    if added == 0 then 0
    else
      var base := MarksOf(view.own, s);
      var marksToClose := Max(0, 3 - base);
      var opponentClosed := MarksOf(view.opp, s) >= 3;
      if !opponentClosed && added > marksToClose then
        (if IsExtra(s) then Get(extras, s) else (added - marksToClose) * SegValue(s))
      else 0
  }

  /** A numbered or bull segment scores exactly its marks beyond three, while the opponent is open. */
  lemma OverflowScoresMarksBeyondThree(view: View, extras: map<Seg, int>, s: Seg, added: int)
    requires !IsExtra(s) && added >= 0
    ensures SegmentPoints(view, extras, s, added)
         == if MarksOf(view.opp, s) >= 3 then 0
            else MarksBeyondThree(MarksOf(view.own, s), added) * SegValue(s)
  {
  }

  /** One mark on 20 plus three taps closes it and scores one 20. */
  lemma OverflowExample()
    ensures SegmentPoints(View(Some(CricketState(map[Seg20 := 1], 0)), None), map[], Seg20, 3) == 20
  {
  }

  /** Points over a run of segments, folded in board order. */
  function PointsOver(view: View, p: Pending, segs: seq<Seg>): int
    decreases |segs|
  {
    if |segs| == 0 then 0
    else
      var s := segs[|segs| - 1];
      PointsOver(view, p, segs[..|segs| - 1]) + SegmentPoints(view, p.extras, s, Get(p.taps, s))
  }

  /** The previewed points of the pending turn (`turnPreview.totalPoints`). */
  function TurnPoints(v: Variant, view: View, p: Pending): int
  {
    PointsOver(view, p, BoardSegs(v))
  }

  /** Marks of the pending turn on the board's segments (`totalMarks`). */
  function TurnMarks(v: Variant, taps: map<Seg, int>): int
  {
    SumOver(BoardSegs(v), taps)
  }

  /** With every tapped key on the board, the turn's marks are all its taps, so at most 9 within the limits. */
  lemma TurnMarksCountsAllTaps(v: Variant, taps: map<Seg, int>)
    requires forall s :: s in taps ==> OnBoard(v, s)
    ensures TurnMarks(v, taps) == TotalTaps(taps)
  {
    var all := AllSegs();
    var g := k requires 0 <= k < |all| => Get(taps, all[k]);
    assert SumOver(all[..1], taps) == g(0) by { assert all[..1][..0] == []; }
    assert SumOver(all[..2], taps) == g(0) + g(1) by { assert all[..2][..1] == all[..1]; }
    assert SumOver(all[..3], taps) == g(0) + g(1) + g(2) by { assert all[..3][..2] == all[..2]; }
    assert SumOver(all[..4], taps) == g(0) + g(1) + g(2) + g(3) by { assert all[..4][..3] == all[..3]; }
    assert SumOver(all[..5], taps) == g(0) + g(1) + g(2) + g(3) + g(4) by { assert all[..5][..4] == all[..4]; }
    assert SumOver(all[..6], taps) == g(0) + g(1) + g(2) + g(3) + g(4) + g(5) by { assert all[..6][..5] == all[..5]; }
    assert SumOver(all[..7], taps) == g(0) + g(1) + g(2) + g(3) + g(4) + g(5) + g(6) by { assert all[..7][..6] == all[..6]; }
    if v == Shanghai {
      assert SumOver(all[..8], taps) == SumOver(all[..7], taps) + g(7) by { assert all[..8][..7] == all[..7]; }
      assert SumOver(all[..9], taps) == SumOver(all[..8], taps) + g(8) by { assert all[..9][..8] == all[..8]; }
      assert SumOver(all[..10], taps) == SumOver(all[..9], taps) + g(9) by { assert all[..10][..9] == all[..9]; }
      assert all[..10] == all;
    }
  }

  /** The per-segment tap columns of a turn: touched segments only. */
  function ColumnsOver(segs: seq<Seg>, taps: map<Seg, int>): (c: map<Seg, int>)
    ensures forall s :: s in c <==> s in segs && Get(taps, s) != 0
    ensures forall s :: s in c ==> c[s] == Get(taps, s)
    decreases |segs|
  {
    if |segs| == 0 then map[]
    else
      var s := segs[|segs| - 1];
      var prev := ColumnsOver(segs[..|segs| - 1], taps);
      assert forall t :: t in segs <==> t in segs[..|segs| - 1] || t == s;
      if Get(taps, s) != 0 then prev[s := Get(taps, s)] else prev
  }

  /** The marks a turn writes: each touched segment becomes min(base + taps, 9). */
  function WritesOver(view: View, segs: seq<Seg>, taps: map<Seg, int>): (w: map<Seg, int>)
    ensures forall s :: s in w <==> s in segs && Get(taps, s) != 0
    ensures forall s :: s in w ==> w[s] == Min(MarksOf(view.own, s) + Get(taps, s), MarkCap)
    decreases |segs|
  {
    if |segs| == 0 then map[]
    else
      var s := segs[|segs| - 1];
      var prev := WritesOver(view, segs[..|segs| - 1], taps);
      assert forall t :: t in segs <==> t in segs[..|segs| - 1] || t == s;
      if Get(taps, s) != 0 then prev[s := Min(MarksOf(view.own, s) + Get(taps, s), MarkCap)] else prev
  }

  /**
   * The `completeTurn` loop: one pass over the board accumulating marks,
   * points, bull marks, tap columns and mark writes.  It computes exactly the
   * preview's totals, so the recorded points are the previewed points.
   */
  method CompleteTurnTotals(v: Variant, view: View, p: Pending)
    returns (marks: int, points: int, bull: int, columns: map<Seg, int>, writes: map<Seg, int>)
    ensures marks == TurnMarks(v, p.taps)
    ensures points == TurnPoints(v, view, p)
    ensures bull == Get(p.taps, SegBull)
    ensures columns == ColumnsOver(BoardSegs(v), p.taps)
    ensures writes == WritesOver(view, BoardSegs(v), p.taps)
  {
    var segs := BoardSegs(v);
    marks, points, bull, columns, writes := 0, 0, 0, map[], map[];
    var i := 0;
    while i < |segs|
      invariant 0 <= i <= |segs|
      invariant marks == SumOver(segs[..i], p.taps)
      invariant points == PointsOver(view, p, segs[..i])
      invariant columns == ColumnsOver(segs[..i], p.taps)
      invariant writes == WritesOver(view, segs[..i], p.taps)
    {
      var seg := segs[i];
      var added := Get(p.taps, seg);
      PrefixStep(view, p, segs, i);
      columns := Noted(columns, seg, added, added);
      marks := marks + added;
      points := points + SegmentPoints(view, p.extras, seg, added);
      writes := Noted(writes, seg, added, Min(MarksOf(view.own, seg) + added, MarkCap));
      i := i + 1;
    }
    assert segs[..|segs|] == segs;
    assert segs[6] == SegBull;
    bull := Get(columns, SegBull);
  }

  /** A column map after one more segment: written only when the segment was tapped. */
  function Noted(m: map<Seg, int>, s: Seg, added: int, x: int): map<Seg, int>
  {
    if added != 0 then m[s := x] else m
  }

  /** How each per-segment accumulation grows by one more segment. */
  lemma PrefixStep(view: View, p: Pending, segs: seq<Seg>, i: nat)
    requires i < |segs|
    ensures var s, a := segs[i], Get(p.taps, segs[i]);
            && SumOver(segs[..i + 1], p.taps) == SumOver(segs[..i], p.taps) + a
            && PointsOver(view, p, segs[..i + 1]) == PointsOver(view, p, segs[..i]) + SegmentPoints(view, p.extras, s, a)
            && ColumnsOver(segs[..i + 1], p.taps) == Noted(ColumnsOver(segs[..i], p.taps), s, a, a)
            && WritesOver(view, segs[..i + 1], p.taps)
               == Noted(WritesOver(view, segs[..i], p.taps), s, a, Min(MarksOf(view.own, s) + a, MarkCap))
  {
    var t := segs[..i + 1];
    assert t[..i] == segs[..i] && t[i] == segs[i] && |t| == i + 1;
    ColumnsStep(t, p.taps);
    WritesStep(view, t, p.taps);
  }

  /** The column map of a list is that of its first part, noted with the last segment. */
  lemma ColumnsStep(t: seq<Seg>, taps: map<Seg, int>)
    requires |t| > 0
    ensures var s := t[|t| - 1];
            ColumnsOver(t, taps) == Noted(ColumnsOver(t[..|t| - 1], taps), s, Get(taps, s), Get(taps, s))
  {
  }

  /** The write map of a list is that of its first part, noted with the last segment. */
  lemma WritesStep(view: View, t: seq<Seg>, taps: map<Seg, int>)
    requires |t| > 0
    ensures var s := t[|t| - 1];
            WritesOver(view, t, taps)
            == Noted(WritesOver(view, t[..|t| - 1], taps), s, Get(taps, s), Min(MarksOf(view.own, s) + Get(taps, s), MarkCap))
  {
  }

  // ------------------------------------------------------------------
  // Tap limits
  // ------------------------------------------------------------------

  /** `getMaxTapsForSeg`: further taps the segment may take this turn (off-board keys: 0). */
  function MaxTapsForSeg(v: Variant, view: View, taps: map<Seg, int>, s: Seg): int
  {
    if !OnBoard(v, s) then 0
    else
      var my := MarksOf(view.own, s);
      var opp := MarksOf(view.opp, s);
      var cur := Get(taps, s);
      match v
      case Cricket =>
        if opp >= 3 then Max(0, 3 - my - cur) else MaxTapsPerTurn - TotalTaps(taps)
      case Shanghai =>
        if opp >= 3 && my >= 3 then 0
        else if opp >= 3 then Max(0, 3 - my - cur)
        else MaxTapsPerTurn - TotalTaps(taps)
  }

  /** `isBothClosed`: both sides have at least three marks on the segment. */
  predicate BothClosed(view: View, s: Seg)
  {
    MarksOf(view.own, s) >= 3 && MarksOf(view.opp, s) >= 3
  }

  /** The rendered `canTap` of a segment button. */
  predicate CanTap(v: Variant, view: View, taps: map<Seg, int>, s: Seg, disabled: bool)
  {
    !disabled && !BothClosed(view, s) && TotalTaps(taps) < MaxTapsPerTurn && MaxTapsForSeg(v, view, taps, s) > 0
  }

  /** Shanghai's extra both-closed test changes nothing on the Cricket board's segments. */
  lemma MaxTapsAgreeOnCricketSegments(view: View, taps: map<Seg, int>, s: Seg)
    requires s in BoardSegs(Cricket) && Get(taps, s) >= 0
    ensures MaxTapsForSeg(Cricket, view, taps, s) == MaxTapsForSeg(Shanghai, view, taps, s)
  {
  }

  /** A segment both sides have closed takes no taps, on either board. */
  lemma BothClosedTakesNoTaps(v: Variant, view: View, taps: map<Seg, int>, s: Seg)
    requires BothClosed(view, s) && Get(taps, s) >= 0
    ensures MaxTapsForSeg(v, view, taps, s) <= 0
  {
  }

  /**
   * What the tap handlers keep true of a turn in progress: only board keys,
   * each with at least one tap, at most 9 taps in all, and on a segment the
   * opponent has closed, own marks plus taps at most 3.
   */
  predicate TapsWithinLimits(v: Variant, view: View, taps: map<Seg, int>)
  {
    && (forall s :: s in taps ==> OnBoard(v, s) && taps[s] >= 1)
    && TotalTaps(taps) <= MaxTapsPerTurn
    && (forall s :: s in taps && MarksOf(view.opp, s) >= 3 ==> MarksOf(view.own, s) + taps[s] <= 3)
  }

  /** Outcome of a tap: the new pending turn, and the extra segment whose score is asked for. */
  datatype TapResult = TapResult(pending: Pending, prompt: Option<Seg>)

  /** `handleTap`; without a thrower every segment's limit is 0. */
  function HandleTap(v: Variant, view: Option<View>, p: Pending, s: Seg): (r: TapResult)
    ensures r.pending.extras == p.extras
    ensures r.prompt.Some? ==> v == Shanghai && IsExtra(s) && r.prompt.value == s
  {
    if view.None? || TotalTaps(p.taps) >= MaxTapsPerTurn || MaxTapsForSeg(v, view.value, p.taps, s) <= 0 then
      TapResult(p, None)
    else
      var newTaps := Get(p.taps, s) + 1;
      var base := MarksOf(view.value.own, s);
      var oppClosed := MarksOf(view.value.opp, s) >= 3;
      var prompt := if v == Shanghai && IsExtra(s) && !oppClosed && base + newTaps > 3 then Some(s) else None;
      TapResult(Pending(p.taps[s := newTaps], p.extras), prompt)
  }

  /** `handleUntap`; Shanghai also drops an extra segment's entered score. */
  function HandleUntap(v: Variant, p: Pending, s: Seg): (r: Pending)
    ensures forall t :: t != s ==> Get(r.taps, t) == Get(p.taps, t)
    ensures Get(p.taps, s) == 1 ==> s !in r.taps
    ensures Get(p.taps, s) >= 1 ==> Get(r.taps, s) == Get(p.taps, s) - 1
    ensures Get(p.taps, s) <= 0 ==> r.taps == p.taps
    ensures v == Shanghai && IsExtra(s) ==> s !in r.extras
    ensures forall t :: t != s ==> (t in r.extras <==> t in p.extras)
  {
    var current := Get(p.taps, s);
    var taps := if current <= 0 then p.taps else if current == 1 then p.taps - {s} else p.taps[s := current - 1];
    var extras := if v == Shanghai && IsExtra(s) then p.extras - {s} else p.extras;
    Pending(taps, extras)
  }

  /** An accepted tap keeps the pending turn within the limits. */
  lemma TapKeepsLimits(v: Variant, view: View, p: Pending, s: Seg)
    requires TapsWithinLimits(v, view, p.taps)
    ensures TapsWithinLimits(v, view, HandleTap(v, Some(view), p, s).pending.taps)
  {
    var r := HandleTap(v, Some(view), p, s);
    TotalTapsUpdate(p.taps, s, Get(p.taps, s) + 1);
  }

  /** Removing a tap keeps the pending turn within the limits. */
  lemma UntapKeepsLimits(v: Variant, view: View, p: Pending, s: Seg)
    requires TapsWithinLimits(v, view, p.taps)
    ensures TapsWithinLimits(v, view, HandleUntap(v, p, s).taps)
  {
    var cur := Get(p.taps, s);
    var r := HandleUntap(v, p, s).taps;
    if cur == 1 {
      TotalTapsUpdate(p.taps, s, 0);
      assert r == p.taps - {s};
    } else if cur > 1 {
      TotalTapsUpdate(p.taps, s, cur - 1);
      assert r == p.taps[s := cur - 1];
    }
    forall t | t in r
      ensures t in p.taps && 1 <= r[t] <= p.taps[t]
    {
    }
  }

  /** Untapping right after an accepted tap gives back the taps from before it. */
  lemma UntapUndoesTap(v: Variant, view: View, p: Pending, s: Seg)
    requires TapsWithinLimits(v, view, p.taps)
    requires HandleTap(v, Some(view), p, s).pending != p
    ensures HandleUntap(v, HandleTap(v, Some(view), p, s).pending, s).taps == p.taps
  {
    var cur := Get(p.taps, s);
    var tapped := HandleTap(v, Some(view), p, s).pending;
    assert !(TotalTaps(p.taps) >= MaxTapsPerTurn || MaxTapsForSeg(v, view, p.taps, s) <= 0);
    assert tapped.taps == p.taps[s := cur + 1];
    var back := HandleUntap(v, tapped, s).taps;
    if s in p.taps {
      assert back == tapped.taps[s := cur];
      UpdateRestored(p.taps, s, cur + 1);
    } else {
      assert back == tapped.taps - {s};
      UpdateRemoved(p.taps, s, cur + 1);
    }
  }

  /** Writing a key's old value back over a new one restores the map. */
  lemma UpdateRestored(m: map<Seg, int>, k: Seg, x: int)
    requires k in m
    ensures m[k := x][k := m[k]] == m
  {
  }

  /** Dropping a key just added restores the map. */
  lemma UpdateRemoved(m: map<Seg, int>, k: Seg, x: int)
    requires k !in m
    ensures m[k := x] - {k} == m
  {
  }

  /** `confirmExtraScore`: stores `Number(input) || 0` for the prompted segment. */
  function ConfirmExtraScore(p: Pending, prompt: Option<Seg>, input: Option<int>): (r: Pending)
    ensures r.taps == p.taps
    ensures prompt.Some? ==> Get(r.extras, prompt.value) == (if input.Some? then input.value else 0)
    ensures prompt.None? ==> r == p
    ensures prompt.Some? ==> forall s :: s != prompt.value ==> Get(r.extras, s) == Get(p.extras, s)
  {
    if prompt.None? then p
    else Pending(p.taps, p.extras[prompt.value := if input.Some? then input.value else 0])
  }

  /** `handleUndo` of a scoreboard: pending taps are cleared first, else the last saved turn is undone. */
  datatype BoardUndo = ClearPending(pending: Pending) | UndoSavedTurn | NothingToUndo

  function HandleUndo(v: Variant, p: Pending, savedTurns: nat): (r: BoardUndo)
    ensures (exists s :: Get(p.taps, s) > 0) ==> r.ClearPending? && r.pending.taps == map[]
    ensures r.ClearPending? && v == Shanghai ==> r.pending.extras == map[]
    ensures !(exists s :: Get(p.taps, s) > 0) ==> (r.UndoSavedTurn? <==> savedTurns > 0)
  {
    if exists s :: Get(p.taps, s) > 0 then
      ClearPending(Pending(map[], if v == Shanghai then map[] else p.extras))
    else if savedTurns > 0 then UndoSavedTurn
    else NothingToUndo
  }
  /**
   * An accepted tap followed by undo clears the pending turn (Shanghai's
   * extras too) and leaves the saved turns alone; a refused tap on an empty
   * pending turn lets the undo reach the last saved turn, iff there is one.
   */
  lemma TapThenUndo(v: Variant, view: Option<View>, p: Pending, s: Seg, savedTurns: nat)
    requires forall t :: Get(p.taps, t) >= 0
    ensures var q := HandleTap(v, view, p, s).pending;
            var u := HandleUndo(v, q, savedTurns);
            && (q.taps != p.taps ==> u == ClearPending(Pending(map[], if v == Shanghai then map[] else p.extras)))
            && (q.taps == p.taps && (forall t :: Get(p.taps, t) == 0) ==> (u.UndoSavedTurn? <==> savedTurns > 0))
  {
    var q := HandleTap(v, view, p, s).pending;
    if q.taps != p.taps {
      assert Get(q.taps, s) > 0;
    }
  }


  // ------------------------------------------------------------------
  // Completing a turn
  // ------------------------------------------------------------------

  /** The partial `CricketState` update sent to the server. */
  datatype StateUpdate = StateUpdate(marks: map<Seg, int>, points: Option<int>)

  /** The row stored for the turn: a `CricketTurns` row for Cricket, a `Turns` row for Shanghai. */
  datatype TurnRecord = CricketRecord(ct: CricketTurn) | ShanghaiRecord(t: Turn)

  datatype Completion = Completion(update: Option<StateUpdate>, record: TurnRecord, wins: bool)

  /** The thrower's row as the win check rebuilds it after the turn (`updatedTeamState`). */
  function UpdatedOwn(v: Variant, view: View, p: Pending): (c: CricketState)
    ensures forall s :: s in BoardSegs(v) && Get(p.taps, s) != 0
              ==> Get(c.marks, s) == Min(MarksOf(view.own, s) + Get(p.taps, s), MarkCap)
    ensures forall s :: !(s in BoardSegs(v) && Get(p.taps, s) != 0) ==> Get(c.marks, s) == MarksOf(view.own, s)
    ensures c.points == PointsOf(view.own) + TurnPoints(v, view, p)
  {
    var own := if view.own.Some? then view.own.value.marks else map[];
    CricketState(own + WritesOver(view, BoardSegs(v), p.taps), PointsOf(view.own) + TurnPoints(v, view, p))
  }

  /** The win check of `completeTurn`: every board segment closed and points level or ahead. */
  predicate WinsAfter(v: Variant, view: View, p: Pending)
  {
    var c := UpdatedOwn(v, view, p);
    (forall s :: s in BoardSegs(v) ==> Get(c.marks, s) >= 3) && c.points >= PointsOf(view.opp)
  }

  /**
   * `completeTurn`: the state update (sent only when non-empty, with Points
   * only when the turn scored), the stored turn row, and whether the thrower's side wins.
   */
  function CompleteTurn(v: Variant, thrower: GamePlayer, view: View, p: Pending, turnsTaken: nat, round: int): (c: Completion)
    ensures c.update.Some? ==> c.update.value.marks == WritesOver(view, BoardSegs(v), p.taps)
    ensures c.update.Some? ==> (c.update.value.points.Some? <==> TurnPoints(v, view, p) > 0)
    ensures c.update.Some? && c.update.value.points.Some? ==>
              c.update.value.points.value == PointsOf(view.own) + TurnPoints(v, view, p)
    ensures c.update.None? <==> (forall s :: s in BoardSegs(v) ==> Get(p.taps, s) == 0) && TurnPoints(v, view, p) <= 0
    ensures v == Cricket ==> c.record.CricketRecord?
                             && c.record.ct.teamSeasonId == thrower.teamSeasonId
                             && c.record.ct.turnNumber == turnsTaken + 1
                             && c.record.ct.points == TurnPoints(v, view, p)
                             && c.record.ct.marksScored == TurnMarks(v, p.taps)
                             && c.record.ct.segs == ColumnsOver(BoardSegs(v), p.taps)
    ensures v == Shanghai ==> c.record.ShanghaiRecord?
                              && c.record.t.score == TurnPoints(v, view, p)
                              && c.record.t.marksScored == Some(TurnMarks(v, p.taps))
                              && c.record.t.details == Some(TapLog(p.taps, p.extras))
    ensures c.wins == WinsAfter(v, view, p)
  {
    var points := TurnPoints(v, view, p);
    var marks := TurnMarks(v, p.taps);
    var writes := WritesOver(view, BoardSegs(v), p.taps);
    var update := StateUpdate(writes, if points > 0 then Some(PointsOf(view.own) + points) else None);
    var record :=
      match v
      case Cricket =>
        CricketRecord(CricketTurn(thrower.playerId, thrower.teamSeasonId, turnsTaken + 1, round, 3,
                                  ColumnsOver(BoardSegs(v), p.taps), points, marks))
      case Shanghai =>
        ShanghaiRecord(Turn(thrower.playerId, thrower.teamSeasonId, turnsTaken + 1, round, 3,
                            points, None, false, false, Some(marks), false, false,
                            Some(TapLog(p.taps, p.extras))));
    Completion(if |writes| == 0 && update.points.None? then None else Some(update), record, WinsAfter(v, view, p))
  }

  /** The Shanghai +200: a Points-only update and a bonus turn row scoring 200. */
  function ShanghaiBonus(thrower: GamePlayer, view: View, turnsTaken: nat, round: int): (r: (StateUpdate, Turn))
    ensures r.0.marks == map[] && r.0.points == Some(PointsOf(view.own) + ShanghaiBonusPoints)
    ensures r.1.score == ShanghaiBonusPoints && r.1.isShanghaiBonus && r.1.teamSeasonId == thrower.teamSeasonId
  {
    (StateUpdate(map[], Some(PointsOf(view.own) + ShanghaiBonusPoints)),
     Turn(thrower.playerId, thrower.teamSeasonId, turnsTaken + 1, round, 3, ShanghaiBonusPoints,
          None, false, false, None, true, false, Some(BonusLog)))
  }

  /** `getCricketAllStarLevel`: three bull marks first, then 9 / 7 / 5 marks in the turn. */
  function CricketAllStarLevel(totalMarks: int, bullMarks: int): (l: AllStarLevel)
    ensures totalMarks < 5 && bullMarks < 3 ==> l == NoStar
    ensures bullMarks < 3 ==>
      (Rank(l) >= 1 <==> totalMarks >= 5) && (Rank(l) >= 2 <==> totalMarks >= 7) && (Rank(l) >= 3 <==> totalMarks >= 9)
    ensures bullMarks >= 3 ==> Rank(l) == 1
  {
    if bullMarks >= 3 then AllStar
    else if totalMarks >= 9 then TripleAllStar
    else if totalMarks >= 7 then DoubleAllStar
    else if totalMarks >= 5 then AllStar
    else NoStar
  }

  /**
   * The bull test comes first: a nine-mark turn all on the bull is a plain
   * all-star, while nine marks elsewhere are a triple.
   */
  lemma BullTakesPrecedence(totalMarks: int, bullMarks: int)
    requires bullMarks >= 3
    ensures CricketAllStarLevel(totalMarks, bullMarks) == AllStar
    ensures CricketAllStarLevel(9, 9) == AllStar && CricketAllStarLevel(9, 0) == TripleAllStar
  {
  }

  /** Below three bull marks, more marks never earn a lower tier. */
  lemma CricketAllStarMonotone(t1: int, t2: int, bullMarks: int)
    requires t1 <= t2 && bullMarks < 3
    ensures Rank(CricketAllStarLevel(t1, bullMarks)) <= Rank(CricketAllStarLevel(t2, bullMarks))
  {
  }
}

=== FILE: play_setup.dfy ===
/**
 * The ad-hoc game setup page: two side panels of at most four players each,
 * reordering within a side, the start check, and how the panels become the
 * two player lists sent to the server.
 */
module PlaySetup {
  import opened Base
  import opened GameService

  /** `MAX_PLAYERS_PER_TEAM`. */
  const MaxPlayersPerTeam := 4

  /** A player of the club roster. */
  datatype Player = Player(playerId: int, isActive: bool)

  function RosterId(p: Player): int { p.playerId }

  datatype Panel = TeamA | TeamB

  /** The two side panels. */
  datatype Setup = Setup(teamA: seq<Player>, teamB: seq<Player>)

  function PanelOf(s: Setup, panel: Panel): seq<Player>
  {
    if panel == TeamA then s.teamA else s.teamB
  }

  function WithPanel(s: Setup, panel: Panel, players: seq<Player>): Setup
  {
    if panel == TeamA then s.(teamA := players) else s.(teamB := players)
  }

  /** An id already on one of the panels. */
  predicate Picked(s: Setup, id: int)
  {
    id in Keys(s.teamA, RosterId) || id in Keys(s.teamB, RosterId)
  }

  /** The picker: active roster players on neither panel, in roster order. */
  function Available(roster: seq<Player>, s: Setup): (r: seq<Player>)
    decreases |roster|
  {
    if |roster| == 0 then []
    else
      var last := roster[|roster| - 1];
      Available(roster[..|roster| - 1], s) + (if !Picked(s, last.playerId) && last.isActive then [last] else [])
  }

  /** The picker offers exactly the active players not yet picked. */
  lemma {:induction false} AvailableMembers(roster: seq<Player>, s: Setup, p: Player)
    ensures p in Available(roster, s) <==> p in roster && p.isActive && !Picked(s, p.playerId)
    decreases |roster|
  {
    if |roster| > 0 {
      var init := roster[..|roster| - 1];
      AvailableMembers(init, s, p);
      assert roster == init + [roster[|roster| - 1]];
    }
  }

  /** `addToTeam`: nothing happens on a full panel; otherwise the player joins the end of it. */
  function AddToTeam(s: Setup, panel: Panel, player: Player): (r: Setup)
    ensures |PanelOf(s, panel)| >= MaxPlayersPerTeam ==> r == s
    ensures |PanelOf(s, panel)| < MaxPlayersPerTeam ==>
              && PanelOf(r, panel) == PanelOf(s, panel) + [player]
              && PanelOf(r, Other(panel)) == PanelOf(s, Other(panel))
  {
    var players := PanelOf(s, panel);
    if |players| >= MaxPlayersPerTeam then s else WithPanel(s, panel, players + [player])
  }

  function Other(panel: Panel): Panel
  {
    if panel == TeamA then TeamB else TeamA
  }

  /** The players of a list other than those with id `id`, in order. */
  function Without(players: seq<Player>, id: int): (r: seq<Player>)
    decreases |players|
  {
    if |players| == 0 then []
    else Without(players[..|players| - 1], id)
         + (if players[|players| - 1].playerId != id then [players[|players| - 1]] else [])
  }

  /** `removeFromTeam`: that panel drops the id; the other panel is untouched. */
  function RemoveFromTeam(s: Setup, panel: Panel, id: int): (r: Setup)
    ensures PanelOf(r, Other(panel)) == PanelOf(s, Other(panel))
  {
    WithPanel(s, panel, Without(PanelOf(s, panel), id))
  }

  /** Dropping an id keeps every other player, and only them. */
  lemma {:induction false} WithoutMembers(players: seq<Player>, id: int, p: Player)
    ensures p in Without(players, id) <==> p in players && p.playerId != id
    decreases |players|
  {
    if |players| > 0 {
      var init := players[..|players| - 1];
      WithoutMembers(init, id, p);
      assert players == init + [players[|players| - 1]];
    }
  }

  lemma {:induction false} WithoutAppend(a: seq<Player>, b: seq<Player>, id: int)
    ensures Without(a + b, id) == Without(a, id) + Without(b, id)
    decreases |b|
  {
    if |b| == 0 {
      assert a + b == a;
    } else {
      WithoutAppend(a, b[..|b| - 1], id);
      assert (a + b)[..|a + b| - 1] == a + b[..|b| - 1];
    }
  }

  /** A list holding no player with the id is left as it is. */
  lemma {:induction false} WithoutAbsent(players: seq<Player>, id: int)
    requires id !in Keys(players, RosterId)
    ensures Without(players, id) == players
    decreases |players|
  {
    if |players| > 0 {
      var init := players[..|players| - 1];
      assert Keys(players, RosterId)[..|init|] == Keys(init, RosterId);
      WithoutAbsent(init, id);
    }
  }

  /** Removing a player just added to a panel that did not hold them gives the setup back. */
  lemma RemoveUndoesAdd(s: Setup, panel: Panel, player: Player)
    requires |PanelOf(s, panel)| < MaxPlayersPerTeam && player.playerId !in Keys(PanelOf(s, panel), RosterId)
    ensures RemoveFromTeam(AddToTeam(s, panel, player), panel, player.playerId) == s
  {
    var players := PanelOf(s, panel);
    WithoutAppend(players, [player], player.playerId);
    WithoutAbsent(players, player.playerId);
    assert Without([player], player.playerId) == [];
  }

  /**
   * `movePlayer`: the player at `index` changes places with its neighbour in
   * `direction`; a move past either end leaves the list alone.  The buttons
   * pass the index of a listed player and a direction of -1 or 1.
   */
  function MovePlayer(players: seq<Player>, index: nat, direction: int): (r: seq<Player>)
    requires index < |players| && direction in {-1, 1}
    ensures |r| == |players|
  {
    var newIdx := index + direction;
    if newIdx < 0 || newIdx >= |players| then players
    else players[index := players[newIdx]][newIdx := players[index]]
  }

  /** A move exchanges exactly the two places, or changes nothing past either end. */
  lemma MoveSwaps(players: seq<Player>, index: nat, direction: int)
    requires index < |players| && direction in {-1, 1}
    ensures var r, j := MovePlayer(players, index, direction), index + direction;
            && (0 <= j < |players| ==>
                  r[index] == players[j] && r[j] == players[index]
                  && forall k :: 0 <= k < |players| && k != index && k != j ==> r[k] == players[k])
            && (j < 0 || j >= |players| ==> r == players)
  {
  }

  /** A move keeps the same players on the panel. */
  lemma MoveKeepsPlayers(players: seq<Player>, index: nat, direction: int)
    requires index < |players| && direction in {-1, 1}
    ensures multiset(MovePlayer(players, index, direction)) == multiset(players)
  {
    var j := index + direction;
    if 0 <= j < |players| {
      var lo := if direction == 1 then index else j;
      var a, x, y, b := players[..lo], players[lo], players[lo + 1], players[lo + 2..];
      SwapAdjacent(players, lo);
      Unsplice(players, lo);
      SwappedPairSameMultiset(a, x, y, b);
    }
  }

  /** A list is its prefix, two neighbours and its suffix. */
  lemma Unsplice(players: seq<Player>, lo: nat)
    requires lo + 1 < |players|
    ensures players == players[..lo] + [players[lo], players[lo + 1]] + players[lo + 2..]
  {
  }

  /** Exchanging neighbours `lo` and `lo + 1`, in either direction, splices them back in the other order. */
  lemma SwapAdjacent(players: seq<Player>, lo: nat)
    requires lo + 1 < |players|
    ensures players[lo := players[lo + 1]][lo + 1 := players[lo]] == players[..lo] + [players[lo + 1], players[lo]] + players[lo + 2..]
    ensures players[lo + 1 := players[lo]][lo := players[lo + 1]] == players[..lo] + [players[lo + 1], players[lo]] + players[lo + 2..]
  {
  }

  lemma SwappedPairSameMultiset(a: seq<Player>, x: Player, y: Player, b: seq<Player>)
    ensures multiset(a + [x, y] + b) == multiset(a + [y, x] + b)
  {
    calc {
      multiset(a + [x, y] + b);
      multiset(a) + multiset([x, y]) + multiset(b);
      { assert multiset([x, y]) == multiset([y, x]); }
      multiset(a) + multiset([y, x]) + multiset(b);
      multiset(a + [y, x] + b);
    }
  }

  /** Moving a player back the way it came restores the list. */
  lemma MoveBack(players: seq<Player>, index: nat, direction: int)
    requires index < |players| && direction in {-1, 1}
    requires 0 <= index + direction < |players|
    ensures MovePlayer(MovePlayer(players, index, direction), index + direction, -direction) == players
  {
  }

  /** `canStart`: a game type, and either two non-empty equal panels of at most four, or a player on panel A. */
  function CanStart(gameType: Option<GameType>, teamPlay: bool, s: Setup): (ok: bool)
    ensures ok ==> gameType.Some? && |s.teamA| >= 1
    ensures ok && teamPlay ==> 1 <= |s.teamB| == |s.teamA| <= MaxPlayersPerTeam
    ensures gameType.Some? && !teamPlay && |s.teamA| >= 1 ==> ok
  {
    if gameType.None? then false
    else if teamPlay then
      |s.teamA| >= 1 && |s.teamB| >= 1 && |s.teamA| == |s.teamB| && |s.teamA| <= MaxPlayersPerTeam
    else |s.teamA| >= 1
  }

  /** The two id lists and the team-play flag `startGame` sends. */
  datatype Split = Split(teamA: seq<int>, teamB: seq<int>, teamPlay: bool)

  /**
   * The team split of `startGame`: team play sends both panels; two or more
   * players without it become the first against the second, the rest
   * dropped; a single player plays solo against an empty side B.
   */
  function TeamSplit(teamPlay: bool, s: Setup): (r: Split)
    ensures r.teamPlay == teamPlay
  {
    if teamPlay then Split(Keys(s.teamA, RosterId), Keys(s.teamB, RosterId), true)
    else if |s.teamA| >= 2 then Split([s.teamA[0].playerId], [s.teamA[1].playerId], false)
    else Split(Keys(s.teamA, RosterId), [], false)
  }

  /** What a startable setup sends: the panels in team play, else a 1 v 1 or a solo game, always from panel A first. */
  lemma SplitOfStartable(gameType: Option<GameType>, teamPlay: bool, s: Setup)
    requires CanStart(gameType, teamPlay, s)
    ensures var r := TeamSplit(teamPlay, s);
            && 1 <= |r.teamA| <= MaxPlayersPerTeam
            && r.teamA[0] == s.teamA[0].playerId
            && (teamPlay ==> |r.teamB| == |r.teamA| && r.teamA == Keys(s.teamA, RosterId) && r.teamB == Keys(s.teamB, RosterId))
            && (!teamPlay ==> |r.teamA| == 1 && |r.teamB| == (if |s.teamA| >= 2 then 1 else 0))
            && (!teamPlay && |s.teamA| >= 2 ==> r.teamB == [s.teamA[1].playerId])
  {
  }
}

=== FILE: records.dfy ===
/**
 * The record shapes shared by every part of the scoring engine: darts, the
 * Cricket/Shanghai board keys, game players, the two turn tables and the
 * per-side `CricketState` row.  Turn `Details`, a free-form JSON text in the
 * database, is a sum type here with one case per shape the program writes.
 */
module Records {
  import opened Base

  /** Where an X01 dart landed; numbered segments are 1..20. */
  datatype DartSegment = Miss | Bullseye | Number(n: int)

  /** One X01 dart: a segment and a multiplier (0 for a miss, 1 single, 2 double, 3 triple). */
  datatype Dart = Dart(segment: DartSegment, multiplier: int)

  /** Darts the X01 input pad can produce: a miss with multiplier 0, a bull as single or
      double, a number 1..20 as single, double or triple. */
  predicate ValidDart(d: Dart)
  {
    match d.segment
    case Miss => d.multiplier == 0
    case Bullseye => d.multiplier == 1 || d.multiplier == 2
    case Number(n) => 1 <= n <= 20 && 1 <= d.multiplier <= 3
  }

  /** Keys of the Cricket/Shanghai mark board, named after the `CricketState` columns. */
  datatype Seg = Seg20 | Seg19 | Seg18 | Seg17 | Seg16 | Seg15 | SegBull
               | SegTriples | SegDoubles | SegThreeInBed

  /** Reads a tap or mark map the way `m[seg] || 0` does: a missing key is 0. */
  function Get(m: map<Seg, int>, s: Seg): int
  {
    if s in m then m[s] else 0
  }

  /** Bonus tier of an exceptional turn; `NoStar` is the source's `null`. */
  datatype AllStarLevel = NoStar | AllStar | DoubleAllStar | TripleAllStar

  function Rank(l: AllStarLevel): nat
  {
    match l
    case NoStar => 0
    case AllStar => 1
    case DoubleAllStar => 2
    case TripleAllStar => 3
  }

  /** A player's seat in one game: side (team-season) and position within the side. */
  datatype GamePlayer = GamePlayer(playerId: int, teamSeasonId: int, playerOrder: int)

  function PlayerIdOf(p: GamePlayer): int { p.playerId }

  /** The structured form of a turn's `Details` text. */
  datatype Details =
    | DartLog(darts: seq<Dart>, bust: bool)                  // X01 dart mode
    | TotalLog                                                // X01 turn-total mode
    | TapLog(taps: map<Seg, int>, extraScores: map<Seg, int>)  // Shanghai segment turn
    | BonusLog                                                // Shanghai +200 bonus
    | RtwLog(target: int, hit: bool, score: int)              // Round-the-World
    | SegmentMarks(segment: Option<Seg>, marks: int)          // `{segment, marks}`; None: unknown name
    | Malformed                                               // text that does not parse

  /** A row of the `Turns` table (X01, Shanghai, Round-the-World). */
  datatype Turn = Turn(
    playerId: int,
    teamSeasonId: int,
    turnNumber: int,
    roundNumber: int,
    dartsThrown: int,
    score: int,
    remainingScore: Option<int>,
    isDoubleIn: bool,
    isGameOut: bool,
    marksScored: Option<int>,
    isShanghaiBonus: bool,
    rtwTargetHit: bool,
    details: Option<Details>)

  /** A row of the `CricketTurns` table; `segs` holds the per-segment columns (absent = 0). */
  datatype CricketTurn = CricketTurn(
    playerId: int,
    teamSeasonId: int,
    turnNumber: int,
    roundNumber: int,
    dartsThrown: int,
    segs: map<Seg, int>,
    points: int,
    marksScored: int)

  /** A side's `CricketState` row: marks per board key and cumulative points. */
  datatype CricketState = CricketState(marks: map<Seg, int>, points: int)

  /** Marks of a side on a key; a side without a row reads as 0. */
  function MarksOf(st: Option<CricketState>, s: Seg): int
  {
    match st
    case None => 0
    case Some(c) => Get(c.marks, s)
  }

  /** Points of a side, `state?.Points || 0`. */
  function PointsOf(st: Option<CricketState>): int
  {
    match st
    case None => 0
    case Some(c) => c.points
  }

  /** A `CricketState` row tagged with its side, as returned by the state query. */
  datatype StateRow = StateRow(teamSeasonId: int, state: CricketState)

  /** `rows.find(s => s.TeamSeasonID === team)`. */
  function FindOwn(rows: seq<StateRow>, team: int): (r: Option<CricketState>)
    ensures r.Some? <==> exists i :: 0 <= i < |rows| && rows[i].teamSeasonId == team
    ensures r.Some? ==> exists i :: 0 <= i < |rows| && rows[i].teamSeasonId == team && r.value == rows[i].state
                                    && forall j :: 0 <= j < i ==> rows[j].teamSeasonId != team
    decreases |rows|
  {
    if |rows| == 0 then None
    else if rows[0].teamSeasonId == team then Some(rows[0].state)
    else FindOwn(rows[1..], team)
  }

  /** `rows.find(s => s.TeamSeasonID !== team)`: the opponent's row. */
  function FindOther(rows: seq<StateRow>, team: int): (r: Option<CricketState>)
    ensures r.Some? <==> exists i :: 0 <= i < |rows| && rows[i].teamSeasonId != team
    ensures r.Some? ==> exists i :: 0 <= i < |rows| && rows[i].teamSeasonId != team && r.value == rows[i].state
                                    && forall j :: 0 <= j < i ==> rows[j].teamSeasonId == team
    decreases |rows|
  {
    if |rows| == 0 then None
    else if rows[0].teamSeasonId != team then Some(rows[0].state)
    else FindOther(rows[1..], team)
  }
}

=== FILE: round_the_world.dfy ===
/**
 * Round-the-World: every player works through a fixed sequence of targets
 * (1..20 then the bull, 20..1 then the bull, or a stored random order).  A
 * player's place in the sequence is the number of their turns that hit the
 * target; the first player through the whole sequence wins the game for
 * their side.  There is no bust and no shared side total.
 */
module RoundTheWorld {
  import opened Base
  import opened Records
  import opened TurnOrder

  /** `RtwMode`; anything other than '20to1' is played upwards. */
  datatype Mode = OneToTwenty | TwentyToOne | RandomOrder

  const Bull := 25

  /** The 21 targets of a round of the board: 1..20 and the bull. */
  function BoardTargets(): (r: seq<int>)
    ensures |r| == 21
  {
    seq(20, i => i + 1) + [Bull]
  }

  /** `sequence`: the stored sequence when there is one, else the mode's fixed order. */
  function Sequence(stored: Option<seq<int>>, mode: Mode): (r: seq<int>)
    ensures stored.Some? ==> r == stored.value
    ensures stored.None? ==> |r| == 21 && r[20] == Bull
  {
    if stored.Some? then stored.value
    else if mode == TwentyToOne then seq(20, i => 20 - i) + [Bull]
    else BoardTargets()
  }

  /** The '20to1' order is the upward order with the numbers reversed and the bull kept last. */
  lemma DownwardMirrorsUpward(i: nat)
    requires i < 20
    ensures Sequence(None, TwentyToOne)[i] == Sequence(None, OneToTwenty)[19 - i]
  {
  }

  /** Both fixed orders visit every target of the board exactly once. */
  lemma FixedSequencesCoverBoard(mode: Mode)
    ensures multiset(Sequence(None, mode)) == multiset(BoardTargets())
  {
    if mode == TwentyToOne {
      var down, up := Sequence(None, TwentyToOne), BoardTargets();
      assert down[..20] == Reverse(up[..20]) by {
        forall i | 0 <= i < 20 ensures down[..20][i] == Reverse(up[..20])[i] {
          ReverseAt(up[..20], i);
        }
      }
      ReversePermutes(up[..20]);
      assert down == down[..20] + [Bull];
      assert up == up[..20] + [Bull];
    }
  }

  function Reverse(s: seq<int>): (r: seq<int>)
    ensures |r| == |s|
    decreases |s|
  {
    if |s| == 0 then [] else Reverse(s[1..]) + [s[0]]
  }

  lemma {:induction false} ReverseAt(s: seq<int>, i: nat)
    requires i < |s|
    ensures Reverse(s)[i] == s[|s| - 1 - i]
    decreases |s|
  {
    if i < |s| - 1 {
      ReverseAt(s[1..], i);
    }
  }

  lemma {:induction false} ReversePermutes(s: seq<int>)
    ensures multiset(Reverse(s)) == multiset(s)
    decreases |s|
  {
    if |s| > 0 {
      ReversePermutes(s[1..]);
      assert s == [s[0]] + s[1..];
    }
  }

  /** Hits recorded for a player: the turns of that player with `RtwTargetHit`. */
  function Hits(turns: seq<Turn>, playerId: int): nat
    decreases |turns|
  {
    if |turns| == 0 then 0
    else
      var t := turns[|turns| - 1];
      Hits(turns[..|turns| - 1], playerId) + (if t.playerId == playerId && t.rtwTargetHit then 1 else 0)
  }

  /** Turns taken by a player. */
  function TurnsOf(turns: seq<Turn>, playerId: int): nat
    decreases |turns|
  {
    if |turns| == 0 then 0
    else
      var t := turns[|turns| - 1];
      TurnsOf(turns[..|turns| - 1], playerId) + (if t.playerId == playerId then 1 else 0)
  }

  /** A player never has more hits than turns. */
  lemma {:induction false} HitsAtMostTurns(turns: seq<Turn>, playerId: int)
    ensures Hits(turns, playerId) <= TurnsOf(turns, playerId)
    decreases |turns|
  {
    if |turns| > 0 {
      HitsAtMostTurns(turns[..|turns| - 1], playerId);
    }
  }

  /** One more turn moves the hit count of its own player only, and only on a hit. */
  lemma HitsAfterTurn(turns: seq<Turn>, t: Turn, playerId: int)
    ensures Hits(turns + [t], playerId)
         == Hits(turns, playerId) + (if t.playerId == playerId && t.rtwTargetHit then 1 else 0)
  {
    assert (turns + [t])[..|turns|] == turns;
  }

  predicate OnRoster(players: seq<GamePlayer>, playerId: int)
  {
    exists i :: 0 <= i < |players| && players[i].playerId == playerId
  }

  /** `playerProgress[id].index`; players missing from the roster have no progress entry. */
  function Progress(players: seq<GamePlayer>, turns: seq<Turn>, playerId: int): (r: Option<nat>)
    ensures r.Some? <==> OnRoster(players, playerId)
    ensures r.Some? ==> r.value == Hits(turns, playerId)
  {
    if OnRoster(players, playerId) then Some(Hits(turns, playerId)) else None
  }

  /** `getPlayerTarget`: the next target, or None once the sequence is done. */
  function Target(sequence: seq<int>, players: seq<GamePlayer>, turns: seq<Turn>, playerId: int): (r: Option<int>)
    ensures r.Some? <==> OnRoster(players, playerId) && Hits(turns, playerId) < |sequence|
    ensures r.Some? ==> r.value == sequence[Hits(turns, playerId)]
  {
    var pp := Progress(players, turns, playerId);
    if pp.None? || pp.value >= |sequence| then None else Some(sequence[pp.value])
  }

  /** Points of a player: the plain sum of their turns' scores. */
  function PlayerTotal(turns: seq<Turn>, playerId: int): int
    decreases |turns|
  {
    if |turns| == 0 then 0
    else
      var t := turns[|turns| - 1];
      PlayerTotal(turns[..|turns| - 1], playerId) + (if t.playerId == playerId then t.score else 0)
  }

  /** A player's total is unaffected by anybody else's turn, and grows by exactly their own score. */
  lemma PlayerTotalAfterTurn(turns: seq<Turn>, t: Turn, playerId: int)
    ensures PlayerTotal(turns + [t], playerId)
         == PlayerTotal(turns, playerId) + (if t.playerId == playerId then t.score else 0)
  {
    assert (turns + [t])[..|turns|] == turns;
  }

  /** Outcome of `submitScore`: nothing, or the stored turn and whether it wins the game. */
  datatype Submission = NoSubmission | Submitted(turn: Turn, winner: Option<int>)

  /**
   * `submitScore(hit, score)`.  The recorded score is the entered score or,
   * when that is 0, the target on a hit, and 0 on a miss.  `DartsThrown` is
   * not sent and gets the server's default of 3.
   */
  function SubmitScore(sequence: seq<int>, players: seq<GamePlayer>, home: int, away: int,
                       turns: seq<Turn>, hit: bool, score: int): (r: Submission)
    ensures var who := CurrentThrower(ResolveOrder(players, home, away), |turns|);
            r.NoSubmission? <==> who.None? || Target(sequence, players, turns, who.value.playerId).None?
    ensures r.Submitted? ==>
              var who := CurrentThrower(ResolveOrder(players, home, away), |turns|).value;
              var target := Target(sequence, players, turns, who.playerId).value;
              && r.turn.playerId == who.playerId && r.turn.teamSeasonId == who.teamSeasonId
              && r.turn.turnNumber == |turns| + 1
              && r.turn.rtwTargetHit == hit
              && r.turn.score == (if !hit then 0 else if score != 0 then score else target)
              && r.turn.details == Some(RtwLog(target, hit, r.turn.score))
              && (r.winner.Some? ==> r.winner.value == who.teamSeasonId)
  {
    var order := ResolveOrder(players, home, away);
    var who := CurrentThrower(order, |turns|);
    if who.None? then NoSubmission
    else
      var p := who.value;
      var target := Target(sequence, players, turns, p.playerId);
      if target.None? then NoSubmission
      else
        var actual := if hit then (if score != 0 then score else target.value) else 0;
        var turn := Turn(p.playerId, p.teamSeasonId, |turns| + 1, CurrentRound(order, |turns|), 3, actual,
                         None, false, false, None, false, hit, Some(RtwLog(target.value, hit, actual)));
        var pp := Progress(players, turns, p.playerId);
        var ends := hit && pp.Some? && pp.value + 1 >= |sequence|;
        Submitted(turn, if ends then Some(p.teamSeasonId) else None)
  }

  /**
   * The game ends exactly when the submitted turn leaves the thrower with no
   * target; a hit advances the thrower one place, a miss leaves every
   * player where they were, and nobody else moves either way.
   */
  lemma SubmitAdvancesThrower(sequence: seq<int>, players: seq<GamePlayer>, home: int, away: int,
                              turns: seq<Turn>, hit: bool, score: int, playerId: int)
    requires SubmitScore(sequence, players, home, away, turns, hit, score).Submitted?
    ensures var r := SubmitScore(sequence, players, home, away, turns, hit, score);
            var who := r.turn.playerId;
            && Hits(turns + [r.turn], playerId)
               == Hits(turns, playerId) + (if playerId == who && hit then 1 else 0)
            && (r.winner.Some? <==> Target(sequence, players, turns + [r.turn], who).None?)
  {
    var r := SubmitScore(sequence, players, home, away, turns, hit, score);
    var order := ResolveOrder(players, home, away);
    var p := CurrentThrower(order, |turns|).value;
    OrderDrawsFromRoster(players, home, away, p);
    var k :| 0 <= k < |players| && players[k] == p;
    assert OnRoster(players, p.playerId);
    HitsAfterTurn(turns, r.turn, playerId);
    HitsAfterTurn(turns, r.turn, p.playerId);
  }

  /** A player with the whole sequence behind them cannot submit: the call does nothing. */
  lemma FinishedPlayerCannotSubmit(sequence: seq<int>, players: seq<GamePlayer>, home: int, away: int,
                                   turns: seq<Turn>, hit: bool, score: int)
    requires var who := CurrentThrower(ResolveOrder(players, home, away), |turns|);
             who.Some? && Hits(turns, who.value.playerId) >= |sequence|
    ensures SubmitScore(sequence, players, home, away, turns, hit, score) == NoSubmission
  {
  }
}

=== FILE: routes.dfy ===
/**
 * The request checks of the game routes: creating a league game, creating an
 * ad-hoc game, and the two undo endpoints.  A JSON body is reduced to the
 * fields the checks read; a field JavaScript reads as falsy (absent, `null`,
 * empty string, 0) is `None`.
 */
module Routes {
  import opened Base
  import opened Records
  import opened GameService
  import opened PlaySetup

  /** A body field meant to hold a list of player ids. */
  datatype ListField = Absent | NotAList | IdList(ids: seq<int>)

  /** The body of a league game creation, as far as the route reads it. */
  datatype NewGame = NewGame(matchId: int, gameType: GameType)

  /** `POST /`: both `MatchID` and `GameType` must be present and truthy. */
  function CreateGame(matchId: Option<int>, gameType: Option<GameType>): (r: Response<NewGame>)
    ensures r.Fail? <==> matchId.None? || matchId.value == 0 || gameType.None?
    ensures r.Fail? ==> r.status == 400
    ensures r.Ok? ==> r.value == NewGame(matchId.value, gameType.value)
  {
    if matchId.None? || matchId.value == 0 || gameType.None? then Fail(400, "MatchID and GameType are required")
    else Ok(NewGame(matchId.value, gameType.value))
  }

  /** Every league game body with a non-zero match id passes the route unchanged, and a zero id never does. */
  lemma CreateGameAcceptsEveryGame(g: NewGame)
    ensures g.matchId != 0 ==> CreateGame(Some(g.matchId), Some(g.gameType)) == Ok(g)
    ensures g.matchId == 0 ==> CreateGame(Some(g.matchId), Some(g.gameType)).Fail?
  {
  }

  /** The arguments passed on to `createAdHoc`. */
  datatype AdHocRequest = AdHocRequest(gameType: GameType, teamA: seq<int>, teamB: seq<int>, teamPlay: bool)

  /** `TeamBPlayers` when it is an array, else the empty list. */
  function SideB(teamB: ListField): seq<int>
  {
    if teamB.IdList? then teamB.ids else []
  }

  /**
   * `POST /ad-hoc`: a game type and a non-empty side A list are required;
   * with team play, side B must be non-empty, the same size as side A, and
   * neither side above four.  Each failure is a 400.
   */
  function CreateAdHoc(gameType: Option<GameType>, teamA: ListField, teamB: ListField, teamPlay: bool)
    : (r: Response<AdHocRequest>)
    ensures r.Fail? ==> r.status == 400
  {
    if gameType.None? then Fail(400, "GameType is required")
    else if !teamA.IdList? || |teamA.ids| == 0 then Fail(400, "At least one player is required for Team A")
    else
      var b := SideB(teamB);
      if teamPlay && |b| == 0 then Fail(400, "Team play requires at least one player on each team")
      else if teamPlay && |teamA.ids| != |b| then Fail(400, "Both teams must have the same number of players for team play")
      else if teamPlay && (|teamA.ids| > 4 || |b| > 4) then Fail(400, "Maximum 4 players per team")
      else Ok(AdHocRequest(gameType.value, teamA.ids, b, teamPlay))
  }

  /** The rule the ad-hoc route enforces, stated on its own. */
  predicate AdHocValid(gameType: Option<GameType>, teamA: ListField, teamB: ListField, teamPlay: bool)
  {
    && gameType.Some?
    && teamA.IdList? && 1 <= |teamA.ids|
    && (teamPlay ==> 1 <= |SideB(teamB)| == |teamA.ids| <= 4)
  }

  /** The route accepts exactly the valid bodies, and passes their lists on unchanged, a missing side B as empty. */
  lemma AdHocAcceptsExactlyValid(gameType: Option<GameType>, teamA: ListField, teamB: ListField, teamPlay: bool)
    ensures CreateAdHoc(gameType, teamA, teamB, teamPlay).Ok? <==> AdHocValid(gameType, teamA, teamB, teamPlay)
    ensures CreateAdHoc(gameType, teamA, teamB, teamPlay).Ok? ==>
              CreateAdHoc(gameType, teamA, teamB, teamPlay).value
              == AdHocRequest(gameType.value, teamA.ids, SideB(teamB), teamPlay)
    ensures !teamB.IdList? && teamPlay ==> CreateAdHoc(gameType, teamA, teamB, teamPlay).Fail?
  {
  }

  /**
   * The setup page's start check is the server's check on the same panels:
   * the route accepts the panels' id lists exactly when `canStart` holds.
   */
  lemma StartCheckMirrorsRoute(gameType: Option<GameType>, teamPlay: bool, s: Setup)
    ensures CreateAdHoc(gameType, IdList(Keys(s.teamA, RosterId)), IdList(Keys(s.teamB, RosterId)), teamPlay).Ok?
            <==> CanStart(gameType, teamPlay, s)
  {
    AdHocAcceptsExactlyValid(gameType, IdList(Keys(s.teamA, RosterId)), IdList(Keys(s.teamB, RosterId)), teamPlay);
  }

  /** What a startable setup sends after its team split is accepted by the route, unchanged. */
  lemma StartedGamesAreAccepted(gameType: Option<GameType>, teamPlay: bool, s: Setup)
    requires CanStart(gameType, teamPlay, s)
    ensures var split := TeamSplit(teamPlay, s);
            var r := CreateAdHoc(gameType, IdList(split.teamA), IdList(split.teamB), split.teamPlay);
            r.Ok? && r.value == AdHocRequest(gameType.value, split.teamA, split.teamB, teamPlay)
  {
    SplitOfStartable(gameType, teamPlay, s);
    var split := TeamSplit(teamPlay, s);
    AdHocAcceptsExactlyValid(gameType, IdList(split.teamA), IdList(split.teamB), split.teamPlay);
  }

  /** `DELETE /:id/turns/last`: a 404 when there was nothing to undo. */
  function UndoTurnRoute(gameType: GameType, turns: seq<Turn>, states: StateTable): (r: Response<UndoOutcome>)
    ensures r.Fail? <==> |turns| == 0
    ensures r.Fail? ==> r.status == 404
    ensures r.Ok? ==> r.value.undone && |r.value.turns| == |turns| - 1
  {
    var outcome := UndoLastTurn(gameType, turns, states);
    if !outcome.undone then Fail(404, "No turns to undo") else Ok(outcome)
  }

  /** `DELETE /:id/cricket-turns/last`: a 404 when there was nothing to undo. */
  function UndoCricketTurnRoute(turns: seq<CricketTurn>, states: StateTable): (r: Response<CricketUndoOutcome>)
    ensures r.Fail? <==> |turns| == 0
    ensures r.Fail? ==> r.status == 404
    ensures r.Ok? ==> r.value.undone && |r.value.turns| == |turns| - 1
  {
    var outcome := UndoLastCricketTurn(turns, states);
    if !outcome.undone then Fail(404, "No cricket turns to undo") else Ok(outcome)
  }
}

=== FILE: season.dfy ===
/**
 * League scheduling: the round-robin schedule by the circle method and the
 * top-four playoff draw.  The database is left out: the teams come in as the
 * standings list (already ordered by wins, then id) and the schedule is the
 * sequence of fixtures in the order they would be inserted.
 */
module Season {
  import opened Base

  /** The placeholder added for an odd number of teams; a fixture against it is skipped. */
  const Bye := -1

  /** A match row: home side, away side, round number. */
  datatype Fixture = Fixture(home: int, away: int, round: int)

  /** The list the circle method turns: the team ids, plus a bye when their number is odd. */
  function Padded(ids: seq<int>): (list: seq<int>)
    ensures |list| % 2 == 0 && |list| >= |ids|
    ensures list[..|ids|] == ids
    ensures |list| == |ids| + (if |ids| % 2 == 0 then 0 else 1)
  {
    if |ids| % 2 == 0 then ids else ids + [Bye]
  }

  /** Rounds played: one fewer than the number of teams when even, as many when odd. */
  function RoundCount(n: nat): nat
  {
    if n % 2 == 0 then if n == 0 then 0 else n - 1 else n
  }

  /** One rotation: keep the first entry, move the last entry to index 1. */
  function Rotate(list: seq<int>): (r: seq<int>)
    requires |list| >= 2
    ensures |r| == |list|
  {
    [list[0], list[|list| - 1]] + list[1..|list| - 1]
  }

  /** Where an entry `o` places past the pivot ends up after `r` backward steps on a circle of `n`. */
  function Back(o: int, r: int, n: int): int
  {
    if o >= r then o - r else o - r + n
  }

  /**
   * The list after `r` rotations, in closed form: the first entry stays put
   * and the rest of the list is turned `r` places to the right.
   * `RotatedIsRepeatedRotation` shows it is `Rotate` applied `r` times.
   */
  function Rotated(list: seq<int>, r: nat): (l: seq<int>)
    requires |list| >= 2 && r < |list| - 1
    ensures |l| == |list|
  {
    Turned(list, r, |list|)
  }

  /** The entry at index `p` after `r` rotations. */
  function Entry(list: seq<int>, r: nat, p: nat): int
    requires |list| >= 2 && r < |list| - 1 && p < |list|
  {
    if p == 0 then list[0] else list[1 + Back(p - 1, r, |list| - 1)]
  }

  /** The first `k` entries of the list after `r` rotations. */
  function Turned(list: seq<int>, r: nat, k: nat): (l: seq<int>)
    requires |list| >= 2 && r < |list| - 1 && k <= |list|
    ensures |l| == k
    decreases k
  {
    if k == 0 then [] else Turned(list, r, k - 1) + [Entry(list, r, k - 1)]
  }

  lemma {:induction false} TurnedAt(list: seq<int>, r: nat, k: nat, p: nat)
    requires |list| >= 2 && r < |list| - 1 && p < k <= |list|
    ensures Turned(list, r, k)[p] == Entry(list, r, p)
    decreases k
  {
    if p < k - 1 {
      TurnedAt(list, r, k - 1, p);
    }
  }

  /** Index `p` of the rotated list holds `Entry(list, r, p)`. */
  lemma RotatedIndex(list: seq<int>, r: nat)
    requires |list| >= 2 && r < |list| - 1
    ensures forall p :: 0 <= p < |list| ==> Rotated(list, r)[p] == Entry(list, r, p)
  {
    forall p | 0 <= p < |list| ensures Rotated(list, r)[p] == Entry(list, r, p) {
      TurnedAt(list, r, |list|, p);
    }
  }

  /** The first `k` slots of one round, each as its own list of fixtures. */
  function Slots(list: seq<int>, round: int, k: nat): (ss: seq<seq<Fixture>>)
    requires 2 * k <= |list|
    ensures |ss| == k
    decreases k
  {
    if k == 0 then [] else Slots(list, round, k - 1) + [Slot(list, round, k - 1)]
  }

  lemma {:induction false} SlotsAt(list: seq<int>, round: int, k: nat, i: nat)
    requires 2 * k <= |list| && i < k
    ensures Slots(list, round, k)[i] == Slot(list, round, i)
    decreases k
  {
    if i < k - 1 {
      SlotsAt(list, round, k - 1, i);
    }
  }

  /** The fixtures of one round: slot `i` pairs `list[i]` with `list[len-1-i]`, for every slot in order. */
  function RoundFixtures(list: seq<int>, round: int): seq<Fixture>
    requires |list| % 2 == 0
  {
    Flatten(Slots(list, round, |list| / 2))
  }

  /** Slot `i` of a round: `list[i]` at home to `list[len-1-i]`, or nothing when either is the bye. */
  function Slot(list: seq<int>, round: int, i: nat): (fs: seq<Fixture>)
    requires 2 * i < |list|
    ensures |fs| <= 1
  {
    var home, away := list[i], list[|list| - 1 - i];
    if home == Bye || away == Bye then [] else [Fixture(home, away, round)]
  }

  /** Round `j + 1`: the slots of the list after `j` rotations. */
  function Round(list: seq<int>, j: nat): seq<Fixture>
    requires |list| >= 2 && |list| % 2 == 0 && j < |list| - 1
  {
    RoundFixtures(Rotated(list, j), j + 1)
  }

  /** The first `r` rounds, each as its own list of fixtures. */
  function Rounds(list: seq<int>, r: nat): (rs: seq<seq<Fixture>>)
    requires |list| >= 2 && |list| % 2 == 0 && r < |list|
    ensures |rs| == r
    decreases r
  {
    if r == 0 then [] else Rounds(list, r - 1) + [Round(list, r - 1)]
  }

  /** The rounds one after another, in the order their fixtures are inserted. */
  function Flatten(rs: seq<seq<Fixture>>): seq<Fixture>
    decreases |rs|
  {
    if |rs| == 0 then [] else Flatten(rs[..|rs| - 1]) + rs[|rs| - 1]
  }

  /**
   * `generateSchedule`: a 400 error below two teams, otherwise every round
   * of the circle method with byes skipped.
   */
  function GenerateSchedule(ids: seq<int>): (r: Response<seq<Fixture>>)
    ensures r.Fail? <==> |ids| < 2
    ensures r.Fail? ==> r.status == 400
  {
    if |ids| < 2 then Fail(400, "Need at least 2 teams to generate a schedule")
    else Ok(Flatten(Rounds(Padded(ids), RoundCount(|ids|))))
  }

  // ------------------------------------------------------------------
  // Where an entry sits after r rotations
  // ------------------------------------------------------------------

  /** `v` reduced into `[0, n)`, for `0 <= v < 2n`. */
  function Wrap(v: int, n: int): int
  {
    if v < n then v else v - n
  }

  /** The index the entry first at index `x` occupies after `r` rotations of a list of `n + 1` entries. */
  function Pos(x: nat, r: nat, n: nat): nat
    requires x <= n && r < n
  {
    if x == 0 then 0 else 1 + Wrap(x - 1 + r, n)
  }

  /** No rotation is the list itself, and each further rotation is one more `Rotate`. */
  lemma RotatedIsRepeatedRotation(list: seq<int>, r: nat)
    requires |list| >= 2 && r + 1 < |list| - 1
    ensures Rotated(list, 0) == list
    ensures Rotated(list, r + 1) == Rotate(Rotated(list, r))
  {
    RotatedZero(list);
    RotatedStep(list, r);
  }

  /** No rotation leaves the list as it is. */
  lemma RotatedZero(list: seq<int>)
    requires |list| >= 2
    ensures Rotated(list, 0) == list
  {
    var n := |list| - 1;
    RotatedIndex(list, 0);
    forall p | 0 <= p < |list| ensures Rotated(list, 0)[p] == list[p] {
      if p > 0 {
        assert Back(p - 1, 0, n) == p - 1;
      }
    }
  }

  /** One more rotation is `Rotate` applied to the list after `r` rotations. */
  lemma RotatedStep(list: seq<int>, r: nat)
    requires |list| >= 2 && r + 1 < |list| - 1
    ensures Rotated(list, r + 1) == Rotate(Rotated(list, r))
  {
    var n := |list| - 1;
    var l, l' := Rotated(list, r), Rotated(list, r + 1);
    RotatedIndex(list, r);
    RotatedIndex(list, r + 1);
    forall p | 0 <= p < |list| ensures l'[p] == Rotate(l)[p] {
      if p == 1 {
        assert Back(0, r + 1, n) == n - r - 1 == Back(n - 1, r, n);
        assert Rotate(l)[1] == l[n];
      } else if p > 1 {
        assert Back(p - 1, r + 1, n) == Back(p - 2, r, n);
        assert Rotate(l)[p] == l[1..n][p - 2] == l[p - 1];
      }
    }
  }

  /** The first entry stays put; every other entry advances one place per rotation, wrapping from the end to index 1. */
  lemma RotatedAt(list: seq<int>, r: nat, x: nat)
    requires |list| >= 2 && r < |list| - 1 && x < |list|
    ensures Pos(x, r, |list| - 1) < |list|
    ensures Rotated(list, r)[Pos(x, r, |list| - 1)] == list[x]
  {
    RotatedIndex(list, r);
    if x > 0 {
      var n := |list| - 1;
      assert Back(Wrap(x - 1 + r, n), r, n) == x - 1;
    }
  }

  /** Every entry of a rotated list comes from the list, and the bye is in it exactly when it was in the list. */
  lemma RotatedMembers(list: seq<int>, r: nat)
    requires |list| >= 2 && r < |list| - 1
    ensures forall v :: v in Rotated(list, r) ==> v in list
    ensures Bye in Rotated(list, r) <==> Bye in list
  {
    var l := Rotated(list, r);
    RotatedIndex(list, r);
    forall v | v in l ensures v in list {
      var p :| 0 <= p < |l| && l[p] == v;
    }
    if Bye in list {
      var x :| 0 <= x < |list| && list[x] == Bye;
      RotatedAt(list, r, x);
    }
  }

  // ------------------------------------------------------------------
  // When two entries meet
  // ------------------------------------------------------------------

  /** Two indices of a list of `n + 1` entries face each other after `r` rotations. */
  predicate Paired(x: nat, y: nat, r: nat, n: nat)
    requires x <= n && y <= n && r < n
  {
    Pos(x, r, n) + Pos(y, r, n) == n
  }

  /** The one rotation count, below `n`, after which indices `x` and `y` face each other. */
  function MeetRound(x: nat, y: nat, n: nat): (r: nat)
    requires n % 2 == 1 && x <= n && y <= n && x != y
    ensures r < n
  {
    if x == 0 then n - y
    else if y == 0 then n - x
    else
      var c := n - x - y;
      var c' := if c < 0 then c + n else c;
      if c' % 2 == 0 then c' / 2 else (c' + n) / 2
  }

  /** Facing the fixed entry: only after `n - y` rotations does index `y` reach the last place. */
  lemma PairedWithFirst(y: nat, r: nat, n: nat)
    requires n % 2 == 1 && 1 <= y <= n && r < n
    ensures Paired(0, y, r, n) <==> r == MeetRound(0, y, n)
  {
  }

  /** Two rotating entries face each other after `MeetRound` rotations. */
  lemma MeetRoundPairs(x: nat, y: nat, n: nat)
    requires n % 2 == 1 && 1 <= x <= n && 1 <= y <= n && x != y
    ensures Paired(x, y, MeetRound(x, y, n), n)
  {
    var r := MeetRound(x, y, n);
    var a, b := x - 1, y - 1;
    var u, v := Wrap(a + r, n), Wrap(b + r, n);
    var c: int := n - x - y;
    var c' := if c < 0 then c + n else c;
    assert 2 * r == c' || 2 * r == c' + n;
    assert u + v != 2 * n - 2;
  }

  /** Two rotating entries face each other after at most one rotation count below `n`. */
  lemma PairedOnce(x: nat, y: nat, r1: nat, r2: nat, n: nat)
    requires n % 2 == 1 && 1 <= x <= n && 1 <= y <= n && x != y && r1 < n && r2 < n
    requires Paired(x, y, r1, n) && Paired(x, y, r2, n)
    ensures r1 == r2
  {
    var m: int := n;
    var d: int := 2 * (r1 - r2);
    assert d == 0 || d == m || d == -m || d == 2 * m || d == -2 * m;
    assert d != m && d != -m;
  }

  /** Indices `x` and `y` face each other after exactly one rotation count below `n`. */
  lemma PairedIff(x: nat, y: nat, r: nat, n: nat)
    requires n % 2 == 1 && x <= n && y <= n && x != y && r < n
    ensures Paired(x, y, r, n) <==> r == MeetRound(x, y, n)
  {
    if x == 0 {
      PairedWithFirst(y, r, n);
    } else if y == 0 {
      PairedWithFirst(x, r, n);
    } else {
      MeetRoundPairs(x, y, n);
      if Paired(x, y, r, n) {
        PairedOnce(x, y, r, MeetRound(x, y, n), n);
      }
    }
  }

  // ------------------------------------------------------------------
  // Every pair of teams meets exactly once
  // ------------------------------------------------------------------

  /** A fixture between `a` and `b`, either way round. */
  predicate Between(f: Fixture, a: int, b: int)
  {
    (f.home == a && f.away == b) || (f.home == b && f.away == a)
  }

  /** How many fixtures of `s` are between `a` and `b`. */
  function CountPair(s: seq<Fixture>, a: int, b: int): nat
    decreases |s|
  {
    if |s| == 0 then 0 else CountPair(s[..|s| - 1], a, b) + (if Between(s[|s| - 1], a, b) then 1 else 0)
  }

  lemma {:induction false} CountPairAppend(s: seq<Fixture>, t: seq<Fixture>, a: int, b: int)
    ensures CountPair(s + t, a, b) == CountPair(s, a, b) + CountPair(t, a, b)
    decreases |t|
  {
    if |t| == 0 {
      assert s + t == s;
    } else {
      CountPairAppend(s, t[..|t| - 1], a, b);
      assert (s + t)[..|s + t| - 1] == s + t[..|t| - 1];
      assert (s + t)[|s + t| - 1] == t[|t| - 1];
    }
  }

  /** The entry at index `p` occurs nowhere else in the list. */
  predicate OnlyAt(list: seq<int>, p: nat)
    requires p < |list|
  {
    forall m :: 0 <= m < |list| && list[m] == list[p] ==> m == p
  }

  lemma DistinctOnlyAt(list: seq<int>, p: nat)
    requires Distinct(list) && p < |list|
    ensures OnlyAt(list, p)
  {
    forall m | 0 <= m < |list| && list[m] == list[p] ensures m == p {
      if m < p {} else if p < m {}
    }
  }

  /** Slot `i` holds the entries at `p` and `q` exactly when those are its two indices. */
  lemma SlotPair(list: seq<int>, round: int, i: nat, p: nat, q: nat)
    requires 2 * i < |list|
    requires p < |list| && q < |list| && p != q && list[p] != Bye && list[q] != Bye
    requires OnlyAt(list, p) && OnlyAt(list, q)
    ensures CountPair(Slot(list, round, i), list[p], list[q])
            == if p + q == |list| - 1 && Min(p, q) == i then 1 else 0
  {
    var j := |list| - 1 - i;
    var fs := Slot(list, round, i);
    if |fs| == 1 {
      assert fs[..0] == [];
      assert Between(fs[0], list[p], list[q]) <==> (i == p && j == q) || (i == q && j == p);
    }
  }

  /** The circle method keeps every entry distinct in every round. */
  lemma RotatedDistinct(list: seq<int>, r: nat)
    requires |list| >= 2 && r < |list| - 1 && Distinct(list)
    ensures Distinct(Rotated(list, r))
  {
    var n := |list| - 1;
    var l := Rotated(list, r);
    RotatedIndex(list, r);
    forall i, j | 0 <= i < j < |l| ensures l[i] != l[j] {
      if i > 0 {
        assert Back(i - 1, r, n) != Back(j - 1, r, n);
      }
    }
  }

  /** Entry `j` of `Rounds` is round `j + 1`. */
  lemma {:induction false} RoundsAt(list: seq<int>, r: nat, j: nat)
    requires |list| >= 2 && |list| % 2 == 0 && j < r < |list|
    ensures Rounds(list, r)[j] == Round(list, j)
    decreases r
  {
    if j < r - 1 {
      RoundsAt(list, r - 1, j);
    }
  }

  /** In round `j + 1`, the entries first at `x` and `y` meet exactly when `j` is their meeting round. */
  lemma OneRoundPairCount(list: seq<int>, j: nat, x: nat, y: nat)
    requires |list| >= 2 && |list| % 2 == 0 && Distinct(list) && j < |list| - 1
    requires x < |list| && y < |list| && x != y && list[x] != Bye && list[y] != Bye
    ensures CountPair(Round(list, j), list[x], list[y]) == if MeetRound(x, y, |list| - 1) == j then 1 else 0
  {
    var m := |list|;
    OddBelowEven(m);
    var p, q := Pos(x, j, m - 1), Pos(y, j, m - 1);
    FacingIff(x, y, j, m);
    FacingCount(list, j, x, y);
    CountByCondition(CountPair(Round(list, j), list[x], list[y]), p + q == m - 1 && Min(p, q) < m / 2, MeetRound(x, y, m - 1) == j);
  }

  lemma OddBelowEven(m: nat)
    requires m >= 2 && m % 2 == 0
    ensures (m - 1) % 2 == 1
  {
  }

  /** A 0/1 count decided by one condition is decided by any equivalent one. */
  lemma CountByCondition(n: int, c: bool, d: bool)
    requires c <==> d
    requires n == if c then 1 else 0
    ensures n == if d then 1 else 0
  {
  }

  /** In round `j + 1`, the entries first at `x` and `y` meet once if their positions face each other. */
  lemma FacingCount(list: seq<int>, j: nat, x: nat, y: nat)
    requires |list| >= 2 && |list| % 2 == 0 && Distinct(list) && j < |list| - 1
    requires x < |list| && y < |list| && x != y && list[x] != Bye && list[y] != Bye
    ensures var p, q := Pos(x, j, |list| - 1), Pos(y, j, |list| - 1);
            CountPair(Round(list, j), list[x], list[y])
            == if p + q == |list| - 1 && Min(p, q) < |list| / 2 then 1 else 0
  {
    RotatedFacing(list, j, x, y);
    assert Round(list, j) == RoundFixtures(Rotated(list, j), j + 1);
    FullRoundCount(Rotated(list, j), |list|, j + 1, Pos(x, j, |list| - 1), Pos(y, j, |list| - 1), list[x], list[y]);
  }

  /** A whole round over `l` of length `m`: the entries `a` at `p` and `b` at `q` meet once if `p` and `q` share a slot. */
  lemma FullRoundCount(l: seq<int>, m: nat, round: int, p: nat, q: nat, a: int, b: int)
    requires |l| == m && m % 2 == 0 && p < m && q < m && p != q && l[p] == a && l[q] == b && a != Bye && b != Bye
    requires OnlyAt(l, p) && OnlyAt(l, q)
    ensures CountPair(RoundFixtures(l, round), a, b) == if p + q == m - 1 && Min(p, q) < m / 2 then 1 else 0
  {
    var ss := Slots(l, round, m / 2);
    var met := if p + q == m - 1 then Min(p, q) else -1;
    forall i | 0 <= i < |ss| ensures CountPair(ss[i], a, b) == if met == i then 1 else 0 {
      SlotsAt(l, round, m / 2, i);
      SlotPair(l, round, i, p, q);
    }
    FlattenPairCount(ss, a, b, met);
  }

  /** After `r` rotations, the entries first at `x` and `y` sit at their `Pos`, each the only copy of itself. */
  lemma RotatedFacing(list: seq<int>, r: nat, x: nat, y: nat)
    requires |list| >= 2 && Distinct(list) && r < |list| - 1
    requires x < |list| && y < |list| && x != y
    ensures var l, n := Rotated(list, r), |list| - 1;
            && Pos(x, r, n) < |l| && Pos(y, r, n) < |l| && Pos(x, r, n) != Pos(y, r, n)
            && l[Pos(x, r, n)] == list[x] && l[Pos(y, r, n)] == list[y]
            && OnlyAt(l, Pos(x, r, n)) && OnlyAt(l, Pos(y, r, n))
  {
    var l, n := Rotated(list, r), |list| - 1;
    RotatedAt(list, r, x);
    RotatedAt(list, r, y);
    RotatedDistinct(list, r);
    DistinctOnlyAt(l, Pos(x, r, n));
    DistinctOnlyAt(l, Pos(y, r, n));
  }

  /** After `r` rotations two different entries sit apart, and face each other exactly in their meeting round. */
  lemma FacingIff(x: nat, y: nat, r: nat, m: nat)
    requires m >= 2 && m % 2 == 0 && x < m && y < m && x != y && r < m - 1
    ensures Pos(x, r, m - 1) != Pos(y, r, m - 1)
    ensures Pos(x, r, m - 1) + Pos(y, r, m - 1) == m - 1 && Min(Pos(x, r, m - 1), Pos(y, r, m - 1)) < m / 2
            <==> MeetRound(x, y, m - 1) == r
  {
    PairedIff(x, y, r, m - 1);
  }

  /** A team list without repeats and without the bye placeholder. */
  predicate ValidTeams(ids: seq<int>)
  {
    Distinct(ids) && forall i :: 0 <= i < |ids| ==> ids[i] != Bye
  }

  lemma PaddedDistinct(ids: seq<int>)
    requires ValidTeams(ids)
    ensures Distinct(Padded(ids))
  {
  }

  /** Every two different teams meet in exactly one fixture of the schedule. */
  lemma EveryPairMeetsOnce(ids: seq<int>, i: nat, j: nat)
    requires ValidTeams(ids) && i < |ids| && j < |ids| && i != j
    ensures GenerateSchedule(ids).Ok?
    ensures CountPair(GenerateSchedule(ids).value, ids[i], ids[j]) == 1
  {
    var list := Padded(ids);
    var rs := Rounds(list, RoundCount(|ids|));
    var met := MeetRound(i, j, |list| - 1);
    PaddedDistinct(ids);
    assert list[i] == ids[i] && list[j] == ids[j];
    forall k | 0 <= k < |rs| ensures CountPair(rs[k], list[i], list[j]) == if met == k then 1 else 0 {
      RoundsAt(list, RoundCount(|ids|), k);
      OneRoundPairCount(list, k, i, j);
    }
    FlattenPairCount(rs, list[i], list[j], met);
  }

  /** When exactly round `m` of the rounds holds one `a`-`b` fixture and the others none, so does their concatenation. */
  lemma {:induction false} FlattenPairCount(rs: seq<seq<Fixture>>, a: int, b: int, m: int)
    requires forall j :: 0 <= j < |rs| ==> CountPair(rs[j], a, b) == if m == j then 1 else 0
    ensures CountPair(Flatten(rs), a, b) == if 0 <= m < |rs| then 1 else 0
    decreases |rs|
  {
    if |rs| > 0 {
      var init := rs[..|rs| - 1];
      assert forall j :: 0 <= j < |init| ==> init[j] == rs[j];
      FlattenPairCount(init, a, b, m);
      CountPairAppend(Flatten(init), rs[|rs| - 1], a, b);
    }
  }

  // ------------------------------------------------------------------
  // Fixtures are real, no team plays twice in a round, and the count
  // ------------------------------------------------------------------

  /** The fixtures of round `round` in `s` that team `t` plays in. */
  function PlaysIn(s: seq<Fixture>, round: int, t: int): nat
    decreases |s|
  {
    if |s| == 0 then 0
    else
      var f := s[|s| - 1];
      PlaysIn(s[..|s| - 1], round, t) + (if f.round == round && (f.home == t || f.away == t) then 1 else 0)
  }

  lemma {:induction false} PlaysInAppend(s: seq<Fixture>, u: seq<Fixture>, round: int, t: int)
    ensures PlaysIn(s + u, round, t) == PlaysIn(s, round, t) + PlaysIn(u, round, t)
    decreases |u|
  {
    if |u| == 0 {
      assert s + u == s;
    } else {
      PlaysInAppend(s, u[..|u| - 1], round, t);
      assert (s + u)[..|s + u| - 1] == s + u[..|u| - 1];
      assert (s + u)[|s + u| - 1] == u[|u| - 1];
    }
  }

  /** Team `t` sits at one of the two indices of slot `i`. */
  predicate Seats(list: seq<int>, i: nat, t: int)
    requires 2 * i < |list|
  {
    list[i] == t || list[|list| - 1 - i] == t
  }

  /** The slot holding index `b`: slot `i` holds indices `i` and `len-1-i`. */
  function SlotOf(b: nat, m: nat): int
  {
    Min(b, m - 1 - b)
  }

  /** In a list without repeats, the slots that seat `t` are the one slot of its index. */
  lemma SeatsOnce(list: seq<int>, i: nat, b: nat)
    requires |list| % 2 == 0 && Distinct(list) && 2 * i < |list| && b < |list|
    ensures Seats(list, i, list[b]) <==> SlotOf(b, |list|) == i
  {
    var j := |list| - 1 - i;
    if list[i] == list[b] {
      if i < b {} else if b < i {}
    }
    if list[j] == list[b] {
      if j < b {} else if b < j {}
    }
  }

  /** A slot involves a team at most once, and only if the team sits at one of its indices. */
  lemma SlotPlaysOne(list: seq<int>, round: int, i: nat, round': int, t: int)
    requires 2 * i < |list|
    ensures PlaysIn(Slot(list, round, i), round', t) <= if round' == round && Seats(list, i, t) then 1 else 0
  {
    var fs := Slot(list, round, i);
    if |fs| == 1 {
      assert fs[..0] == [];
    }
  }

  /** In a list without repeats, a full round involves each team at most once. */
  lemma RoundPlays(list: seq<int>, round: int, round': int, t: int)
    requires |list| % 2 == 0 && Distinct(list)
    ensures PlaysIn(RoundFixtures(list, round), round', t) <= if round' == round then 1 else 0
  {
    var ss := Slots(list, round, |list| / 2);
    var met := -1;
    if round' == round && t in list {
      var b :| 0 <= b < |list| && list[b] == t;
      met := SlotOf(b, |list|);
      forall i | 0 <= i < |ss| ensures PlaysIn(ss[i], round', t) <= if met == i then 1 else 0 {
        SlotsAt(list, round, |list| / 2, i);
        SlotPlaysOne(list, round, i, round', t);
        SeatsOnce(list, i, b);
      }
    } else {
      forall i | 0 <= i < |ss| ensures PlaysIn(ss[i], round', t) <= if met == i then 1 else 0 {
        SlotsAt(list, round, |list| / 2, i);
        SlotPlaysOne(list, round, i, round', t);
      }
    }
    FlattenPlays(ss, round', t, met);
  }

  /** Every fixture of a round is numbered with it and is a real match between entries of the list. */
  lemma SlotFixtures(list: seq<int>, round: int)
    requires |list| % 2 == 0 && Distinct(list)
    ensures forall f :: f in RoundFixtures(list, round) ==> f.round == round && Genuine(f, list)
  {
    var ss := Slots(list, round, |list| / 2);
    forall f | f in Flatten(ss) ensures f.round == round && Genuine(f, list) {
      var i := FlattenMember(ss, f);
      SlotsAt(list, round, |list| / 2, i);
      assert list[i] != list[|list| - 1 - i];
    }
  }

  /** A full round has a fixture for every slot, less one when the bye is in the list. */
  lemma RoundSize(list: seq<int>, round: int)
    requires |list| % 2 == 0 && Distinct(list)
    ensures |RoundFixtures(list, round)| == |list| / 2 - if Bye in list then 1 else 0
  {
    var ss := Slots(list, round, |list| / 2);
    var met := -1;
    if Bye in list {
      var b :| 0 <= b < |list| && list[b] == Bye;
      met := SlotOf(b, |list|);
      forall i | 0 <= i < |ss| ensures |ss[i]| == if met == i then 0 else 1 {
        SlotsAt(list, round, |list| / 2, i);
        SeatsOnce(list, i, b);
      }
    } else {
      forall i | 0 <= i < |ss| ensures |ss[i]| == if met == i then 0 else 1 {
        SlotsAt(list, round, |list| / 2, i);
      }
    }
    FlattenSizeExcept(ss, met);
  }

  /** A fixture between two different entries of the list, neither of them the bye. */
  predicate Genuine(f: Fixture, list: seq<int>)
  {
    f.home in list && f.away in list && f.home != f.away && f.home != Bye && f.away != Bye
  }

  /** The fixtures of round `j + 1` are real matches between entries of the list, numbered `j + 1`. */
  lemma RoundFixturesOfList(list: seq<int>, j: nat, f: Fixture)
    requires |list| >= 2 && |list| % 2 == 0 && Distinct(list) && j < |list| - 1
    requires f in Round(list, j)
    ensures f.round == j + 1 && Genuine(f, list)
  {
    RotatedDistinct(list, j);
    RotatedMembers(list, j);
    SlotFixtures(Rotated(list, j), j + 1);
  }

  /** A fixture of the concatenated rounds comes from one of them. */
  lemma {:induction false} FlattenMember(rs: seq<seq<Fixture>>, f: Fixture) returns (j: nat)
    requires f in Flatten(rs)
    ensures j < |rs| && f in rs[j]
    decreases |rs|
  {
    var init := rs[..|rs| - 1];
    if f in Flatten(init) {
      j := FlattenMember(init, f);
      assert init[j] == rs[j];
    } else {
      j := |rs| - 1;
    }
  }

  /** A team that plays at most once in list `m` of the lists and in no other plays at most once in their concatenation. */
  lemma {:induction false} FlattenPlays(rs: seq<seq<Fixture>>, round: int, t: int, m: int)
    requires forall j :: 0 <= j < |rs| ==> PlaysIn(rs[j], round, t) <= if m == j then 1 else 0
    ensures PlaysIn(Flatten(rs), round, t) <= if 0 <= m < |rs| then 1 else 0
    decreases |rs|
  {
    if |rs| > 0 {
      var init := rs[..|rs| - 1];
      assert forall j :: 0 <= j < |init| ==> init[j] == rs[j];
      FlattenPlays(init, round, t, m);
      PlaysInAppend(Flatten(init), rs[|rs| - 1], round, t);
    }
  }

  /** Lists of one fixture each, except list `m` which is empty, concatenate to one fixture per list, less one. */
  lemma {:induction false} FlattenSizeExcept(rs: seq<seq<Fixture>>, m: int)
    requires forall j :: 0 <= j < |rs| ==> |rs[j]| == if m == j then 0 else 1
    ensures |Flatten(rs)| == |rs| - if 0 <= m < |rs| then 1 else 0
    decreases |rs|
  {
    if |rs| > 0 {
      var init := rs[..|rs| - 1];
      assert forall j :: 0 <= j < |init| ==> init[j] == rs[j];
      FlattenSizeExcept(init, m);
    }
  }

  /** Rounds of `c` fixtures each concatenate to `|rs| * c` fixtures. */
  lemma {:induction false} FlattenSize(rs: seq<seq<Fixture>>, c: nat)
    requires forall j :: 0 <= j < |rs| ==> |rs[j]| == c
    ensures |Flatten(rs)| == |rs| * c
    decreases |rs|
  {
    if |rs| > 0 {
      var init := rs[..|rs| - 1];
      assert forall j :: 0 <= j < |init| ==> init[j] == rs[j];
      FlattenSize(init, c);
      assert |rs| * c == |init| * c + c;
    }
  }


  /** Every round has as many fixtures as the first: one per slot, less one for the bye. */
  lemma RoundLength(list: seq<int>, j: nat)
    requires |list| >= 2 && |list| % 2 == 0 && Distinct(list) && j < |list| - 1
    ensures |Round(list, j)| == |list| / 2 - if Bye in list then 1 else 0
  {
    RotatedDistinct(list, j);
    RotatedMembers(list, j);
    RoundSize(Rotated(list, j), j + 1);
  }

  /** A team plays at most once in round `j + 1`, and that list holds no other round number. */
  lemma RoundPlaysOnce(list: seq<int>, j: nat, round: int, t: int)
    requires |list| >= 2 && |list| % 2 == 0 && Distinct(list) && j < |list| - 1
    ensures PlaysIn(Round(list, j), round, t) <= if round == j + 1 then 1 else 0
  {
    RotatedDistinct(list, j);
    RoundPlays(Rotated(list, j), j + 1, round, t);
  }

  /** Every fixture of the schedule is a match between two different teams, in rounds 1 to `RoundCount`. */
  lemma ScheduleHasOnlyTeams(ids: seq<int>, f: Fixture)
    requires ValidTeams(ids) && GenerateSchedule(ids).Ok? && f in GenerateSchedule(ids).value
    ensures f.home in ids && f.away in ids && f.home != f.away
    ensures 1 <= f.round <= RoundCount(|ids|)
  {
    var list := Padded(ids);
    var rs := Rounds(list, RoundCount(|ids|));
    PaddedDistinct(ids);
    var k := FlattenMember(rs, f);
    RoundsAt(list, RoundCount(|ids|), k);
    RoundFixturesOfList(list, k, f);
    assert list == ids || list == ids + [Bye];
  }

  /** No team plays twice in one round. */
  lemma OneFixturePerRound(ids: seq<int>, round: int, t: int)
    requires ValidTeams(ids) && GenerateSchedule(ids).Ok?
    ensures PlaysIn(GenerateSchedule(ids).value, round, t) <= 1
  {
    var list := Padded(ids);
    var rs := Rounds(list, RoundCount(|ids|));
    PaddedDistinct(ids);
    forall k | 0 <= k < |rs| ensures PlaysIn(rs[k], round, t) <= if round - 1 == k then 1 else 0 {
      RoundsAt(list, RoundCount(|ids|), k);
      RoundPlaysOnce(list, k, round, t);
    }
    FlattenPlays(rs, round, t, round - 1);
  }

  /** The schedule has one fixture per pair of teams: `n(n-1)/2` of them. */
  lemma ScheduleSize(ids: seq<int>)
    requires ValidTeams(ids) && GenerateSchedule(ids).Ok?
    ensures 2 * |GenerateSchedule(ids).value| == |ids| * (|ids| - 1)
  {
    var list := Padded(ids);
    var n := |ids|;
    var rs := Rounds(list, RoundCount(n));
    var c := |list| / 2 - if Bye in list then 1 else 0;
    PaddedDistinct(ids);
    forall k | 0 <= k < |rs| ensures |rs[k]| == c {
      RoundsAt(list, RoundCount(n), k);
      RoundLength(list, k);
    }
    FlattenSize(rs, c);
    if n % 2 == 0 {
      assert Bye !in list;
    } else {
      assert list[n] == Bye;
    }
    RoundsTimesSlots(n);
  }

  /** Rounds times fixtures per round is `n(n-1)/2`, for an even or an odd number of teams. */
  lemma RoundsTimesSlots(n: nat)
    requires n >= 2
    ensures 2 * (RoundCount(n) * ((n + n % 2) / 2 - n % 2)) == n * (n - 1)
  {
    if n % 2 == 0 {
      var h := n / 2;
      assert (n + n % 2) / 2 - n % 2 == h;
      assert 2 * ((n - 1) * h) == (n - 1) * (2 * h);
    } else {
      var h := (n - 1) / 2;
      assert (n + n % 2) / 2 - n % 2 == h;
      assert 2 * (n * h) == n * (2 * h);
    }
  }

  // ------------------------------------------------------------------
  // Playoffs: the top four seeded, semi-finals 1 v 4 and 2 v 3
  // ------------------------------------------------------------------

  /** A row of the standings: a team's season entry and its game wins. */
  datatype Standing = Standing(teamSeasonId: int, gameWins: int)

  /** A row of the season's match table: the fixture and whether it is a playoff match. */
  datatype SeasonMatch = SeasonMatch(fixture: Fixture, isPlayoff: bool)

  /** The outcome of a playoff draw: seed `i + 1` goes to `seeds[i]`, and the season's matches afterwards. */
  datatype Draw = Draw(seeds: seq<int>, matches: seq<SeasonMatch>)

  /** The standings order: more game wins first, then the lower team-season id. */
  predicate Ranked(standings: seq<Standing>)
  {
    forall i, j :: 0 <= i < j < |standings| ==>
      standings[i].gameWins > standings[j].gameWins
      || (standings[i].gameWins == standings[j].gameWins && standings[i].teamSeasonId < standings[j].teamSeasonId)
  }

  /** The matches left once the playoff matches are deleted, in their order. */
  function Regular(ms: seq<SeasonMatch>): (r: seq<SeasonMatch>)
    ensures |r| <= |ms|
    decreases |ms|
  {
    if |ms| == 0 then []
    else Regular(ms[..|ms| - 1]) + (if ms[|ms| - 1].isPlayoff then [] else [ms[|ms| - 1]])
  }

  /** The regular matches are exactly the matches that are not playoff matches. */
  lemma {:induction false} RegularMembers(ms: seq<SeasonMatch>, m: SeasonMatch)
    ensures m in Regular(ms) <==> m in ms && !m.isPlayoff
    decreases |ms|
  {
    if |ms| > 0 {
      var init := ms[..|ms| - 1];
      RegularMembers(init, m);
      assert ms == init + [ms[|ms| - 1]];
    }
  }

  lemma {:induction false} RegularAppend(a: seq<SeasonMatch>, b: seq<SeasonMatch>)
    ensures Regular(a + b) == Regular(a) + Regular(b)
    decreases |b|
  {
    if |b| == 0 {
      assert a + b == a;
    } else {
      RegularAppend(a, b[..|b| - 1]);
      assert (a + b)[..|a + b| - 1] == a + b[..|b| - 1];
      assert (a + b)[|a + b| - 1] == b[|b| - 1];
    }
  }

  /** The round numbers of a list of matches. */
  function RoundsOf(ms: seq<SeasonMatch>): (rs: seq<int>)
    ensures |rs| == |ms| && forall i :: 0 <= i < |ms| ==> rs[i] == ms[i].fixture.round
  {
    seq(|ms|, i requires 0 <= i < |ms| => ms[i].fixture.round)
  }

  /** A semi-final in round `round`, the first team at home. */
  function Semi(home: int, away: int, round: int): SeasonMatch
  {
    SeasonMatch(Fixture(home, away, round), true)
  }

  /**
   * `generatePlayoffs`: a 400 error below four teams; otherwise the old playoff
   * matches are deleted, the top four of the standings are seeded 1 to 4, and
   * the semi-finals 1 v 4 and 2 v 3 are added one round after the last
   * remaining match.
   */
  function GeneratePlayoffs(standings: seq<Standing>, matches: seq<SeasonMatch>): (r: Response<Draw>)
    ensures r.Fail? <==> |standings| < 4
    ensures r.Fail? ==> r.status == 400
    ensures r.Ok? ==> |r.value.seeds| == 4 && forall i :: 0 <= i < 4 ==> r.value.seeds[i] == standings[i].teamSeasonId
  {
    if |standings| < 4 then Fail(400, "Need at least 4 teams for playoffs")
    else Ok(SeedAndDraw(standings, Regular(matches)))
  }

  /** Seeds the top four and adds their semi-finals after the remaining matches `kept`. */
  function SeedAndDraw(standings: seq<Standing>, kept: seq<SeasonMatch>): (d: Draw)
    requires |standings| >= 4
    ensures |d.seeds| == 4 && forall i :: 0 <= i < 4 ==> d.seeds[i] == standings[i].teamSeasonId
    ensures |d.matches| == |kept| + 2 && d.matches[..|kept|] == kept
  {
    var top4 := standings[..4];
    var seeds := [top4[0].teamSeasonId, top4[1].teamSeasonId, top4[2].teamSeasonId, top4[3].teamSeasonId];
    var semiRound := MaxOrZero(RoundsOf(kept)) + 1;
    Draw(seeds, kept + [Semi(seeds[0], seeds[3], semiRound), Semi(seeds[1], seeds[2], semiRound)])
  }

  /** In ranked standings, every seeded team has at least the wins of every unseeded one, and the seeds follow the ranking. */
  lemma SeedsAreTheTopFour(standings: seq<Standing>, i: nat, j: nat)
    requires Ranked(standings) && GeneratePlayoffs(standings, []).Ok?
    requires i < 4 && i < j < |standings|
    ensures standings[i].gameWins >= standings[j].gameWins
    ensures j < 4 ==> GeneratePlayoffs(standings, []).value.seeds[i] == standings[i].teamSeasonId
                      && GeneratePlayoffs(standings, []).value.seeds[j] == standings[j].teamSeasonId
  {
  }

  /**
   * The draw keeps every regular match and only those, adds exactly the two
   * semi-finals, seed 1 at home to seed 4 and seed 2 at home to seed 3, and
   * places them after every remaining round.
   */
  lemma DrawMatches(standings: seq<Standing>, matches: seq<SeasonMatch>)
    requires |standings| >= 4
    ensures var d := GeneratePlayoffs(standings, matches).value;
            var kept := Regular(matches);
            && |d.matches| == |kept| + 2
            && d.matches[..|kept|] == kept
            && d.matches[|kept|].fixture.home == d.seeds[0] && d.matches[|kept|].fixture.away == d.seeds[3]
            && d.matches[|kept| + 1].fixture.home == d.seeds[1] && d.matches[|kept| + 1].fixture.away == d.seeds[2]
            && d.matches[|kept|].isPlayoff && d.matches[|kept| + 1].isPlayoff
            && d.matches[|kept|].fixture.round == d.matches[|kept| + 1].fixture.round
            && (forall m :: m in kept <==> m in matches && !m.isPlayoff)
            && forall m :: m in kept ==> m.fixture.round < d.matches[|kept|].fixture.round
  {
    var kept := Regular(matches);
    forall m ensures m in kept <==> m in matches && !m.isPlayoff {
      RegularMembers(matches, m);
    }
    var rs := RoundsOf(kept);
    forall m | m in kept ensures m.fixture.round <= MaxOrZero(rs) {
      var i :| 0 <= i < |kept| && kept[i] == m;
      assert rs[i] == m.fixture.round;
    }
  }

  lemma {:induction false} RegularOfRegular(ms: seq<SeasonMatch>)
    ensures Regular(Regular(ms)) == Regular(ms)
    decreases |ms|
  {
    if |ms| > 0 {
      var init := ms[..|ms| - 1];
      RegularOfRegular(init);
      RegularAppend(Regular(init), if ms[|ms| - 1].isPlayoff then [] else [ms[|ms| - 1]]);
    }
  }

  /** Generating the playoffs again replaces the draw by the same draw: the old semi-finals are deleted first. */
  lemma RegeneratingPlayoffs(standings: seq<Standing>, matches: seq<SeasonMatch>)
    requires |standings| >= 4
    ensures GeneratePlayoffs(standings, GeneratePlayoffs(standings, matches).value.matches)
            == GeneratePlayoffs(standings, matches)
  {
    var d := GeneratePlayoffs(standings, matches).value;
    var kept := Regular(matches);
    RegularOfRegular(matches);
    RegularDropsSemis(kept, d.matches[|kept|], d.matches[|kept| + 1]);
    assert d.matches == kept + [d.matches[|kept|], d.matches[|kept| + 1]];
  }

  /** Deleting the playoff matches from the regular matches plus two playoff matches leaves the regular ones. */
  lemma RegularDropsSemis(kept: seq<SeasonMatch>, a: SeasonMatch, b: SeasonMatch)
    requires Regular(kept) == kept && a.isPlayoff && b.isPlayoff
    ensures Regular(kept + [a, b]) == kept
  {
    RegularAppend(kept, [a, b]);
    assert [a, b] == [a] + [b];
    RegularAppend([a], [b]);
  }

  /** With four different seeded teams, each of them plays exactly one semi-final and nobody plays themself. */
  lemma SemisSeatEachSeedOnce(standings: seq<Standing>, matches: seq<SeasonMatch>, t: int)
    requires |standings| >= 4 && Distinct(GeneratePlayoffs(standings, matches).value.seeds)
    ensures var d := GeneratePlayoffs(standings, matches).value;
            var semis := d.matches[|d.matches| - 2..];
            var plays := (if t in {semis[0].fixture.home, semis[0].fixture.away} then 1 else 0)
                         + (if t in {semis[1].fixture.home, semis[1].fixture.away} then 1 else 0);
            && semis[0].fixture.home != semis[0].fixture.away
            && semis[1].fixture.home != semis[1].fixture.away
            && plays == if t in d.seeds then 1 else 0
  {
    DrawMatches(standings, matches);
    var d := GeneratePlayoffs(standings, matches).value;
    assert d.seeds[0] != d.seeds[1] && d.seeds[0] != d.seeds[2] && d.seeds[0] != d.seeds[3];
    assert d.seeds[1] != d.seeds[2] && d.seeds[1] != d.seeds[3] && d.seeds[2] != d.seeds[3];
    assert d.seeds == [d.seeds[0], d.seeds[1], d.seeds[2], d.seeds[3]];
  }
}

=== FILE: settings.dfy ===
/**
 * The fast-entry score list of the settings page: the quick-pick scores of the
 * X01 numpad, kept in ascending order without repeats.  The text box is read
 * with `Number(...)`; the model takes the parsed value, `None` for NaN.
 */
module Settings {
  import opened Base
  import opened Sorting

  /** The numeric comparator `(a, b) => a - b` sorts by the value itself. */
  function Face(v: int): int { v }

  /** Ascending and without repeats: the shape the settings keep. */
  predicate Increasing(scores: seq<int>)
  {
    forall i, j :: 0 <= i < j < |scores| ==> scores[i] < scores[j]
  }

  /** The quick-pick scores of a fresh install. */
  const DefaultFastScores: seq<int> := [26, 40, 41, 43, 60, 100]

  /** The default list already has the shape the page keeps. */
  lemma DefaultIsIncreasing()
    ensures Increasing(DefaultFastScores)
  {
  }

  /** `addFastScore` keeps a value that is a number, not 0, within 0..180 and not yet listed. */
  predicate Accepted(scores: seq<int>, input: Option<int>)
  {
    input.Some? && input.value != 0 && 0 <= input.value <= 180 && input.value !in scores
  }

  /** `addFastScore`: a rejected value leaves the list alone; an accepted one is appended and the list sorted. */
  function AddFastScore(scores: seq<int>, input: Option<int>): (r: seq<int>)
    ensures input.None? ==> r == scores
    ensures r == scores || (input.Some? && 0 < input.value <= 180 && input.value !in scores && |r| == |scores| + 1)
  {
    if input.None? || input.value == 0 || input.value < 0 || input.value > 180 || input.value in scores then scores
    else SortBy(scores + [input.value], Face)
  }

  /** `removeFastScore`: every copy of `score` is dropped, the rest kept in order. */
  function RemoveFastScore(scores: seq<int>, score: int): (r: seq<int>)
    ensures |r| <= |scores|
    decreases |scores|
  {
    if |scores| == 0 then []
    else RemoveFastScore(scores[..|scores| - 1], score)
         + (if scores[|scores| - 1] == score then [] else [scores[|scores| - 1]])
  }

  /** A rejected value changes nothing; an accepted one is added once, and the result is sorted ascending. */
  lemma AddFastScoreSpec(scores: seq<int>, input: Option<int>)
    ensures !Accepted(scores, input) ==> AddFastScore(scores, input) == scores
    ensures Accepted(scores, input) ==>
              && multiset(AddFastScore(scores, input)) == multiset(scores) + multiset{input.value}
              && SortedBy(AddFastScore(scores, input), Face)
  {
    if Accepted(scores, input) {
      SortByOrders(scores + [input.value], Face);
    }
  }

  /** The list stays ascending and without repeats, and holds exactly the old values plus the accepted one. */
  lemma AddKeepsIncreasing(scores: seq<int>, input: Option<int>)
    requires Increasing(scores)
    ensures Increasing(AddFastScore(scores, input))
    ensures forall v :: v in AddFastScore(scores, input) <==> v in scores || (Accepted(scores, input) && v == input.value)
  {
    var r := AddFastScore(scores, input);
    if Accepted(scores, input) {
      var grown := scores + [input.value];
      AddFastScoreSpec(scores, input);
      assert Distinct(grown) by {
        forall i, j | 0 <= i < j < |grown| ensures grown[i] != grown[j] {
          if j < |scores| {
            assert scores[i] < scores[j];
          } else {
            assert grown[i] in scores;
          }
        }
      }
      DistinctPermutation(grown, r);
      forall v ensures v in r <==> v in grown {
        assert v in r <==> v in multiset(r);
        assert v in grown <==> v in multiset(grown);
      }
    }
  }

  /** Removing keeps exactly the other values. */
  lemma {:induction false} RemoveMembers(scores: seq<int>, score: int, v: int)
    ensures v in RemoveFastScore(scores, score) <==> v in scores && v != score
    decreases |scores|
  {
    if |scores| > 0 {
      var init := scores[..|scores| - 1];
      RemoveMembers(init, score, v);
      assert scores == init + [scores[|scores| - 1]];
    }
  }

  /** Removing keeps the remaining values in their order: an ascending list stays ascending. */
  lemma {:induction false} RemoveKeepsIncreasing(scores: seq<int>, score: int)
    requires Increasing(scores)
    ensures Increasing(RemoveFastScore(scores, score))
    decreases |scores|
  {
    if |scores| > 0 {
      var init := scores[..|scores| - 1];
      var last := scores[|scores| - 1];
      RemoveKeepsIncreasing(init, score);
      var kept := RemoveFastScore(init, score);
      if last != score {
        var r := kept + [last];
        forall i | 0 <= i < |kept| ensures kept[i] < last {
          RemoveMembers(init, score, kept[i]);
          var k :| 0 <= k < |init| && init[k] == kept[i];
        }
        assert forall i, j :: 0 <= i < j < |r| ==> r[i] < r[j] by {
          forall i, j | 0 <= i < j < |r| ensures r[i] < r[j] {
            if j < |kept| {
              assert r[i] == kept[i] && r[j] == kept[j];
            }
          }
        }
      }
    }
  }

  /** Two ascending lists with the same values are the same list. */
  lemma {:induction false} IncreasingUnique(a: seq<int>, b: seq<int>)
    requires Increasing(a) && Increasing(b)
    requires forall v :: v in a <==> v in b
    ensures a == b
    decreases |a| + |b|
  {
    if |a| > 0 {
      assert a[0] in a;
    }
    if |b| > 0 {
      assert b[0] in b;
    }
    if |a| > 0 && |b| > 0 {
      var ha, hb := a[0], b[0];
      assert ha in b && hb in a;
      var k :| 0 <= k < |b| && b[k] == ha;
      var l :| 0 <= l < |a| && a[l] == hb;
      assert ha == hb;
      var ta, tb := a[1..], b[1..];
      forall v ensures v in ta <==> v in tb {
        if v in ta {
          var k :| 0 <= k < |ta| && ta[k] == v;
          assert a[0] < a[k + 1];
          assert v in b;
        }
        if v in tb {
          var k :| 0 <= k < |tb| && tb[k] == v;
          assert b[0] < b[k + 1];
          assert v in a;
        }
      }
      IncreasingUnique(ta, tb);
      assert a == [ha] + ta && b == [hb] + tb;
    }
  }

  /** Removing a score just added gives the list back. */
  lemma RemoveUndoesAdd(scores: seq<int>, input: Option<int>)
    requires Increasing(scores) && Accepted(scores, input)
    ensures RemoveFastScore(AddFastScore(scores, input), input.value) == scores
  {
    var added := AddFastScore(scores, input);
    var r := RemoveFastScore(added, input.value);
    AddKeepsIncreasing(scores, input);
    RemoveKeepsIncreasing(added, input.value);
    forall v ensures v in r <==> v in scores {
      RemoveMembers(added, input.value, v);
    }
    IncreasingUnique(r, scores);
  }
}

=== FILE: sorting.dfy ===
/**
 * The stable sort the client uses (`Array.prototype.sort` with a numeric
 * comparator `(a, b) => key(a) - key(b)`), modelled as an insertion sort on an
 * integer key.  A descending comparator `(a, b) => key(b) - key(a)` is the same
 * sort on the negated key.
 */
module Sorting {

  predicate SortedBy<T>(s: seq<T>, key: T -> int)
  {
    forall i, j :: 0 <= i < j < |s| ==> key(s[i]) <= key(s[j])
  }

  /** The elements of `s` whose key is `k`, in their order in `s`. */
  function WithKey<T>(s: seq<T>, key: T -> int, k: int): seq<T>
    decreases |s|
  {
    if |s| == 0 then []
    else (if key(s[0]) == k then [s[0]] else []) + WithKey(s[1..], key, k)
  }

  /** Places `x` after every element whose key is at most its own. */
  function Insert<T>(x: T, s: seq<T>, key: T -> int): (r: seq<T>)
    ensures |r| == |s| + 1
    decreases |s|
  {
    if |s| == 0 then [x]
    else if key(s[0]) <= key(x) then [s[0]] + Insert(x, s[1..], key)
    else [x] + s
  }

  /** Sorts by ascending key, inserting the elements left to right. */
  function SortBy<T>(s: seq<T>, key: T -> int): (r: seq<T>)
    ensures |r| == |s|
    decreases |s|
  {
    if |s| == 0 then [] else Insert(s[|s| - 1], SortBy(s[..|s| - 1], key), key)
  }

  lemma {:induction false} InsertLowerBound<T>(x: T, s: seq<T>, key: T -> int, b: int)
    requires key(x) >= b
    requires forall i :: 0 <= i < |s| ==> key(s[i]) >= b
    ensures forall i :: 0 <= i < |Insert(x, s, key)| ==> key(Insert(x, s, key)[i]) >= b
    decreases |s|
  {
    if |s| > 0 && key(s[0]) <= key(x) {
      InsertLowerBound(x, s[1..], key, b);
    }
  }

  lemma {:induction false} InsertKeepsOrder<T>(x: T, s: seq<T>, key: T -> int)
    requires SortedBy(s, key)
    ensures SortedBy(Insert(x, s, key), key)
    decreases |s|
  {
    if |s| > 0 {
      if key(s[0]) <= key(x) {
        var t := Insert(x, s[1..], key);
        InsertKeepsOrder(x, s[1..], key);
        InsertLowerBound(x, s[1..], key, key(s[0]));
        var r := [s[0]] + t;
        forall i, j | 0 <= i < j < |r|
          ensures key(r[i]) <= key(r[j])
        {
          if i > 0 {
            assert r[i] == t[i - 1] && r[j] == t[j - 1];
          } else {
            assert r[j] == t[j - 1];
          }
        }
      } else {
        var r := [x] + s;
        forall i, j | 0 <= i < j < |r|
          ensures key(r[i]) <= key(r[j])
        {
          assert r[j] == s[j - 1];
          if i > 0 {
            assert r[i] == s[i - 1];
          } else {
            assert key(s[0]) <= key(s[j - 1]);
          }
        }
      }
    }
  }

  lemma {:induction false} InsertPermutes<T>(x: T, s: seq<T>, key: T -> int)
    ensures multiset(Insert(x, s, key)) == multiset(s) + multiset{x}
    decreases |s|
  {
    if |s| > 0 {
      assert s == [s[0]] + s[1..];
      if key(s[0]) <= key(x) {
        InsertPermutes(x, s[1..], key);
      }
    }
  }

  lemma {:induction false} SortByOrders<T>(s: seq<T>, key: T -> int)
    ensures SortedBy(SortBy(s, key), key)
    ensures multiset(SortBy(s, key)) == multiset(s)
    decreases |s|
  {
    if |s| > 0 {
      SortByOrders(s[..|s| - 1], key);
      InsertKeepsOrder(s[|s| - 1], SortBy(s[..|s| - 1], key), key);
      InsertPermutes(s[|s| - 1], SortBy(s[..|s| - 1], key), key);
      assert s == s[..|s| - 1] + [s[|s| - 1]];
    }
  }

  lemma {:induction false} WithKeyAppend<T>(a: seq<T>, b: seq<T>, key: T -> int, k: int)
    ensures WithKey(a + b, key, k) == WithKey(a, key, k) + WithKey(b, key, k)
    decreases |a|
  {
    if |a| > 0 {
      assert (a + b)[1..] == a[1..] + b;
      WithKeyAppend(a[1..], b, key, k);
    } else {
      assert a + b == b;
    }
  }

  /** A list whose keys all exceed `k` has no element with key `k`. */
  lemma {:induction false} WithKeyAbove<T>(s: seq<T>, key: T -> int, k: int)
    requires forall i :: 0 <= i < |s| ==> key(s[i]) > k
    ensures WithKey(s, key, k) == []
    decreases |s|
  {
    if |s| > 0 {
      WithKeyAbove(s[1..], key, k);
    }
  }

  lemma WithKeyCons<T>(y: T, t: seq<T>, key: T -> int, k: int)
    ensures WithKey([y] + t, key, k) == (if key(y) == k then [y] else []) + WithKey(t, key, k)
  {
    assert ([y] + t)[1..] == t;
  }

  lemma {:induction false} InsertIsStable<T>(x: T, s: seq<T>, key: T -> int, k: int)
    requires SortedBy(s, key)
    ensures WithKey(Insert(x, s, key), key, k)
         == WithKey(s, key, k) + (if key(x) == k then [x] else [])
    decreases |s|
  {
    if |s| == 0 {
      WithKeyCons(x, [], key, k);
    } else if key(s[0]) <= key(x) {
      InsertIsStable(x, s[1..], key, k);
      WithKeyCons(s[0], Insert(x, s[1..], key), key, k);
      WithKeyCons(s[0], s[1..], key, k);
      assert s == [s[0]] + s[1..];
    } else {
      WithKeyCons(x, s, key, k);
      if key(x) == k {
        WithKeyAbove(s, key, k);
      }
    }
  }

  /**
   * Stability: equal keys keep their relative order.  Together with
   * `SortByOrders` this pins the result down completely.
   */
  lemma {:induction false} SortByIsStable<T>(s: seq<T>, key: T -> int, k: int)
    ensures WithKey(SortBy(s, key), key, k) == WithKey(s, key, k)
    decreases |s|
  {
    if |s| > 0 {
      var init, last := s[..|s| - 1], s[|s| - 1];
      SortByIsStable(init, key, k);
      SortByOrders(init, key);
      InsertIsStable(last, SortBy(init, key), key, k);
      assert s == init + [last];
      WithKeyAppend(init, [last], key, k);
      WithKeyCons(last, [], key, k);
      assert [last] + [] == [last];
    }
  }
}

=== FILE: turn_order.dfy ===
/**
 * Whose turn it is.  Every scoreboard builds the same throw order: the home
 * and away rosters interleaved position by position, unless the player list it
 * was handed starts with somebody else (a cork or auto-derived order), in which
 * case that list is used as given.  The thrower is the order entry at
 * `turns mod |order|` and the round is `turns div |order| + 1`.
 */
module TurnOrder {
  import opened Base
  import opened Records

  /** The players of one side, in roster order (`players.filter(p => p.TeamSeasonID === team)`). */
  function OnSide(players: seq<GamePlayer>, team: int): (r: seq<GamePlayer>)
    ensures forall i :: 0 <= i < |r| ==> r[i].teamSeasonId == team
    decreases |players|
  {
    if |players| == 0 then []
    else if players[0].teamSeasonId == team then [players[0]] + OnSide(players[1..], team)
    else OnSide(players[1..], team)
  }

  /** A member of a side list is on that side. */
  lemma OnSideMember(players: seq<GamePlayer>, team: int, x: GamePlayer)
    requires x in OnSide(players, team)
    ensures x.teamSeasonId == team
  {
  }

  /** The side list holds every player of that side as often as the roster does, and nobody else. */
  lemma {:induction false} OnSideCounts(players: seq<GamePlayer>, team: int, p: GamePlayer)
    ensures multiset(OnSide(players, team))[p] == if p.teamSeasonId == team then multiset(players)[p] else 0
    decreases |players|
  {
    if |players| > 0 {
      OnSideCounts(players[1..], team, p);
      assert players == [players[0]] + players[1..];
    }
  }

  lemma {:induction false} OnSideAppend(x: seq<GamePlayer>, y: seq<GamePlayer>, team: int)
    ensures OnSide(x + y, team) == OnSide(x, team) + OnSide(y, team)
    decreases |x|
  {
    if |x| > 0 {
      assert (x + y)[1..] == x[1..] + y;
      OnSideAppend(x[1..], y, team);
    } else {
      assert x + y == y;
    }
  }

  /** A list all on one side filters to itself for that side and to nothing for any other. */
  lemma {:induction false} OnSideOfOneSide(s: seq<GamePlayer>, team: int, other: int)
    requires team != other
    requires forall i :: 0 <= i < |s| ==> s[i].teamSeasonId == team
    ensures OnSide(s, team) == s && OnSide(s, other) == []
    decreases |s|
  {
    if |s| > 0 {
      OnSideOfOneSide(s[1..], team, other);
      assert s == [s[0]] + s[1..];
    }
  }

  /** A roster listing one side's players, then the other's, filters back to the two blocks. */
  lemma SidesOfTwoBlocks(x: seq<GamePlayer>, y: seq<GamePlayer>, home: int, away: int)
    requires home != away
    requires forall i :: 0 <= i < |x| ==> x[i].teamSeasonId == home
    requires forall i :: 0 <= i < |y| ==> y[i].teamSeasonId == away
    ensures OnSide(x + y, home) == x && OnSide(x + y, away) == y
  {
    OnSideAppend(x, y, home);
    OnSideAppend(x, y, away);
    OnSideOfOneSide(x, home, away);
    OnSideOfOneSide(y, away, home);
    assert x + [] == x && [] + y == y;
  }

  /** When every player sits on one of two distinct sides, the two side lists split the roster. */
  lemma {:induction false} SidesSplitRoster(players: seq<GamePlayer>, home: int, away: int)
    requires home != away
    requires forall i :: 0 <= i < |players| ==> players[i].teamSeasonId in {home, away}
    ensures multiset(OnSide(players, home)) + multiset(OnSide(players, away)) == multiset(players)
    decreases |players|
  {
    if |players| > 0 {
      SidesSplitRoster(players[1..], home, away);
      assert players == [players[0]] + players[1..];
    }
  }

  /** The natural order: `a[0], b[0], a[1], b[1], ...`, with the longer side's leftovers at the end. */
  function Interleave(a: seq<GamePlayer>, b: seq<GamePlayer>): (r: seq<GamePlayer>)
    ensures |r| == |a| + |b|
    decreases |a| + |b|
  {
    if |a| == 0 then b
    else if |b| == 0 then a
    else [a[0], b[0]] + Interleave(a[1..], b[1..])
  }

  /** Interleaving places `a[i]` at `2i` and `b[i]` at `2i+1` while both sides have an i-th player. */
  lemma {:induction false} InterleaveAt(a: seq<GamePlayer>, b: seq<GamePlayer>, i: nat)
    requires i < |a| && i < |b|
    ensures Interleave(a, b)[2 * i] == a[i]
    ensures Interleave(a, b)[2 * i + 1] == b[i]
    decreases i
  {
    if i > 0 {
      InterleaveAt(a[1..], b[1..], i - 1);
    }
  }

  /** Interleaving loses and invents nobody. */
  lemma {:induction false} InterleavePermutes(a: seq<GamePlayer>, b: seq<GamePlayer>)
    ensures multiset(Interleave(a, b)) == multiset(a) + multiset(b)
    decreases |a| + |b|
  {
    if |a| > 0 && |b| > 0 {
      InterleavePermutes(a[1..], b[1..]);
      InterleaveStep(a, b);
      HeadSplit(a);
      HeadSplit(b);
    }
  }

  /** One step of the interleave, as multisets: the two heads and the interleaved tails. */
  lemma InterleaveStep(a: seq<GamePlayer>, b: seq<GamePlayer>)
    requires |a| > 0 && |b| > 0
    ensures multiset(Interleave(a, b)) == multiset{a[0], b[0]} + multiset(Interleave(a[1..], b[1..]))
  {
    assert Interleave(a, b) == [a[0], b[0]] + Interleave(a[1..], b[1..]);
  }

  /** A non-empty list is its head and its tail. */
  lemma HeadSplit(a: seq<GamePlayer>)
    requires |a| > 0
    ensures multiset(a) == multiset{a[0]} + multiset(a[1..])
  {
    assert a == [a[0]] + a[1..];
  }

  function NaturalOrder(players: seq<GamePlayer>, home: int, away: int): seq<GamePlayer>
  {
    Interleave(OnSide(players, home), OnSide(players, away))
  }

  /** The passed list counts as a custom order only when its first player differs from the natural first. */
  predicate IsCustom(players: seq<GamePlayer>, home: int, away: int)
  {
    var natural := NaturalOrder(players, home, away);
    |players| > 0 && |natural| > 0 && players[0].playerId != natural[0].playerId
  }

  /** The scoreboards' `turnOrder`. */
  function ResolveOrder(players: seq<GamePlayer>, home: int, away: int): (r: seq<GamePlayer>)
    ensures IsCustom(players, home, away) ==> r == players
    ensures !IsCustom(players, home, away) ==> r == NaturalOrder(players, home, away)
  {
    if IsCustom(players, home, away) then players else NaturalOrder(players, home, away)
  }

  /** Whichever list is chosen, it is a rearrangement of the roster when every player is on one of the two sides. */
  lemma ResolvedOrderIsRoster(players: seq<GamePlayer>, home: int, away: int)
    requires home != away
    requires forall i :: 0 <= i < |players| ==> players[i].teamSeasonId in {home, away}
    ensures multiset(ResolveOrder(players, home, away)) == multiset(players)
  {
    SidesSplitRoster(players, home, away);
    InterleavePermutes(OnSide(players, home), OnSide(players, away));
  }

  /** Every player the order names is on the roster. */
  lemma OrderDrawsFromRoster(players: seq<GamePlayer>, home: int, away: int, x: GamePlayer)
    requires x in ResolveOrder(players, home, away)
    ensures x in players
  {
    if !IsCustom(players, home, away) {
      InterleavePermutes(OnSide(players, home), OnSide(players, away));
      OnSideCounts(players, home, x);
      OnSideCounts(players, away, x);
      assert multiset(NaturalOrder(players, home, away))[x] > 0;
      assert multiset(players)[x] > 0;
    }
  }

  /** Position of the current thrower in the order (0 with an empty order). */
  function ThrowerIndex(order: seq<GamePlayer>, turnsTaken: nat): (k: nat)
    ensures |order| > 0 ==> k < |order| && (CurrentRound(order, turnsTaken) - 1) * |order| + k == turnsTaken
    ensures |order| == 0 ==> k == 0
  {
    if |order| > 0 then turnsTaken % |order| else 0
  }

  /** `currentPlayer`: None when nobody is on the order. */
  function CurrentThrower(order: seq<GamePlayer>, turnsTaken: nat): (r: Option<GamePlayer>)
    ensures r.Some? <==> |order| > 0
    ensures r.Some? ==> r.value in order
  {
    if |order| > 0 then Some(order[ThrowerIndex(order, turnsTaken)]) else None
  }

  /** `currentRound`: 1 for the first pass through the order, then one more per full pass. */
  function CurrentRound(order: seq<GamePlayer>, turnsTaken: nat): int
  {
    if |order| > 0 then turnsTaken / |order| + 1 else 1
  }

  /** One full pass through the order brings back the same thrower, one round later. */
  lemma {:induction false} FullPassRepeats(order: seq<GamePlayer>, turnsTaken: nat)
    requires |order| > 0
    ensures CurrentThrower(order, turnsTaken + |order|) == CurrentThrower(order, turnsTaken)
    ensures CurrentRound(order, turnsTaken + |order|) == CurrentRound(order, turnsTaken) + 1
  {
    var n := |order|;
    assert turnsTaken == (turnsTaken / n) * n + turnsTaken % n;
    assert turnsTaken + n == (turnsTaken / n + 1) * n + turnsTaken % n;
    DivModUnique(turnsTaken + n, n, turnsTaken / n + 1, turnsTaken % n);
  }

  /**
   * Two home players A, B against away players C, D with no custom order throw
   * A, C, B, D; after four turns the order starts again with A in round 2.
   */
  lemma FourPlayerRotation()
    ensures var order := ResolveOrder(FourPlayers(), 10, 20);
            && order == [FourPlayers()[0], FourPlayers()[2], FourPlayers()[1], FourPlayers()[3]]
            && CurrentThrower(order, 1) == Some(FourPlayers()[2])
            && CurrentThrower(order, 4) == Some(FourPlayers()[0])
            && CurrentRound(order, 4) == 2
  {
    var ps := FourPlayers();
    var a, b, c, d := ps[0], ps[1], ps[2], ps[3];
    FourPlayersNaturalOrder();
    var order := [a, c, b, d];
    assert ResolveOrder(ps, 10, 20) == order;
    DivModUnique(4, 4, 1, 0);
    DivModUnique(1, 4, 0, 1);
    assert ThrowerIndex(order, 4) == 0;
    assert ThrowerIndex(order, 1) == 1;
  }

  function FourPlayers(): seq<GamePlayer>
  {
    [GamePlayer(1, 10, 1), GamePlayer(2, 10, 2), GamePlayer(3, 20, 1), GamePlayer(4, 20, 2)]
  }

  lemma FourPlayersNaturalOrder()
    ensures var ps := FourPlayers(); NaturalOrder(ps, 10, 20) == [ps[0], ps[2], ps[1], ps[3]]
  {
    var ps := FourPlayers();
    var a, b, c, d := ps[0], ps[1], ps[2], ps[3];
    var home := OnSideStep(ps, 10);
    var away := OnSideStep(ps, 20);
    assert home == [a, b];
    assert away == [c, d];
    assert Interleave([b], [d]) == [b, d];
  }

  lemma OnSideStep(ps: seq<GamePlayer>, team: int) returns (r: seq<GamePlayer>)
    requires ps == FourPlayers()
    ensures r == OnSide(ps, team)
    ensures team == 10 ==> r == [ps[0], ps[1]]
    ensures team == 20 ==> r == [ps[2], ps[3]]
  {
    var a, b, c, d := ps[0], ps[1], ps[2], ps[3];
    assert ps[1..] == [b, c, d];
    assert [b, c, d][1..] == [c, d];
    assert [c, d][1..] == [d];
    assert [d][1..] == [];
    var s3 := OnSide([d], team);
    var s2 := OnSide([c, d], team);
    var s1 := OnSide([b, c, d], team);
    r := OnSide(ps, team);
    if team == 10 {
      assert s3 == [];
      assert s2 == [];
      assert s1 == [b];
      assert r == [a, b];
    } else if team == 20 {
      assert s3 == [d];
      assert s2 == [c, d];
      assert s1 == [c, d];
      assert r == [c, d];
    }
  }
}

=== FILE: x01.dfy ===
/**
 * X01 scoring: each side counts down from a target (501 by default) and must
 * finish exactly on zero.  Two entry modes exist.  In dart mode every dart is
 * entered and checked as it lands; a bust records a zero-score turn.  In
 * turn-total mode only the turn's total is entered; a bust is refused and no
 * turn is stored.  With double-in required, a side scores nothing until its
 * first double.
 */
module X01 {
  import opened Base
  import opened Records
  import TurnOrder

  const MaxDartsPerTurn: nat := 3
  const MaxTurnTotal := 180
  const DefaultTarget := 501

  /** `game.X01Target || 501`. */
  function TargetOf(x01Target: Option<int>): (t: int)
    ensures t != 0
    ensures x01Target.Some? && x01Target.value != 0 ==> t == x01Target.value
  {
    if x01Target.Some? && x01Target.value != 0 then x01Target.value else DefaultTarget
  }

  predicate IsDouble(d: Dart)
  {
    d.multiplier == 2
  }

  /** Points of one dart (`calcDartScore`). */
  function DartScore(d: Dart): (v: int)
    ensures ValidDart(d) ==> 0 <= v <= 60
    ensures ValidDart(d) ==> (v == 0 <==> d.segment == Miss)
    ensures ValidDart(d) && IsDouble(d) ==> v >= 2 && v % 2 == 0
  {
    match d.segment
    case Miss => 0
    case Bullseye => if d.multiplier == 2 then 50 else 25
    case Number(n) =>
      if d.multiplier == 1 then n
      else if d.multiplier == 2 then 2 * n
      else if d.multiplier == 3 then 3 * n
      else n * d.multiplier
  }

  predicate AllValid(darts: seq<Dart>)
  {
    forall i :: 0 <= i < |darts| ==> ValidDart(darts[i])
  }

  function Scores(darts: seq<Dart>): (r: seq<int>)
    ensures |r| == |darts|
    ensures forall i :: 0 <= i < |darts| ==> r[i] == DartScore(darts[i])
  {
    seq(|darts|, i requires 0 <= i < |darts| => DartScore(darts[i]))
  }

  /** Raw total of the darts, `darts.reduce((s, d) => s + d.score, 0)`. */
  function RawTotal(darts: seq<Dart>): int
  {
    Sum(Scores(darts))
  }

  /** Index of the first double (`findIndex(isDouble)`), None for -1. */
  function FirstDouble(darts: seq<Dart>): (r: Option<nat>)
    ensures r.None? <==> forall i :: 0 <= i < |darts| ==> !IsDouble(darts[i])
    ensures r.Some? ==> r.value < |darts| && IsDouble(darts[r.value])
    ensures r.Some? ==> forall j :: 0 <= j < r.value ==> !IsDouble(darts[j])
    decreases |darts|
  {
    if |darts| == 0 then None
    else if IsDouble(darts[0]) then Some(0)
    else match FirstDouble(darts[1..])
      case None => None
      case Some(k) => Some(k + 1)
  }

  /**
   * Points a turn's darts count for (`getEffectiveTurnScore`): everything when
   * no double-in is needed or the side is already in, otherwise only the darts
   * from the first double on.
   */
  function EffectiveTurnScore(darts: seq<Dart>, needDoubleIn: bool, alreadyDoubledIn: bool): (r: int)
    ensures !needDoubleIn || alreadyDoubledIn ==> r == RawTotal(darts)
    ensures needDoubleIn && !alreadyDoubledIn && (forall i :: 0 <= i < |darts| ==> !IsDouble(darts[i])) ==> r == 0
    ensures needDoubleIn && !alreadyDoubledIn ==>
              forall i :: 0 <= i < |darts| && IsDouble(darts[i]) && (forall j :: 0 <= j < i ==> !IsDouble(darts[j]))
                ==> r == RawTotal(darts[i..])
    ensures AllValid(darts) ==> 0 <= r <= RawTotal(darts)
  {
    if !needDoubleIn || alreadyDoubledIn then
      RawSuffixBounded(darts, 0);
      RawTotal(darts)
    else
      match FirstDouble(darts)
      case None =>
        RawSuffixBounded(darts, 0);
        0
      case Some(k) =>
        RawSuffixBounded(darts, k);
        RawTotal(darts[k..])
  }

  /** With valid darts, a suffix of the turn scores between 0 and the whole turn. */
  lemma RawSuffixBounded(darts: seq<Dart>, k: nat)
    requires k <= |darts|
    ensures AllValid(darts) ==> 0 <= RawTotal(darts[k..]) <= RawTotal(darts)
    ensures AllValid(darts) ==> 0 <= RawTotal(darts)
  {
    if AllValid(darts) {
      assert darts[0..] == darts;
      SumNonNegative(Scores(darts));
      assert Scores(darts)[k..] == Scores(darts[k..]);
      SumSuffixBounded(Scores(darts), k);
      SumNonNegative(Scores(darts[k..]));
    }
  }

  /** `getX01AllStarLevel`: the score doubled for a double-in or game-out turn, against 171 / 126 / 95. */
  function X01AllStarLevel(score: int, isDoubleIn: bool, isGameOut: bool): (l: AllStarLevel)
    ensures score <= 0 ==> l == NoStar
    ensures var a := if isDoubleIn || isGameOut then 2 * score else score;
      (Rank(l) >= 1 <==> a >= 95) && (Rank(l) >= 2 <==> a >= 126) && (Rank(l) >= 3 <==> a >= 171)
  {
    var adjusted := if isDoubleIn || isGameOut then score * 2 else score;
    if adjusted >= 171 then TripleAllStar
    else if adjusted >= 126 then DoubleAllStar
    else if adjusted >= 95 then AllStar
    else NoStar
  }

  /** A higher score never earns a lower tier. */
  lemma AllStarMonotone(s1: int, s2: int, isDoubleIn: bool, isGameOut: bool)
    requires s1 <= s2
    ensures Rank(X01AllStarLevel(s1, isDoubleIn, isGameOut)) <= Rank(X01AllStarLevel(s2, isDoubleIn, isGameOut))
  {
  }

  /** A double-in or game-out turn earns the tier of a plain turn worth twice as much. */
  lemma AllStarDoubledTurn(score: int, isDoubleIn: bool, isGameOut: bool)
    requires isDoubleIn || isGameOut
    ensures X01AllStarLevel(score, isDoubleIn, isGameOut) == X01AllStarLevel(2 * score, false, false)
  {
  }

  // ------------------------------------------------------------------
  // Side state as a fold over the turn log
  // ------------------------------------------------------------------

  /** One side's running X01 state (`teamScores[team]`). */
  datatype SideScore = SideScore(total: int, remaining: int, hasDoubledIn: bool)

  /** Folds the turn log for one side, skipping the other side's turns. */
  function Tally(turns: seq<Turn>, team: int, target: int): (s: SideScore)
    ensures s.remaining == target - s.total
    decreases |turns|
  {
    if |turns| == 0 then SideScore(0, target, false)
    else
      var prev := Tally(turns[..|turns| - 1], team, target);
      var t := turns[|turns| - 1];
      if t.teamSeasonId == team then
        SideScore(prev.total + t.score, target - (prev.total + t.score), prev.hasDoubledIn || t.isDoubleIn)
      else prev
  }

  /** Scores of one side's turns, in log order. */
  function SideTurnScores(turns: seq<Turn>, team: int): seq<int>
    decreases |turns|
  {
    if |turns| == 0 then []
    else
      var t := turns[|turns| - 1];
      SideTurnScores(turns[..|turns| - 1], team) + (if t.teamSeasonId == team then [t.score] else [])
  }

  predicate DoubledInBy(turns: seq<Turn>, team: int)
  {
    exists i :: 0 <= i < |turns| && turns[i].teamSeasonId == team && turns[i].isDoubleIn
  }

  /**
   * The fold in closed form: remaining is the target minus the sum of that
   * side's scores, and the side is in once any of its turns was a double-in.
   */
  lemma {:induction false} TallyClosedForm(turns: seq<Turn>, team: int, target: int)
    ensures Tally(turns, team, target).total == Sum(SideTurnScores(turns, team))
    ensures Tally(turns, team, target).remaining == target - Sum(SideTurnScores(turns, team))
    ensures Tally(turns, team, target).hasDoubledIn <==> DoubledInBy(turns, team)
    decreases |turns|
  {
    if |turns| > 0 {
      var init, t := turns[..|turns| - 1], turns[|turns| - 1];
      TallyClosedForm(init, team, target);
      SumAppend(SideTurnScores(init, team), if t.teamSeasonId == team then [t.score] else []);
      if DoubledInBy(init, team) {
        var i :| 0 <= i < |init| && init[i].teamSeasonId == team && init[i].isDoubleIn;
        assert turns[i] == init[i];
      }
      if DoubledInBy(turns, team) {
        var i :| 0 <= i < |turns| && turns[i].teamSeasonId == team && turns[i].isDoubleIn;
        if i < |init| {
          assert init[i] == turns[i];
        }
      }
    }
  }

  /** Once a side is in, later turns never take it out again. */
  lemma DoubledInStays(turns: seq<Turn>, later: seq<Turn>, team: int, target: int)
    requires Tally(turns, team, target).hasDoubledIn
    ensures Tally(turns + later, team, target).hasDoubledIn
  {
    TallyClosedForm(turns, team, target);
    TallyClosedForm(turns + later, team, target);
    var i :| 0 <= i < |turns| && turns[i].teamSeasonId == team && turns[i].isDoubleIn;
    assert (turns + later)[i] == turns[i];
  }

  /** `teamScores[currentPlayer.TeamSeasonID]`: only the two sides of the match are tallied. */
  function CurrentSide(turns: seq<Turn>, home: int, away: int, team: int, target: int): (r: Option<SideScore>)
    ensures r.Some? <==> team == home || team == away
    ensures r.Some? ==> r.value == Tally(turns, team, target)
  {
    if team == home || team == away then Some(Tally(turns, team, target)) else None
  }

  /** `currentTeamScore?.remaining || target`: a remaining of 0 (or no side) reads as the target. */
  function BaseRemaining(side: Option<SideScore>, target: int): (b: int)
    ensures side.Some? && side.value.remaining != 0 ==> b == side.value.remaining
    ensures side.None? || side.value.remaining == 0 ==> b == target
  {
    if side.Some? && side.value.remaining != 0 then side.value.remaining else target
  }

  function AlreadyDoubledIn(side: Option<SideScore>): bool
  {
    side.Some? && side.value.hasDoubledIn
  }

  /** What the scoreboard knows when the next entry arrives. */
  datatype X01Context = X01Context(
    thrower: Option<GamePlayer>,
    turnsTaken: nat,
    round: int,
    needDoubleIn: bool,
    side: Option<SideScore>,
    target: int)

  /** The context the scoreboard derives from the roster and the turn log. */
  function ContextFor(turns: seq<Turn>, players: seq<GamePlayer>, home: int, away: int,
                      target: int, needDoubleIn: bool): (c: X01Context)
    ensures c.turnsTaken == |turns|
    ensures c.thrower.Some? ==> c.side == CurrentSide(turns, home, away, c.thrower.value.teamSeasonId, target)
  {
    var order := TurnOrder.ResolveOrder(players, home, away);
    var thrower := TurnOrder.CurrentThrower(order, |turns|);
    X01Context(thrower, |turns|, TurnOrder.CurrentRound(order, |turns|), needDoubleIn,
               if thrower.Some? then CurrentSide(turns, home, away, thrower.value.teamSeasonId, target) else None,
               target)
  }

  /** Remaining after the darts so far, as shown live and checked per dart. */
  function RemainingAfter(ctx: X01Context, darts: seq<Dart>): int
  {
    BaseRemaining(ctx.side, ctx.target) - EffectiveTurnScore(darts, ctx.needDoubleIn, AlreadyDoubledIn(ctx.side))
  }

  // ------------------------------------------------------------------
  // Dart mode
  // ------------------------------------------------------------------

  /** The turn row `finishTurn` stores for a completed or busted dart-mode turn. */
  function FinishTurn(p: GamePlayer, ctx: X01Context, darts: seq<Dart>, isBust: bool): (t: Turn)
    ensures t.playerId == p.playerId && t.teamSeasonId == p.teamSeasonId
    ensures t.turnNumber == ctx.turnsTaken + 1 && t.roundNumber == ctx.round
    ensures t.dartsThrown == |darts|
    ensures t.isDoubleIn <==> ctx.needDoubleIn && !AlreadyDoubledIn(ctx.side) && !isBust
                              && exists i :: 0 <= i < |darts| && IsDouble(darts[i])
    ensures isBust ==> t.score == 0 && t.remainingScore == Some(BaseRemaining(ctx.side, ctx.target))
                       && !t.isGameOut && !t.isDoubleIn
    ensures !isBust ==> t.score == EffectiveTurnScore(darts, ctx.needDoubleIn, AlreadyDoubledIn(ctx.side))
                        && t.remainingScore == Some(BaseRemaining(ctx.side, ctx.target) - t.score)
                        && (t.isGameOut <==> t.score == BaseRemaining(ctx.side, ctx.target))
  {
    var base := BaseRemaining(ctx.side, ctx.target);
    if isBust then
      Turn(p.playerId, p.teamSeasonId, ctx.turnsTaken + 1, ctx.round, |darts|,
           0, Some(base), false, false, None, false, false, Some(DartLog(darts, true)))
    else
      var effective := EffectiveTurnScore(darts, ctx.needDoubleIn, AlreadyDoubledIn(ctx.side));
      var hasDouble := FirstDouble(darts).Some?;
      Turn(p.playerId, p.teamSeasonId, ctx.turnsTaken + 1, ctx.round, |darts|,
           effective, Some(base - effective),
           ctx.needDoubleIn && !AlreadyDoubledIn(ctx.side) && hasDouble,
           base - effective == 0,
           None, false, false, Some(DartLog(darts, false)))
  }

  /** Result of one input on the dart pad. */
  datatype DartStep =
    | Ignored                    // nothing selected, or nobody to throw
    | Selected(segment: DartSegment)
    | Pending(darts: seq<Dart>)  // the turn goes on with these darts
    | Finished(turn: Turn)       // the turn is stored (and the game ends if `turn.isGameOut`)

  /** A turn in progress as the pad can leave it: fewer than 3 darts and at least 2 to go. */
  predicate InProgress(ctx: X01Context, darts: seq<Dart>)
  {
    |darts| < MaxDartsPerTurn && RemainingAfter(ctx, darts) >= 2
  }

  /** The per-dart checks shared by `confirmDart` and a pre-selected tap. */
  function Throw(p: GamePlayer, ctx: X01Context, current: seq<Dart>, dart: Dart): (r: DartStep)
    ensures r.Pending? || r.Finished?
    ensures r.Pending? ==> r.darts == current + [dart] && InProgress(ctx, r.darts)
    ensures r.Finished? ==> r.turn.dartsThrown == |current| + 1
  {
    var all := current + [dart];
    var after := RemainingAfter(ctx, all);
    if after < 0 || after == 1 || (after == 0 && !IsDouble(dart)) then Finished(FinishTurn(p, ctx, all, true))
    else if after == 0 then Finished(FinishTurn(p, ctx, all, false))
    else if |all| >= MaxDartsPerTurn then Finished(FinishTurn(p, ctx, all, false))
    else Pending(all)
  }

  /**
   * The per-dart outcome: a dart leaving below 0, exactly 1, or 0 off a
   * non-double busts, storing a zero-score turn that keeps the remaining; 0 on
   * a double checks out; any other dart ends the turn only if it is the third.
   */
  lemma ThrowOutcome(p: GamePlayer, ctx: X01Context, current: seq<Dart>, dart: Dart)
    ensures var all := current + [dart];
            var after := RemainingAfter(ctx, all);
            var r := Throw(p, ctx, current, dart);
            && (after < 0 || after == 1 || (after == 0 && !IsDouble(dart)) ==>
                  && r.Finished? && r.turn.score == 0
                  && r.turn.remainingScore == Some(BaseRemaining(ctx.side, ctx.target))
                  && !r.turn.isGameOut && !r.turn.isDoubleIn)
            && (after == 0 && IsDouble(dart) ==> r.Finished? && r.turn.isGameOut && r.turn.remainingScore == Some(0))
            && (after >= 2 ==> (r.Finished? <==> |all| >= MaxDartsPerTurn))
            && (after >= 2 && r.Finished? ==> !r.turn.isGameOut && r.turn.remainingScore == Some(after))
  {
  }

  /** `confirmDart`: the pad's multiplier is forced to 0 for a miss. */
  function ConfirmDart(ctx: X01Context, current: seq<Dart>, selected: Option<DartSegment>, multiplier: int): (r: DartStep)
    ensures selected.None? || ctx.thrower.None? <==> r.Ignored?
    ensures selected == Some(Miss) && ctx.thrower.Some? ==> r == Throw(ctx.thrower.value, ctx, current, Dart(Miss, 0))
  {
    if selected.None? || ctx.thrower.None? then Ignored
    else
      var seg := selected.value;
      Throw(ctx.thrower.value, ctx, current, Dart(seg, if seg == Miss then 0 else multiplier))
  }

  /**
   * `handleSegmentTap`: with a multiplier pre-selected the dart is thrown at
   * once (a bull is always a double); otherwise the segment is only selected.
   * With nobody to throw, a finishing dart is dropped by `finishTurn`.
   */
  function SegmentTap(ctx: X01Context, current: seq<Dart>, seg: DartSegment, preselect: Option<int>): (r: DartStep)
    requires seg != Miss
    ensures preselect.None? ==> r == Selected(seg)
    ensures preselect.Some? && ctx.thrower.Some? ==> r.Pending? || r.Finished?
  {
    if preselect.None? then Selected(seg)
    else
      var dart := Dart(seg, if seg == Bullseye then 2 else preselect.value);
      var p := if ctx.thrower.Some? then ctx.thrower.value else GamePlayer(0, 0, 0);
      var step := Throw(p, ctx, current, dart);
      if step.Finished? && ctx.thrower.None? then Ignored else step
  }

  /** `handleMiss`: adds a zero dart and ends the turn at the third dart, with no bust checks. */
  function HandleMiss(ctx: X01Context, current: seq<Dart>): (r: DartStep)
    ensures ctx.thrower.None? <==> r.Ignored?
    ensures r.Pending? ==> r.darts == current + [Dart(Miss, 0)]
    ensures r.Finished? ==> !r.turn.isGameOut || RemainingAfter(ctx, current + [Dart(Miss, 0)]) == 0
  {
    if ctx.thrower.None? then Ignored
    else
      var all := current + [Dart(Miss, 0)];
      if |all| >= MaxDartsPerTurn then Finished(FinishTurn(ctx.thrower.value, ctx, all, false))
      else Pending(all)
  }

  /** A miss adds nothing, whatever the double-in state. */
  lemma EffectiveIgnoresMiss(darts: seq<Dart>, needDoubleIn: bool, alreadyDoubledIn: bool)
    ensures EffectiveTurnScore(darts + [Dart(Miss, 0)], needDoubleIn, alreadyDoubledIn)
         == EffectiveTurnScore(darts, needDoubleIn, alreadyDoubledIn)
  {
    var miss := Dart(Miss, 0);
    var all := darts + [miss];
    RawTotalMiss(darts);
    FirstDoubleMiss(darts);
    if FirstDouble(darts).Some? {
      var k := FirstDouble(darts).value;
      assert all[k..] == darts[k..] + [miss];
      RawTotalMiss(darts[k..]);
    }
  }

  /** A trailing miss leaves the raw total alone. */
  lemma RawTotalMiss(darts: seq<Dart>)
    ensures RawTotal(darts + [Dart(Miss, 0)]) == RawTotal(darts)
  {
    assert Scores(darts + [Dart(Miss, 0)]) == Scores(darts) + [0];
    SumAppend(Scores(darts), [0]);
  }

  /** A trailing miss is not a double, so the first double stays where it was. */
  lemma {:induction false} FirstDoubleMiss(darts: seq<Dart>)
    ensures FirstDouble(darts + [Dart(Miss, 0)]) == FirstDouble(darts)
    decreases |darts|
  {
    var all := darts + [Dart(Miss, 0)];
    if |darts| == 0 {
      assert all[1..] == [];
    } else {
      assert all[1..] == darts[1..] + [Dart(Miss, 0)];
      FirstDoubleMiss(darts[1..]);
    }
  }

  /** On any turn the pad can be in, the MISS shortcut does exactly what confirming a miss does. */
  lemma MissShortcutAgrees(ctx: X01Context, current: seq<Dart>)
    requires ctx.thrower.Some? && InProgress(ctx, current)
    ensures HandleMiss(ctx, current) == ConfirmDart(ctx, current, Some(Miss), 0)
  {
    EffectiveIgnoresMiss(current, ctx.needDoubleIn, AlreadyDoubledIn(ctx.side));
  }

  /**
   * Every dart-mode turn leaves a legal remaining: 0 (a checkout) or at least
   * 2, never 1 and never below 0, given a legal starting remaining.
   */
  lemma DartTurnLeavesLegalRemaining(ctx: X01Context, current: seq<Dart>, dart: Dart)
    requires ctx.thrower.Some? && BaseRemaining(ctx.side, ctx.target) >= 2
    ensures var r := Throw(ctx.thrower.value, ctx, current, dart);
            r.Finished? ==> r.turn.remainingScore.Some?
                            && (r.turn.remainingScore.value == 0 || r.turn.remainingScore.value >= 2)
  {
  }

  /** A dart-mode game-out ends on a double, and the side's whole remaining was scored. */
  lemma DartCheckoutIsDoubleOut(ctx: X01Context, current: seq<Dart>, dart: Dart)
    requires ctx.thrower.Some?
    ensures var r := Throw(ctx.thrower.value, ctx, current, dart);
            r.Finished? && r.turn.isGameOut ==>
              IsDouble(dart) && r.turn.score == BaseRemaining(ctx.side, ctx.target)
              && r.turn.remainingScore == Some(0)
  {
  }

  /** A dart-mode turn scores at most 180 and never below 0. */
  lemma DartTurnAtMost180(ctx: X01Context, current: seq<Dart>, dart: Dart)
    requires ctx.thrower.Some? && |current| < MaxDartsPerTurn
    requires AllValid(current) && ValidDart(dart)
    ensures var r := Throw(ctx.thrower.value, ctx, current, dart);
            r.Finished? ==> 0 <= r.turn.score <= MaxTurnTotal
  {
    var all := current + [dart];
    assert AllValid(all);
    RawTotalAtMost60Each(all);
  }

  lemma {:induction false} RawTotalAtMost60Each(darts: seq<Dart>)
    requires AllValid(darts)
    ensures RawTotal(darts) <= 60 * |darts|
    decreases |darts|
  {
    if |darts| > 0 {
      var init := darts[..|darts| - 1];
      assert AllValid(init);
      assert Scores(darts) == Scores(init) + [DartScore(darts[|darts| - 1])];
      SumAppend(Scores(init), [DartScore(darts[|darts| - 1])]);
      RawTotalAtMost60Each(init);
    }
  }

  /** `handleUndo` on the dart pad. */
  datatype UndoAction = DropDart(darts: seq<Dart>) | UndoStoredTurn | NothingToUndo

  function HandleUndo(current: seq<Dart>, turnsStored: nat): (r: UndoAction)
    ensures |current| > 0 <==> r.DropDart?
    ensures r.DropDart? ==> |r.darts| == |current| - 1 && r.darts == current[..|r.darts|]
    ensures r.UndoStoredTurn? <==> |current| == 0 && turnsStored > 0
  {
    if |current| > 0 then DropDart(current[..|current| - 1])
    else if turnsStored > 0 then UndoStoredTurn
    else NothingToUndo
  }

  /** Undoing a dart that left the turn open restores the darts from before it. */
  lemma UndoDartRestores(ctx: X01Context, current: seq<Dart>, dart: Dart, turnsStored: nat)
    requires ctx.thrower.Some?
    requires Throw(ctx.thrower.value, ctx, current, dart).Pending?
    ensures HandleUndo(Throw(ctx.thrower.value, ctx, current, dart).darts, turnsStored) == DropDart(current)
  {
    assert (current + [dart])[..|current|] == current;
  }

  /**
   * The stored remaining of a turn agrees with the fold over the log once the
   * turn is appended, and the side is in afterwards iff it was before or this
   * turn doubled in.
   */
  lemma RecordedRemainingMatchesTally(turns: seq<Turn>, players: seq<GamePlayer>, home: int, away: int,
                                      target: int, needDoubleIn: bool, darts: seq<Dart>, isBust: bool)
    requires var ctx := ContextFor(turns, players, home, away, target, needDoubleIn);
             ctx.thrower.Some? && ctx.side.Some? && ctx.side.value.remaining != 0
    ensures var ctx := ContextFor(turns, players, home, away, target, needDoubleIn);
            var t := FinishTurn(ctx.thrower.value, ctx, darts, isBust);
            var after := Tally(turns + [t], t.teamSeasonId, target);
            t.remainingScore == Some(after.remaining)
            && (after.hasDoubledIn <==> ctx.side.value.hasDoubledIn || t.isDoubleIn)
  {
    var ctx := ContextFor(turns, players, home, away, target, needDoubleIn);
    var t := FinishTurn(ctx.thrower.value, ctx, darts, isBust);
    TallyAppend(turns, t, target);
  }

  /** Appending a side's own turn adds its score to the tally and ors in its double-in. */
  lemma TallyAppend(turns: seq<Turn>, t: Turn, target: int)
    ensures var before := Tally(turns, t.teamSeasonId, target);
            var after := Tally(turns + [t], t.teamSeasonId, target);
            after.remaining == before.remaining - t.score
            && (after.hasDoubledIn <==> before.hasDoubledIn || t.isDoubleIn)
  {
    assert (turns + [t])[..|turns|] == turns;
  }

  // ------------------------------------------------------------------
  // Turn-total mode
  // ------------------------------------------------------------------

  datatype Rejection = OutOfRange | BelowZero | LeavesOne

  /** Result of submitting a turn total. */
  datatype TurnEntry =
    | NoEntry                 // nobody to throw, or no pending prompt
    | Rejected(why: Rejection)
    | PromptDarts(score: int) // an exact finish asks how many darts were used
    | Recorded(turn: Turn)

  /** `submitTurnScore`; the double-in is assumed for any positive total while the side is not in. */
  function SubmitTurnScore(ctx: X01Context, score: int, dartsOverride: Option<int>): (r: TurnEntry)
    ensures r.Recorded? ==> r.turn.score == score && 0 <= r.turn.score <= MaxTurnTotal
    ensures r.Recorded? ==> r.turn.remainingScore == Some(BaseRemaining(ctx.side, ctx.target) - score)
    ensures r.Recorded? ==> (r.turn.isGameOut <==> score == BaseRemaining(ctx.side, ctx.target))
    ensures r.Recorded? && r.turn.isGameOut ==> dartsOverride.Some?
    ensures r.Recorded? ==> (r.turn.isDoubleIn <==> ctx.needDoubleIn && !AlreadyDoubledIn(ctx.side) && score > 0)
  {
    if ctx.thrower.None? then NoEntry
    else
      var p := ctx.thrower.value;
      var remaining := BaseRemaining(ctx.side, ctx.target) - score;
      if score < 0 || score > MaxTurnTotal then Rejected(OutOfRange)
      else if remaining < 0 then Rejected(BelowZero)
      else if remaining == 1 then Rejected(LeavesOne)
      else if remaining == 0 && dartsOverride.None? then PromptDarts(score)
      else
        var darts := if dartsOverride.Some? && dartsOverride.value != 0 then dartsOverride.value else 3;
        Recorded(Turn(p.playerId, p.teamSeasonId, ctx.turnsTaken + 1, ctx.round, darts,
                      score, Some(remaining),
                      ctx.needDoubleIn && !AlreadyDoubledIn(ctx.side) && score > 0,
                      remaining == 0,
                      None, false, false, Some(TotalLog)))
  }

  /** `confirmDartsAndSubmit`: re-submits the prompted total with the chosen dart count. */
  function ConfirmDartsAndSubmit(ctx: X01Context, prompt: Option<int>, darts: int): (r: TurnEntry)
    ensures prompt.None? ==> r == NoEntry
  {
    if prompt.None? then NoEntry else SubmitTurnScore(ctx, prompt.value, Some(darts))
  }

  /**
   * The turn-total outcomes: anything that would leave the side below 0 or on
   * 1 is refused outright (nothing is stored, unlike a dart-mode bust), and
   * whatever is stored leaves a legal remaining.
   */
  lemma TurnModeBustIsRefused(ctx: X01Context, score: int, dartsOverride: Option<int>)
    requires ctx.thrower.Some? && 0 <= score <= MaxTurnTotal
    ensures var rem := BaseRemaining(ctx.side, ctx.target) - score;
            var r := SubmitTurnScore(ctx, score, dartsOverride);
            && (rem < 0 || rem == 1 <==> r.Rejected?)
            && (r.Recorded? ==> rem == 0 || rem >= 2)
            && (r.PromptDarts? <==> rem == 0 && dartsOverride.None?)
  {
  }

  /**
   * A stored turn total agrees with the fold over the log once appended, and
   * the side is in afterwards iff it was before, or double-in is required and
   * the total is positive.
   */
  lemma TurnTotalMatchesTally(turns: seq<Turn>, players: seq<GamePlayer>, home: int, away: int,
                              target: int, needDoubleIn: bool, score: int, dartsOverride: Option<int>)
    requires var ctx := ContextFor(turns, players, home, away, target, needDoubleIn);
             ctx.side.Some? && ctx.side.value.remaining != 0
    ensures var ctx := ContextFor(turns, players, home, away, target, needDoubleIn);
            var r := SubmitTurnScore(ctx, score, dartsOverride);
            r.Recorded? ==>
              var after := Tally(turns + [r.turn], r.turn.teamSeasonId, target);
              r.turn.remainingScore == Some(after.remaining)
              && (after.hasDoubledIn <==> ctx.side.value.hasDoubledIn || (needDoubleIn && score > 0))
  {
    var ctx := ContextFor(turns, players, home, away, target, needDoubleIn);
    var r := SubmitTurnScore(ctx, score, dartsOverride);
    if r.Recorded? {
      TallyAppend(turns, r.turn, target);
    }
  }

  /** Answering the finish prompt stores the game-out turn with the chosen darts (3 for 0). */
  lemma PromptThenConfirm(ctx: X01Context, score: int, darts: int)
    requires SubmitTurnScore(ctx, score, None) == PromptDarts(score)
    ensures var r := ConfirmDartsAndSubmit(ctx, Some(score), darts);
            r.Recorded? && r.turn.isGameOut && r.turn.score == score
            && r.turn.dartsThrown == (if darts != 0 then darts else 3)
  {
  }

  /**
   * Turn-total mode has no double-out rule: 41 left, a total of 41 is a
   * game-out, while in dart mode T7 then a single 20 for the same 41 busts.
   */
  lemma TurnModeHasNoDoubleOut()
    ensures var p := GamePlayer(1, 10, 1);
            var ctx := X01Context(Some(p), 6, 2, false, Some(SideScore(460, 41, false)), 501);
            && SubmitTurnScore(ctx, 41, Some(2)).Recorded?
            && SubmitTurnScore(ctx, 41, Some(2)).turn.isGameOut
            && Throw(p, ctx, [], Dart(Number(7), 3)) == Pending([Dart(Number(7), 3)])
            && Throw(p, ctx, [Dart(Number(7), 3)], Dart(Number(20), 1)).Finished?
            && Throw(p, ctx, [Dart(Number(7), 3)], Dart(Number(20), 1)).turn.score == 0
  {
    var p := GamePlayer(1, 10, 1);
    var ctx := X01Context(Some(p), 6, 2, false, Some(SideScore(460, 41, false)), 501);
    var d1 := [Dart(Number(7), 3)];
    assert Scores(d1) == [21];
    assert Sum([21]) == Sum([]) + 21;
    var d2 := d1 + [Dart(Number(20), 1)];
    assert Scores(d2) == [21, 20];
    assert [21, 20][..1] == [21];
    assert Sum([21, 20]) == Sum([21]) + 20;
  }

  // ------------------------------------------------------------------
  // Numpad
  // ------------------------------------------------------------------

  /** Keys of the turn-total numpad: CLR, backspace and the digits. */
  datatype NumKey = Clear | Backspace | Digit(d: int)

  predicate ValidKey(k: NumKey)
  {
    k.Digit? ==> 0 <= k.d <= 9
  }

  predicate AllDigits(s: seq<int>)
  {
    forall i :: 0 <= i < |s| ==> 0 <= s[i] <= 9
  }

  /** `Number(s)` of a digit string; the empty string is 0. */
  function DecimalValue(s: seq<int>): (v: int)
    requires AllDigits(s)
    ensures v >= 0
    decreases |s|
  {
    if |s| == 0 then 0 else DecimalValue(s[..|s| - 1]) * 10 + s[|s| - 1]
  }

  /** `handleNumpad`: a digit is kept only while the value stays at most 180. */
  function HandleNumpad(input: seq<int>, key: NumKey): (r: seq<int>)
    requires AllDigits(input) && ValidKey(key)
    ensures AllDigits(r)
    ensures DecimalValue(input) <= MaxTurnTotal ==> DecimalValue(r) <= MaxTurnTotal
    ensures key.Digit? && DecimalValue(input + [key.d]) <= MaxTurnTotal ==> r == input + [key.d]
  {
    match key
    case Clear => []
    case Backspace =>
      if |input| == 0 then []
      else
        assert input == input[..|input| - 1] + [input[|input| - 1]];
        input[..|input| - 1]
    case Digit(d) =>
      var next := input + [d];
      assert next[..|next| - 1] == input;
      if DecimalValue(next) <= MaxTurnTotal then next else input
  }

  function PressKeys(input: seq<int>, keys: seq<NumKey>): (r: seq<int>)
    requires AllDigits(input)
    requires forall i :: 0 <= i < |keys| ==> ValidKey(keys[i])
    ensures AllDigits(r)
    decreases |keys|
  {
    if |keys| == 0 then input else PressKeys(HandleNumpad(input, keys[0]), keys[1..])
  }

  /**
   * Whatever keys are pressed from an empty display, the submitted total
   * (`Number(turnInput) || 0`) is never refused as out of range.
   */
  lemma {:induction false} NumpadTotalsInRange(input: seq<int>, keys: seq<NumKey>)
    requires AllDigits(input) && DecimalValue(input) <= MaxTurnTotal
    requires forall i :: 0 <= i < |keys| ==> ValidKey(keys[i])
    ensures 0 <= DecimalValue(PressKeys(input, keys)) <= MaxTurnTotal
    decreases |keys|
  {
    if |keys| > 0 {
      NumpadTotalsInRange(HandleNumpad(input, keys[0]), keys[1..]);
    }
  }
}
